=== FILE: README.md ===
# expression-executor in Dafny

This project models the evaluator at the core of the PHP library
`expression-executor`. `Executor::execute` takes a text expression such as
`min(2, 3) + {{x}} * (-4)` and evaluates it in stages:

1. It trims the input.
2. It rejects input that already holds a token (`guardToken`).
3. It reduces string literals, variables, constants and numbers to tokens.
4. It collapses whitespace.
5. It repeats rounds of arrays, function calls and operators until a round
   changes nothing (`calculate`).
6. If what is left is exactly one token, it returns that token's value
   (`recall`).

Each time a piece of text is recognised, `simplify` records a component for
it in a table and replaces every occurrence of the piece with a token. The
components are `ExpressionOperation`, `ExpressionFunction`,
`ExpressionArray`, brackets, strings, numbers, variables and constants.

The model is written over texts of items:

- An item is a character `Ch(c)` or a placeholder `Ph(key)`.
- The key of a placeholder is the text that was replaced. This stands in
  for the backtick-quoted md5 hash and is injective by construction.
- The table is a `Memo`, a map from keys to components.
- `Closed(text, memo)` says that every placeholder in the text has its
  entry. Every pass keeps it, and it is why every `recall` succeeds.

Each PCRE pattern of the source becomes a hand-written matcher, a function
from a text and a position to an optional match. The two ways the source
rewrites text are modelled once each in `Memo`:

- `preg_replace_callback` is a single left-to-right scan (`Memo.Scan`).
- `while (preg_match) str_replace` reduces the leftmost match everywhere and
  repeats (`Memo.Leftmost`, `Memo.Reduce`).

`calcOperations` builds the look-behind of its brackets pattern from the
registered function names, and as written it has two defects (see
"## Findings"). The operations pipeline and `Executor.Execute` therefore
take a `LookBehind` argument:

- `AsWritten` runs the pattern exactly as the source has it. `Execute(AsWritten, ...)`
  is `execute` as written.
- `Intended` runs the corrected look-behind.

Every property stated for the pipeline holds for both, except where a lemma
names one of them.

Host callbacks are parameters. These are the function and operator
`execute` methods and the variable resolver. A registry entry keeps only an
id that selects the callback.

Modules, in dependency order:

| module | file | models |
|---|---|---|
| `Wrappers` | wrappers.dfy | `Option`, `Result` |
| `Text` | text.dfy | items, character classes, `trim`, `str_replace`, whitespace collapse |
| `Components` | components.dfy | the component classes and `recall`'s bracket unwrapping |
| `OrderedMap` | ordered_map.dfy | PHP arrays with string keys: the last value wins, in the position of the first |
| `Registry` | registry.dfy | the constructor's validation, the function registry and the operator sort |
| `Memo` | memo.dfy | `simplify`, `recall`, the two rewriting schemes |
| `Strings` | strings.dfy | `prepareStrings`, `guardToken` |
| `Variables` | variables.dfy | `prepareVariables` |
| `Constants` | constants.dfy | `prepareConstants` |
| `Numbers` | numbers.dfy | `prepareNumbers` |
| `Arrays` | arrays.dfy | `prepareArrays` |
| `Functions` | functions.dfy | `calcFunctions` |
| `Operators` | operators.dfy | `calcOperations` |
| `Executor` | executor.dfy | `execute`, `calculate` |

## Model

| member | source | states |
|---|---|---|
| Registry.Construct | src/Executor.php:49-99 | Construction succeeds exactly when every function name, operator symbol and constant name is valid. Otherwise the error names the first offender of the first failing kind. Every element before it is valid. Function names are checked before operators, and operators before constants. On success the registry and the sorted operators are recorded. |
| Registry.FirstFailing | src/Executor.php:56-64 | The reported position is the first element that fails the check, and there is none exactly when all pass. |
| Registry.Register | src/Executor.php:66-69 | The registry built by `$this->functions[$name] = $function` has distinct names. Each name maps to the last function registered under it. Every registered name is present, in order of first registration. |
| Registry.RegisterLastWins | src/Executor.php:66-69 | Registering one more function is a `Put` on the registry built so far. |
| OrderedMap.FromList | src/Executor.php:66-69 | Building a PHP array from key/value pairs gives distinct keys, each holding the last value given for it, ordered by first occurrence. Every input key is present. |
| OrderedMap.PutShape | src/Executor.php:68 | Assigning an existing key replaces its value in place. Assigning a new key appends it. The key order is otherwise unchanged. |
| OrderedMap.PutDistinct | src/Executor.php:68 | Assignment keeps keys distinct. |
| Registry.SortOperators | src/Executor.php:84-89 | The sorted operators are a permutation of the given ones, ordered by non-increasing priority. |
| Registry.SortStable | src/Executor.php:84-89 | Operators of equal priority keep their registration order. |
| Registry.InsertKeeps | src/Executor.php:84-89 | Inserting an operator into a sorted list adds exactly that operator. |
| Registry.InsertSorted | src/Executor.php:84-89 | Inserting into a list sorted by priority keeps it sorted. |
| Registry.ConstructOrdersOperators | src/Executor.php:81-89 | A constructed evaluator holds a permutation of the given operators, sorted by priority and stable within each priority. |
| Components.NewOperation | src/Components/ExpressionOperation.php:26-32 | The component keeps the symbol and the value. Its operands are the given ones with backticks trimmed from both ends. |
| Components.NewFunction | src/Components/ExpressionFunction.php:23-30 | The component keeps the name, the value and the argument keys. Each argument is backtick-trimmed, and the positional or named shape is kept. |
| Components.NewArray | src/Components/ExpressionArray.php:20-26 | The component has one backtick-trimmed hash per element, keeps the values, and its value is their list. |
| Components.TrimToken | src/Components/ExpressionArray.php:22-24 | Trimming backticks from a backtick-quoted hash gives back the hash. |
| Components.TrimKeepsPlain | src/Components/ExpressionOperation.php:29-30 | Trimming backticks from a reference that holds none leaves it unchanged, so such an operand is stored as given. |
| Components.Unwrap | src/Executor.php:533-535 | Unwrapping removes every layer of brackets and keeps the value. |
| Memo.Recall | src/Executor.php:529-537 | `recall` yields the value of the innermost non-brackets component of the entry. |
| Memo.Reduce | src/Executor.php:522-527 | `simplify` plus `str_replace`: the entry is recorded and no occurrence of the matched text remains. Text without an occurrence is unchanged. The result is no longer, strictly shorter when a match of two or more items is replaced, and stays closed. |
| Memo.Leftmost | src/Executor.php:300 | `preg_match` finds nothing exactly when no position matches. Otherwise it finds a matching position with no match before it. |
| Memo.ReduceAt | src/Executor.php:300-307 | Reducing the match found at a position shortens the text and keeps it closed. |
| Memo.ScanFrom | src/Executor.php:292-296 | `preg_replace_callback` from a position keeps every old entry. With no match it returns the rest unchanged. Every placeholder it emits is either copied or has an entry. If every match is longer than one item, the text is either unchanged or shorter. |
| Memo.Scan | src/Executor.php:292-296 | Over a whole text: with no match the state is unchanged. The text never grows, and closedness is kept. |
| Memo.ScanWhole | src/Executor.php:292-296 | A scan whose first match covers the whole text leaves a single placeholder whose entry is what the callback built. |
| Text.Trim | src/Executor.php:111 | The result is the input with the longest runs of trimmed characters removed from both ends. |
| Text.TrimClean | src/Executor.php:111 | Trimming text whose ends are not trimmed characters changes nothing. |
| Text.Collapse | src/Executor.php:118 | Collapsing whitespace never lengthens the text, and every item it produces is an input item or a space. |
| Text.CollapseKeeps | src/Executor.php:118 | Collapsing keeps every non-whitespace item, in order. No whitespace character other than a space is left, and no two spaces stand side by side. A text that starts with whitespace starts with a space after collapsing, and any other text keeps its first item. |
| Text.CollapseRun | src/Executor.php:118 | A nonempty whitespace run on its own becomes exactly one space, so no run is ever dropped. |
| Text.CollapseSplit | src/Executor.php:118 | Collapsing is piecewise across any cut that does not fall inside a whitespace run. With `CollapseRun` this fixes the result on every text: each run becomes one space and every other item stays. |
| Text.ReplaceAll | src/Executor.php:302-306 | `str_replace` with a replacement no longer than the pattern never lengthens the text. It shortens the text when the pattern occurs and the replacement is shorter. It is the identity when the pattern does not occur. Its items come from the text or the replacement. |
| Text.ReplaceAllRemovesEvery | src/Executor.php:302-306 | After replacing a pattern with an item not inside it, the pattern no longer occurs. |
| Text.ReplaceWhole | src/Executor.php:302-306 | Replacing a text that is the whole subject yields just the replacement. |
| Text.SkippedAreSpaces | src/Executor.php:411-413 | Every item that `\s*` passes over is a whitespace character. |
| Strings.OpeningAt | src/Executor.php:299 | The opening part of the literal pattern is an even run of backslashes that is not preceded by a backslash, followed by a quote. |
| Strings.FirstClosing | src/Executor.php:299 | The closing quote is the first quote preceded by an even run of backslashes. There is none exactly when no such quote exists. |
| Strings.LiteralAt | src/Executor.php:299 | A literal match ends at a closing quote after its opening, spans at least three items, and captures the content between them. |
| Strings.EmptyString | src/Executor.php:289-296 | `""` alone becomes one placeholder whose entry is the empty string. Its key is the empty text, as `simplify("", ...)` hashes the empty string and not the two quotes. |
| Strings.Literals | src/Executor.php:299-307 | The literal loop ends with no literal left. The text stays closed and never grows. Text without a literal is unchanged. |
| Strings.PrepareStrings | src/Executor.php:287-310 | `prepareStrings` leaves no literal, keeps the text closed and never lengthens it. |
| Strings.UnescapeEscape | src/Executor.php:301 | Unescaping (`\"` to `"`) after escaping every quote gives back the original characters. |
| Strings.LiteralOfEscaped | src/Executor.php:299 | A nonempty string with no backslash, escaped and quoted, is matched whole as one literal whose content is the escaped text. |
| Strings.PlainLiteral | src/Executor.php:299-301 | A quoted string with no quote or backslash inside is one literal, and its content unescapes to itself. |
| Strings.LiteralsWhole | src/Executor.php:300-307 | A text that is one whole literal becomes a single placeholder whose entry is the unescaped content. |
| Strings.SingleLiteral | src/Executor.php:287-310 | `prepareStrings` on `"s"`, where s is a plain string, records `ExpressionString(s)` under one placeholder. |
| Strings.Blank | src/Executor.php:506-512 | `guardToken`'s blanking loop leaves no literal and never lengthens the text. Text without a literal is unchanged. It introduces only quotes. |
| Strings.GuardWithoutQuotes | src/Executor.php:502-520 | Without quotes, the guard passes exactly when the input holds no token. |
| Strings.GuardWithoutBackticks | src/Executor.php:515-517 | Input without backticks always passes the guard. |
| Strings.GuardIgnoresQuotedToken | src/Executor.php:502-520 | A token-shaped text is rejected by itself but accepted inside a string literal. |
| Strings.BlankWhole | src/Executor.php:506-512 | A text that is one whole literal blanks to `""`. |
| Variables.VariableAt | src/Executor.php:269 | A variable match is `{{`, a nonempty name without `}`, then `}}`. The name is captured. |
| Variables.Variables | src/Executor.php:269-278 | The variable loop ends with no variable left. The text stays closed and never grows. Text without a variable is unchanged. |
| Variables.PrepareVariables | src/Executor.php:262-280 | Without a resolver the text is unchanged. With one, no variable is left. |
| Variables.SingleVariable | src/Executor.php:269-278 | `{{name}}` becomes one placeholder whose entry holds what the resolver returned for `name`. |
| Variables.NoBraceNoVariable | src/Executor.php:269 | A text without `{` has no variable. |
| Constants.ReplaceConstant | src/Executor.php:367-373 | One constant's pass never lengthens the text and keeps it closed. With no match it changes nothing. |
| Constants.PrepareConstants | src/Executor.php:363-376 | All constant passes together keep the text closed and never lengthen it. |
| Constants.CallIsNotConstant | src/Executor.php:366 | A name followed by spaces and `(` is never taken for a constant. |
| Constants.SingleConstant | src/Executor.php:366-373 | A text spelling a constant's name in any case becomes one placeholder for that constant. |
| Constants.ConstantsNeedLetters | src/Executor.php:363-376 | Text with no letter or underscore is left alone by every validly named constant. |
| Numbers.FloatNegAt | src/Executor.php:321 | A negative float match starts with `(` with no word character before it, and is at least six items long. |
| Numbers.FloatPosAt | src/Executor.php:331 | A positive float match starts with a digit, with no word character before or after it. |
| Numbers.IntNegAt | src/Executor.php:341 | A negative integer match is `( - digits )`, with no word character before or after it. |
| Numbers.IntPosAt | src/Executor.php:351 | A positive integer match is a run of digits with no word character around it. A leading zero stands alone. |
| Numbers.PrepareNumbers | src/Executor.php:317-360 | The four number passes never lengthen the text and keep it closed. |
| Numbers.DecimalIsNumeral | src/Executor.php:350-357 | The decimal form of n becomes one placeholder for `ExpressionInteger(n)`. |
| Numbers.NegativeIsNumeral | src/Executor.php:340-347 | `(-n)` becomes one placeholder for `ExpressionInteger(-n)`. |
| Numbers.DecimalRoundTrip | src/Executor.php:353 | Reading back the decimal form of n gives n. |
| Numbers.NumbersNeedDigits | src/Executor.php:317-360 | Text with no digit and no `(` is left unchanged. |
| Arrays.ElementsAt | src/Executor.php:381 | The element list of an array match holds at least one token and ends at `]`. |
| Arrays.ElementsIn | src/Executor.php:381 | Every element of an array match is a placeholder inside the match. |
| Arrays.ArrayAt | src/Executor.php:381 | An array match runs from `[` to `]`, has at least three items and at least one element. |
| Arrays.EmptyArray | src/Executor.php:396-402 | `[]` alone is not an array match, so the empty-array pass turns it into one placeholder for an array with no elements. |
| Arrays.ArrayEntry | src/Executor.php:383-391 | The array component keeps one reference per element, as the placeholder's key, and each value is the recall of its element. |
| Arrays.RefsKnown | src/Executor.php:387-389 | In a closed text every element of an array match has an entry, so its recall succeeds. |
| Arrays.ArraysFrom | src/Executor.php:380-394 | The array scan keeps old entries and closedness. It either changes nothing or shortens the text. |
| Arrays.ArraysFromNone | src/Executor.php:380-394 | With no array from the start position, the scan changes nothing. |
| Arrays.PrepareArrays | src/Executor.php:378-403 | `prepareArrays` keeps the text closed. It either changes nothing or shortens the text. |
| Arrays.ArraysNone | src/Executor.php:378-403 | Text without arrays and without `[]` is unchanged. |
| Arrays.ListRoundTrip | src/Executor.php:381 | The text `[k1, k2, ...]`, with or without a trailing comma, matches whole, with the elements in order. |
| Arrays.ListClosed | src/Executor.php:381 | An array text is closed exactly when every element has an entry. |
| Arrays.SingleArray | src/Executor.php:378-394 | An array text becomes one placeholder whose entry recalls each element in order. |
| Functions.PositionalIn | src/Executor.php:411 | Every positional argument is a placeholder inside the argument list. |
| Functions.NamedIn | src/Executor.php:412 | Every named argument's value is a placeholder inside the list, and every name is a nonempty word. |
| Functions.ArgumentsAt | src/Executor.php:411-415 | The argument list ends at `)`. There are no names, or one name per value. |
| Functions.ArgumentsIn | src/Executor.php:411-415 | Every argument token is inside the argument list. |
| Functions.CallMatch | src/Executor.php:410-415 | A call match is the function name in any case, with no word character before it, then `(`, the arguments and `)`. |
| Functions.CallIn | src/Executor.php:410-415 | Every argument token of a call match is inside the match. |
| Functions.PositionalCall | src/Executor.php:410-423 | A written call `name(k1, k2, ...)`, whatever follows it, is matched from the name to its `)`. The match yields exactly the tokens written, in the order written, and no names, so reading the arguments gives back what was written. |
| Functions.NamedCall | src/Executor.php:410-436 | A written call `name(x1: k1, x2: k2, ...)` with word names is matched from the name to its `)`. The match yields the tokens and the names, both in the order written. |
| Functions.EmptyCall | src/Executor.php:413-438 | `name()`, whatever follows it, is matched from the name to its `)` with no arguments. |
| Functions.NamedStart | src/Executor.php:411-415 | Named arguments start with a word character, so the positional alternative fails on them and the named one is the one that reads them. |
| Functions.SingleCall | src/Executor.php:418-452 | One function's loop on the text of one positional call of it leaves a single placeholder. Its entry is the function component with the tokens in order, and its value is the host's result for the recalled tokens. |
| Functions.ArgsOf | src/Executor.php:420-439 | Positional arguments keep their order. Named arguments have distinct keys, each holding the last value given for it, and every name given appears. |
| Functions.RecallArgs | src/Executor.php:442-444 | Recalling arguments keeps their shape, count and keys, and replaces each token by its recalled value. |
| Functions.CallArgsKnown | src/Executor.php:442-444 | In a closed text every argument of a call match has an entry. |
| Functions.CallEntry | src/Executor.php:441-445 | The function component carries the function's name and the argument tokens. Its value is the callback applied to the recalled arguments. |
| Functions.Calls | src/Executor.php:418-452 | One function's loop ends with no call of it left. The text stays closed, and it either changes nothing or shortens the text. Text without a call is unchanged. |
| Functions.CalcFunctions | src/Executor.php:405-455 | `calcFunctions` keeps the text closed and either changes nothing or shortens it. Without calls it changes nothing. No call of the last function is left. |
| Operators.RightOperand | src/Executor.php:461-465 | A right operand is a placeholder, plain or wrapped in brackets, inside its span. |
| Operators.SeparatorFrom | src/Executor.php:470 | The symbol is found at the last position where it and the right operand match. None is found exactly when no position qualifies. |
| Operators.Shape | src/Executor.php:460-470 | An operation match captures its two operand tokens, both inside the match. |
| Operators.OperationMatch | src/Executor.php:459-461 | The brackets family matches only where its shape matches and no registered function name, in any case, ends just before it. The other families match on shape alone. |
| Operators.OperandsKnown | src/Executor.php:473-474 | In a closed text both operands of an operation match have entries. |
| Operators.OperationEntry | src/Executor.php:473-480 | The component is an operation on the two tokens, wrapped in brackets exactly for the brackets family. Its value is the callback applied to the recalled operands. |
| Operators.OperationLoop | src/Executor.php:472-484 | One operator's loop ends with no match left. The text stays closed, and it either changes nothing or shortens the text. Text without a match is unchanged. |
| Operators.FamilyPass | src/Executor.php:469-485 | The pass over all operators in priority order keeps the text closed and never lengthens it. No match of the last operator remains. |
| Operators.CalcOperations | src/Executor.php:457-493 | `calcOperations`, with the brackets look-behind as written or as intended, keeps the text closed. It either changes nothing or shortens the text, and never returns a bracketed single token. |
| Operators.FamiliesInOrder | src/Executor.php:460-470 | The families run in the order brackets, simple, wrapped, wrapped-left, wrapped-right. Each family's pass goes over all operators and works on the text the previous family left. |
| Operators.SingleOperation | src/Executor.php:472-484 | `x OP y` becomes one placeholder whose entry applies the operator to x and y. |
| Operators.LeftAssociative | src/Executor.php:472-484 | `a OP b OP c` evaluates as `(a OP b) OP c`. |
| Operators.RightFirst | src/Executor.php:472-484 | In `a L b H c`, H's loop reduces `b H c` first and leaves `a L m`. |
| Operators.PriorityOrder | src/Executor.php:469-485 | With H above L in priority, `a L b H c` evaluates as `a L (b H c)`. |
| Operators.BracketsFirst | src/Executor.php:459-485 | With H above L in priority and nonempty function names, `(a L b) H c` ends as one placeholder whose value is `(a L b) H c`. The bracket is recorded as a brackets component before H's simple pass can take `b H c`. Under the as-written look-behind this needs at least one registered function. |
| Executor.Round | src/Executor.php:247-251 | One round of arrays, functions and operations keeps the text closed and either changes nothing or shortens it. |
| Executor.Rounds | src/Executor.php:245-252 | The loop stops after a round that leaves the text unchanged (`$before === $expression`). The text stays closed and never grows. |
| Executor.Calculate | src/Executor.php:242-255 | A single token is returned as is. Otherwise the result is settled. |
| Executor.Prepare | src/Executor.php:113-118 | The preparation passes in order keep the text closed and never lengthen it. |
| Executor.Input | src/Executor.php:110-111 | The trimmed input holds no placeholder and is no longer than the input. |
| Executor.Execute | src/Executor.php:108-126 | `execute` fails with an invalid-token error exactly when the guard rejects the trimmed input. Once the guard accepts it, `execute` succeeds exactly when the calculated text is a single token, and then returns that token's recalled value. Otherwise it fails and reports the calculated text. |
| Executor.TokenPassesThrough | src/Executor.php:115-118 | A lone token passes through variables, constants, numbers and whitespace collapse unchanged. |
| Executor.ExecuteToken | src/Executor.php:119-123 | When preparation leaves one token, `execute` returns its value. |
| Executor.PreparePlain | src/Executor.php:113-118 | For text without quotes, braces, letters or underscores, only the number pass and the whitespace collapse act. |
| Executor.ExecuteNumeral | src/Executor.php:108-126 | Executing the decimal form of n returns the integer n. |
| Executor.ExecuteNegative | src/Executor.php:108-126 | Executing any string that spells `(-`, the decimal form of n, then `)` returns the integer -n. |
| Executor.ExecuteString | src/Executor.php:108-126 | Executing `"s"`, where s is a plain string, returns the string s. |
| Executor.GuardLiteral | src/Executor.php:502-520 | A plain string literal passes the guard. |
| Operators.NotFunctionAsWritten | src/Executor.php:459 | The look-behind as written: case-sensitive, and never satisfied when no function is registered. |
| Operators.OperationMatchAsWritten | src/Executor.php:459-461 | The brackets family exactly as written, with the look-behind of `NotFunctionAsWritten`. |
| Operators.OperationMatchBy | src/Executor.php:459-470 | The matcher the pipeline runs: `AsWritten` selects the pattern as the source writes it, and `Intended` the corrected one. Either way a match is the family's shape at that position, and outside the brackets family the look-behind plays no part. |
| Operators.CaseSensitiveLookBehind | src/Executor.php:459-461 | With `MIN` registered, the as-written brackets pattern matches `(a+b)` inside `min(a+b)`. The corrected one does not. |
| Operators.EmptyRegistryLookBehind | src/Executor.php:459-461 | With no functions, the as-written brackets family never matches. The corrected one matches on shape. |
| Operators.BracketsPassIdle | src/Executor.php:459-470 | With no functions registered, the as-written brackets pass of `calcOperations` leaves every text unchanged, whatever the operators. |
| Operators.EmptyRegistryGrouping | src/Executor.php:459-461 | In `w-(x+y)-z` with no functions, the as-written brackets family misses `(x+y)`. The corrected one matches it. |
| Operators.AsWrittenNesting | src/Executor.php:459-490 | With no functions and the look-behind as written, `w o (x i y) o z` takes two rounds of `calcOperations`. The first leaves `w o m`, and the value is `w o ((x i y) o z)`. |
| Operators.IntendedNesting | src/Executor.php:459-490 | With the corrected look-behind, the same text ends as one placeholder in a single round, with the value `(w o (x i y)) o z`. |

## Left out

- The md5 hash of `simplify` is replaced by the matched text itself as the placeholder key. This makes keys injective. Hash collisions and the hex alphabet are not modelled, and a placeholder never looks like user text.
- Upper-case hex tokens: the array pattern (`/i`, src/Executor.php:381) and the call pattern (`/ui`, src/Executor.php:415) accept upper-case hex in a token, while the guard's token pattern (src/Executor.php:515) does not. So an input such as ``[`AAAA…A`]`` with 32 upper-case letters passes the guard, becomes an array, and `recall` then reads a missing entry and calls `getValue()` on null, a PHP Error rather than a SyntaxException. In the model placeholders and input characters are distinct, so a written token is never taken for a placeholder and this path cannot be expressed.
- The `/u` flag: `\s` is modelled as the six ASCII whitespace characters, not Unicode whitespace. Two further effects of `/u` are not modelled. On input that is not valid UTF-8, `preg_replace` at src/Executor.php:118 returns null and the typed call to `calculate` throws a TypeError; the model's input is a sequence of characters, which is always valid. With `/ui` the call pattern folds case by Unicode rules, so U+212A KELVIN SIGN matches `k`; `Text.FoldAt` folds only ASCII letters.
- Float values: a float component keeps its sign, whole part and fraction digits. `floatval` and `(float)` rounding are not modelled.
- `intval` and `(int)` overflow past PHP_INT_MAX is not modelled. Integers are unbounded.
- `explain` and `buildTree` are not part of this model. They only read the components that the model records.
- The exceptions with codes 1 and 2, for a function or operator of the wrong class, cannot arise with typed parameters. They are not modelled.
- `ExpressionVariable`, `ExpressionConstant`, `ExpressionString`, `ExpressionInteger`, `ExpressionFloat` and `ExpressionBrackets` are plain holders. They are modelled as constructors of `Component`.
- Host functions, operators and the variable resolver are opaque parameters (`Host`). Their results are whatever the parameter returns. Exceptions they throw are not modelled.
- Named arguments whose names are all digits would become integer keys in PHP's `array_combine`. The model keeps them as string keys.
- PCRE's `$` also matches before a final line feed. The validation patterns are modelled with that behaviour, so a name ending in a line feed after word characters is accepted, as in the code.
- The variable name passed to the resolver is the captured text as is, untrimmed, as the code does.
- Arrays.ArrayEntry: the reference stored for an element is its placeholder's key. The source stores each piece of `explode(',', ...)` with only its backticks trimmed, so an element written after a space keeps the space and its opening backtick. The values agree, because `recall` trims spaces as well. Only the stored references differ, and only `explain` reads them.
- Registry.SortOperators: `usort` is assumed stable (PHP 8 and later). Earlier PHP versions may reorder operators of equal priority.
- Numbers.PrepareNumbers: states length and closedness for every input. The exact result is proved only for plain and negated decimal integers (`Numbers.DecimalIsNumeral`, `Numbers.NegativeIsNumeral`), not for floats.
- Constants.PrepareConstants: does not state that no constant is left. A later constant's pass can create a new match for an earlier one, so the source does not promise it either.
- Executor.Rounds: states that the loop stops after a round that leaves the text unchanged, not how many rounds it takes.
- Executor.Execute: the end-to-end results are proved for integers, plain strings and lone tokens. Operators, functions and arrays are covered pass by pass.

## Findings

| source | as written | input that shows it | evidently intended | confidence | as-written member | corrected member |
|---|---|---|---|---|---|---|
| src/Executor.php:459-461 | The brackets look-behind `(?<!name1\|name2)` is case-sensitive, while calls are matched with `/i` | `min(x+y)` with a function registered as `MIN`: `(x+y)` is reduced as a bracketed operation, leaving `min` before a bare token, so the call is never made and `execute` ends with a SyntaxException | The look-behind ignores case like the call pattern, so the argument of `min(...)` stays a call argument | not executed | Operators.OperationMatchAsWritten, Operators.CaseSensitiveLookBehind | Operators.OperationMatch |
| src/Executor.php:459 | With no functions registered the look-behind is `(?<!)`, which never matches, so the brackets family is disabled | `2-(3+4)-5` with no functions: the simple `+` pass reduces `3+4` to S, the wrapped-left `-` pass then reduces `(S)-5` to 2, and the next round computes `2-2`. The expression is grouped as `2 - ((3+4) - 5)` and gives 0 instead of -10 | With no functions nothing is excluded, and brackets group first | not executed | Operators.EmptyRegistryLookBehind, Operators.EmptyRegistryGrouping, Operators.BracketsPassIdle, Operators.AsWrittenNesting | Operators.OperationMatch, Operators.IntendedNesting |

=== FILE: arrays.dfy ===
/** `prepareArrays` (src/Executor.php): a bracketed, comma-separated list
    of placeholders (an optional trailing comma allowed) becomes an array
    entry holding the recalled values in order; then every `[]` becomes the
    empty array. */
module Arrays {
  import opened Wrappers
  import opened Text
  import opened Components
  import opened Memo

  /** `(?:\s*(PH)\s*,)*(\s*PH)\s*,?]` from j: the element keys and the
      position after the closing bracket. */
  function ElementsAt(t: Text, j: nat): (r: Option<(seq<Text>, nat)>)
    requires j <= |t|
    ensures r.Some? ==> |r.value.0| >= 1 && j < r.value.1 <= |t| && CharAt(t, r.value.1 - 1, ']')
    decreases |t| - j
  {
    var a := SkipSpaces(t, j);
    if !PhAt(t, a) then None
    else
      var b := SkipSpaces(t, a + 1);
      if CharAt(t, b, ']') then Some(([t[a].key], b + 1))
      else if CharAt(t, b, ',') && CharAt(t, b + 1, ']') then Some(([t[a].key], b + 2))
      else if CharAt(t, b, ',') then
        match ElementsAt(t, b + 1)
        case None => None
        case Some((ks, e)) => Some(([t[a].key] + ks, e))
      else None
  }

  /** Every element key is a placeholder inside the matched stretch. */
  lemma {:induction false} ElementsIn(t: Text, j: nat)
    requires j <= |t|
    ensures var r := ElementsAt(t, j);
      r.Some? ==> forall k :: 0 <= k < |r.value.0| ==> InRange(t, j, r.value.1, r.value.0[k])
    decreases |t| - j
  {
    var r := ElementsAt(t, j);
    var a := SkipSpaces(t, j);
    if r.Some? {
      var b := SkipSpaces(t, a + 1);
      var (ks, e) := r.value;
      PhIn(t, j, e, a);
      if !CharAt(t, b, ']') && !(CharAt(t, b, ',') && CharAt(t, b + 1, ']')) {
        ElementsIn(t, b + 1);
        var (ks', e') := ElementsAt(t, b + 1).value;
        assert r.value == ([t[a].key] + ks', e');
        PrependIn(t, j, b + 1, e, t[a].key, ks');
      }
    }
  }

  /** `\[(?:\s*(PH)\s*,)*(\s*PH)\s*,?]` at i; the refs are the element
      keys in order. */
  function ArrayAt(t: Text, i: nat): (r: Option<Match>)
    ensures r.Some? ==> r.value.len >= 3 && i + r.value.len <= |t|
    ensures r.Some? ==> CharAt(t, i, '[') && CharAt(t, i + r.value.len - 1, ']')
    ensures r.Some? ==> |r.value.refs| >= 1 && r.value.names == []
  {
    if CharAt(t, i, '[') then
      match ElementsAt(t, i + 1)
      case None => None
      case Some((ks, e)) => if e - i >= 3 then Some(Match(e - i, ks, [])) else None
    else None
  }

  /** Every element key of an array match is a placeholder inside it. */
  lemma ArrayIn(t: Text, i: nat)
    ensures var r := ArrayAt(t, i);
      r.Some? ==> forall k :: 0 <= k < |r.value.refs| ==> InRange(t, i, i + r.value.len, r.value.refs[k])
  {
    var r := ArrayAt(t, i);
    if r.Some? {
      ElementsIn(t, i + 1);
      forall k | 0 <= k < |r.value.refs| ensures InRange(t, i, i + r.value.len, r.value.refs[k]) {
        Widen(t, i, i + 1, i + r.value.len, i + r.value.len, r.value.refs[k]);
      }
    }
  }

  /** `\[]` at i. */
  function EmptyArrayAt(t: Text, i: nat): (r: Option<Match>)
    ensures r.Some? <==> CharAt(t, i, '[') && CharAt(t, i + 1, ']')
    ensures r.Some? ==> r.value.len == 2
  {
    if CharAt(t, i, '[') && CharAt(t, i + 1, ']') then Some(Match(2, [], [])) else None
  }

  function EmptyArrayEntry(m: Text, x: Match): (Text, Component<Text>) {
    (m, ArrayC([], []))
  }

  /** The entry of an array match: the element keys and their recalled
      values. The source stores the `explode(',', ...)` pieces with only
      their backticks trimmed, so an element after a space keeps the space
      and its opening backtick. `recall` trims spaces too, so the values
      are the same. */
  function ArrayEntry(memo: Memo, refs: seq<Text>): (c: Component<Text>)
    requires forall k :: 0 <= k < |refs| ==> refs[k] in memo
    ensures c.ArrayC? && c.refs == refs && |c.values| == |refs|
    ensures forall k :: 0 <= k < |refs| ==> c.values[k] == Recall(memo, refs[k])
  {
    ArrayC(refs, seq(|refs|, k requires 0 <= k < |refs| => Recall(memo, refs[k])))
  }

  /** The first `preg_replace_callback` of `prepareArrays` from position i
      of the original text; every placeholder of t has its entry in the
      memo, so every element can be recalled. */
  function ArraysFrom(t: Text, i: nat, memo: Memo): (r: State)
    requires i <= |t|
    requires Closed(t, memo)
    ensures |r.text| <= |t| - i
    ensures forall k :: k in memo ==> k in r.memo
    ensures r == State(t[i..], memo) || |r.text| < |t| - i
    ensures Closed(r.text, r.memo)
    decreases |t| - i
  {
    if i == |t| then State([], memo)
    else if HitAt(t, i, ArrayAt) then
      var x := ArrayAt(t, i).value;
      var m := t[i..i + x.len];
      RefsKnown(t, i, memo);
      var memo' := memo[m := ArrayEntry(memo, x.refs)];
      assert Closed(t, memo');
      var rest := ArraysFrom(t, i + x.len, memo');
      assert m in rest.memo;
      State([Ph(m)] + rest.text, rest.memo)
    else
      var rest := ArraysFrom(t, i + 1, memo);
      assert t[i..] == [t[i]] + t[i + 1..];
      assert t[i].Ph? ==> t[i].key in rest.memo;
      State([t[i]] + rest.text, rest.memo)
  }

  /** Without an array match from i on, the pass copies the rest of the
      text and adds no entry. */
  lemma {:induction false} ArraysFromNone(t: Text, i: nat, memo: Memo)
    requires i <= |t| && Closed(t, memo)
    requires forall p :: i <= p < |t| ==> !HitAt(t, p, ArrayAt)
    ensures ArraysFrom(t, i, memo) == State(t[i..], memo)
    decreases |t| - i
  {
    if i < |t| {
      ArraysFromNone(t, i + 1, memo);
      assert t[i..] == [t[i]] + t[i + 1..];
    }
  }

  /** The elements of an array match at i have entries when t is closed. */
  lemma RefsKnown(t: Text, i: nat, memo: Memo)
    requires Closed(t, memo) && HitAt(t, i, ArrayAt)
    ensures var x := ArrayAt(t, i).value; forall k :: 0 <= k < |x.refs| ==> x.refs[k] in memo
  {
    var x := ArrayAt(t, i).value;
    ArrayIn(t, i);
    forall k | 0 <= k < |x.refs| ensures x.refs[k] in memo {
      KnownIn(t, memo, i, i + x.len, x.refs[k]);
    }
  }

  /** `prepareArrays`. */
  function PrepareArrays(st: State): (r: State)
    requires Closed(st.text, st.memo)
    ensures Closed(r.text, r.memo)
    ensures |r.text| <= |st.text|
    ensures r.text == st.text || |r.text| < |st.text|
  {
    assert st.text[0..] == st.text;
    var s1 := ArraysFrom(st.text, 0, st.memo);
    ScanShrinks(s1, EmptyArrayAt, EmptyArrayEntry);
    Scan(s1, EmptyArrayAt, EmptyArrayEntry)
  }

  /** A text without arrays, empty or not, is left as it is. */
  lemma ArraysNone(st: State)
    requires Closed(st.text, st.memo)
    requires NoHit(st.text, ArrayAt) && NoHit(st.text, EmptyArrayAt)
    ensures PrepareArrays(st) == st
  {
    ArraysFromNone(st.text, 0, st.memo);
    assert st.text[0..] == st.text;
  }

  /** `[]` alone becomes one placeholder for the empty array. */
  lemma EmptyArray(memo: Memo)
    ensures var t := [Ch('['), Ch(']')];
      PrepareArrays(State(t, memo)) == State([Ph(t)], memo[t := ArrayC([], [])])
  {
    var t := [Ch('['), Ch(']')];
    assert Closed(t, memo);
    ArraysFromNone(t, 0, memo);
    assert t[0..] == t;
    assert EmptyArrayAt(t, 0) == Some(Match(2, [], []));
    ScanWhole(State(t, memo), EmptyArrayAt, EmptyArrayEntry);
  }

  // ---------------------------------------------------------------------
  // Lists as written

  /** The elements of a list written with ", " between them. */
  function Join(ks: seq<Text>): (t: Text)
    requires |ks| >= 1
    ensures |t| == 3 * |ks| - 2
  {
    if |ks| == 1 then [Ph(ks[0])] else [Ph(ks[0]), Ch(','), Ch(' ')] + Join(ks[1..])
  }

  /** The list `[k1, k2, ...]`, with a trailing comma when asked. */
  function ListText(ks: seq<Text>, trailing: bool): Text
    requires |ks| >= 1
  {
    [Ch('[')] + Join(ks) + (if trailing then [Ch(','), Ch(']')] else [Ch(']')])
  }

  /** The elements of a written list followed by `]` or `,]` are its keys,
      in order. */
  lemma {:induction false} ElementsOfJoin(t: Text, j: nat, ks: seq<Text>, trailing: bool)
    requires |ks| >= 1
    requires j + |Join(ks)| <= |t| && t[j..j + |Join(ks)|] == Join(ks)
    requires Closes(t, j + |Join(ks)|, trailing)
    ensures ElementsAt(t, j) == Some((ks, j + |Join(ks)| + (if trailing then 2 else 1)))
    decreases |ks|, 1
  {
    if |ks| == 1 {
      assert t[j] == Join(ks)[0];
      assert [t[j].key] == ks;
      ElementsLast(t, j, trailing);
    } else {
      ElementsOfLonger(t, j, ks, trailing);
    }
  }

  /** The list ends at e: `]`, or `,]` with the trailing comma. */
  predicate Closes(t: Text, e: nat, trailing: bool) {
    if trailing then CharAt(t, e, ',') && CharAt(t, e + 1, ']') else CharAt(t, e, ']')
  }

  lemma {:induction false} ElementsOfLonger(t: Text, j: nat, ks: seq<Text>, trailing: bool)
    requires |ks| >= 2
    requires j + |Join(ks)| <= |t| && t[j..j + |Join(ks)|] == Join(ks)
    requires Closes(t, j + |Join(ks)|, trailing)
    ensures ElementsAt(t, j) == Some((ks, j + |Join(ks)| + (if trailing then 2 else 1)))
    decreases |ks|, 0
  {
    JoinSplit(t, j, ks);
    ElementsOfJoin(t, j + 3, ks[1..], trailing);
    ElementsNext(t, j);
    assert [ks[0]] + ks[1..] == ks;
  }

  /** A written list of two or more keys is its first key, ", " and the
      written rest. */
  lemma JoinSplit(t: Text, j: nat, ks: seq<Text>)
    requires |ks| >= 2
    requires j + |Join(ks)| <= |t| && t[j..j + |Join(ks)|] == Join(ks)
    ensures t[j] == Ph(ks[0]) && t[j + 1] == Ch(',') && t[j + 2] == Ch(' ') && t[j + 3] == Ph(ks[1])
    ensures j + 3 + |Join(ks[1..])| == j + |Join(ks)|
    ensures t[j + 3..j + 3 + |Join(ks[1..])|] == Join(ks[1..])
  {
    var rest := Join(ks[1..]);
    assert Join(ks) == [Ph(ks[0]), Ch(','), Ch(' ')] + rest;
    assert t[j..j + |Join(ks)|][3..] == rest;
    assert rest[0] == Ph(ks[1]);
  }

  lemma ElementsLast(t: Text, j: nat, trailing: bool)
    requires PhAt(t, j) && Closes(t, j + 1, trailing)
    ensures ElementsAt(t, j) == Some(([t[j].key], j + 1 + (if trailing then 2 else 1)))
  {
    assert SkipSpaces(t, j) == j;
    assert SkipSpaces(t, j + 1) == j + 1;
  }

  lemma ElementsNext(t: Text, j: nat)
    requires PhAt(t, j) && CharAt(t, j + 1, ',') && CharAt(t, j + 2, ' ') && PhAt(t, j + 3)
    ensures var r := ElementsAt(t, j + 3);
      r.Some? ==> ElementsAt(t, j) == Some(([t[j].key] + r.value.0, r.value.1))
  {
    assert SkipSpaces(t, j) == j && SkipSpaces(t, j + 1) == j + 1;
    assert ElementsAt(t, j + 2) == ElementsAt(t, j + 3) by {
      assert SkipSpaces(t, j + 3) == j + 3;
      assert SkipSpaces(t, j + 2) == j + 3;
    }
  }

  /** A written list is parsed back to its keys, with or without the
      trailing comma. */
  lemma ListRoundTrip(ks: seq<Text>, trailing: bool)
    requires |ks| >= 1
    ensures var t := ListText(ks, trailing);
      ArrayAt(t, 0) == Some(Match(|t|, ks, []))
  {
    ListShape(ks, trailing);
    ListParsed(ListText(ks, trailing), ks, trailing);
  }

  /** A text of the shape of a written list is one array match. */
  lemma ListParsed(t: Text, ks: seq<Text>, trailing: bool)
    requires |ks| >= 1
    requires CharAt(t, 0, '[') && 1 + |Join(ks)| <= |t| && t[1..1 + |Join(ks)|] == Join(ks)
    requires Closes(t, 1 + |Join(ks)|, trailing)
    requires |t| == |Join(ks)| + (if trailing then 3 else 2)
    ensures ArrayAt(t, 0) == Some(Match(|t|, ks, []))
  {
    ElementsOfJoin(t, 1, ks, trailing);
  }

  /** The parts of a written list: `[`, the joined keys, the close. */
  lemma ListShape(ks: seq<Text>, trailing: bool)
    requires |ks| >= 1
    ensures var t := ListText(ks, trailing); var n := |Join(ks)|;
      CharAt(t, 0, '[') && 1 + n <= |t| && t[1..1 + n] == Join(ks) && Closes(t, 1 + n, trailing) &&
      |t| == n + (if trailing then 3 else 2)
  {
    var j := Join(ks);
    var close: Text := if trailing then [Ch(','), Ch(']')] else [Ch(']')];
    var t := ListText(ks, trailing);
    assert t == [Ch('[')] + j + close;
    assert t[1..1 + |j|] == j;
    assert t[1 + |j|] == close[0];
    assert trailing ==> t[2 + |j|] == close[1];
  }

  /** The placeholders of a written list are its elements: it is closed
      exactly when every element has an entry. */
  lemma ListClosed(ks: seq<Text>, trailing: bool, memo: Memo)
    requires |ks| >= 1
    ensures Closed(ListText(ks, trailing), memo) <==> forall k :: 0 <= k < |ks| ==> ks[k] in memo
  {
    var t := ListText(ks, trailing);
    if forall k :: 0 <= k < |ks| ==> ks[k] in memo {
      forall i | 0 <= i < |t| && t[i].Ph? ensures t[i].key in memo {
        JoinItems(ks, t, i);
      }
    }
    if Closed(t, memo) {
      forall k | 0 <= k < |ks| ensures ks[k] in memo {
        JoinHas(ks, k);
        assert t[1 + 3 * k] == Ph(ks[k]);
      }
    }
  }

  lemma {:induction false} JoinHas(ks: seq<Text>, k: nat)
    requires k < |ks|
    ensures Join(ks)[3 * k] == Ph(ks[k])
    decreases |ks|
  {
    if k > 0 {
      JoinHas(ks[1..], k - 1);
      assert Join(ks)[3 * k] == Join(ks[1..])[3 * (k - 1)];
    }
  }

  /** A lone written list becomes one placeholder whose entry holds the
      element keys and their values in order. */
  lemma SingleArray(ks: seq<Text>, trailing: bool, memo: Memo)
    requires |ks| >= 1
    requires forall k :: 0 <= k < |ks| ==> ks[k] in memo
    requires Closed(ListText(ks, trailing), memo)
    ensures var t := ListText(ks, trailing);
      PrepareArrays(State(t, memo)) == State([Ph(t)], memo[t := ArrayEntry(memo, ks)])
  {
    var t := ListText(ks, trailing);
    ListRoundTrip(ks, trailing);
    assert t[0..|t|] == t && t[0..] == t;
    var s1 := State([Ph(t)], memo[t := ArrayEntry(memo, ks)]);
    assert Closed(t, s1.memo);
    assert ArraysFrom(t, |t|, memo[t := ArrayEntry(memo, ks)]) == State([], s1.memo);
    assert ArraysFrom(t, 0, memo) == s1;
    assert NoHit(s1.text, EmptyArrayAt);
  }

  lemma JoinItems(ks: seq<Text>, t: Text, i: nat)
    requires |ks| >= 1 && (t == ListText(ks, true) || t == ListText(ks, false))
    requires i < |t| && t[i].Ph?
    ensures exists k :: 0 <= k < |ks| && t[i] == Ph(ks[k])
  {
    assert 1 <= i <= |Join(ks)|;
    assert t[i] == Join(ks)[i - 1];
    JoinPh(ks, i - 1);
  }

  lemma {:induction false} JoinPh(ks: seq<Text>, q: nat)
    requires |ks| >= 1 && q < |Join(ks)| && Join(ks)[q].Ph?
    ensures exists k :: 0 <= k < |ks| && Join(ks)[q] == Ph(ks[k])
    decreases |ks|
  {
    if |ks| > 1 && q >= 3 {
      JoinPh(ks[1..], q - 3);
      var k :| 0 <= k < |ks[1..]| && Join(ks[1..])[q - 3] == Ph(ks[1..][k]);
      assert Join(ks)[q] == Ph(ks[k + 1]);
    } else {
      assert Join(ks)[q] == Ph(ks[0]);
    }
  }
}

=== FILE: components.dfy ===
/** Values and the memo entries ("components") the evaluator records for
    every reduced piece of text. The PHP component classes store the
    placeholder references they are given with the surrounding backticks of
    the token trimmed off; the constructors below model that over string
    references. Inside the evaluator model a reference is the placeholder's
    key itself: `Components.TrimToken` shows that this is what trimming the
    backticks off a bare token gives. An array element written after a space
    is the exception, because its stored reference keeps the space and the
    opening backtick (see `Arrays.ArrayEntry`). */
module Components {
  import opened Text

  /** What an expression evaluates to. Host functions and operators may
      return any of these; `Host` stands for values only the host
      interprets. A string is kept as text because a quoted literal may
      enclose the token of an earlier placeholder. */
  datatype Value =
    | Str(text: Text)
    | Int(n: int)
    | Float(negative: bool, whole: nat, fraction: string)
    | Bool(b: bool)
    | List(items: seq<Value>)
    | Host(tag: int)

  /** The argument array a host function receives: positional (keys
      0..n-1) or named (string keys in insertion order). */
  datatype Args<T> = Positional(items: seq<T>) | Named(entries: seq<(string, T)>)

  function Count<T>(a: Args<T>): nat {
    match a
    case Positional(xs) => |xs|
    case Named(es) => |es|
  }

  /** `array_map(f, a)`: keys and order kept, every value mapped. */
  function MapArgs<T, U>(a: Args<T>, f: T -> U): (b: Args<U>)
    ensures b.Positional? == a.Positional? && Count(b) == Count(a)
    ensures a.Positional? ==> forall i :: 0 <= i < |a.items| ==> b.items[i] == f(a.items[i])
    ensures a.Named? ==> forall i :: 0 <= i < |a.entries| ==>
      b.entries[i].0 == a.entries[i].0 && b.entries[i].1 == f(a.entries[i].1)
  {
    match a
    case Positional(xs) => Positional(seq(|xs|, i requires 0 <= i < |xs| => f(xs[i])))
    case Named(es) => Named(seq(|es|, i requires 0 <= i < |es| => (es[i].0, f(es[i].1))))
  }

  /** A memo entry; R is the type of the references to other entries. */
  datatype Component<R> =
    | StringC(text: Text)
    | IntegerC(n: int)
    | FloatC(negative: bool, whole: nat, fraction: string)
    | BracketsC(inner: Component<R>)
    | OperationC(operation: string, left: R, right: R, value: Value)
    | FunctionC(name: string, arguments: Args<R>, value: Value)
    | ArrayC(refs: seq<R>, values: seq<Value>)
    | VariableC(expression: Text, value: Value)
    | ConstantC(name: string, value: Value)

  /** The value `recall` reads from an entry: any nesting of brackets
      entries is unwrapped first. */
  function ValueOf<R>(c: Component<R>): Value {
    match c
    case StringC(t) => Str(t)
    case IntegerC(n) => Int(n)
    case FloatC(neg, w, f) => Float(neg, w, f)
    case BracketsC(inner) => ValueOf(inner)
    case OperationC(_, _, _, v) => v
    case FunctionC(_, _, v) => v
    case ArrayC(_, vs) => List(vs)
    case VariableC(_, v) => v
    case ConstantC(_, v) => v
  }

  /** The `while ($component instanceof ExpressionBrackets)` loop of
      `recall`: every layer of brackets removed, the value kept. */
  function Unwrap<R>(c: Component<R>): (u: Component<R>)
    ensures !u.BracketsC?
    ensures ValueOf(u) == ValueOf(c)
  {
    if c.BracketsC? then Unwrap(c.inner) else c
  }

  const Backtick: set<char> := {'`'}

  /** `new ExpressionOperation($operation, $left, $right, $value)`. */
  function NewOperation(operation: string, left: string, right: string, value: Value): (c: Component<string>)
    ensures c.OperationC?
    ensures c.operation == operation && c.value == value
    ensures IsTrimOf(left, c.left, Backtick) && IsTrimOf(right, c.right, Backtick)
    ensures ValueOf(c) == value
  {
    OperationC(operation, Trim(left, Backtick), Trim(right, Backtick), value)
  }

  /** `new ExpressionFunction($name, $arguments, $value)`. */
  function NewFunction(name: string, arguments: Args<string>, value: Value): (c: Component<string>)
    ensures c.FunctionC?
    ensures c.name == name && c.value == value && ValueOf(c) == value
    ensures c.arguments.Positional? == arguments.Positional?
    ensures Count(c.arguments) == Count(arguments)
    ensures arguments.Positional? ==> forall i :: 0 <= i < |arguments.items| ==>
      IsTrimOf(arguments.items[i], c.arguments.items[i], Backtick)
    ensures arguments.Named? ==> forall i :: 0 <= i < |arguments.entries| ==>
      c.arguments.entries[i].0 == arguments.entries[i].0 &&
      IsTrimOf(arguments.entries[i].1, c.arguments.entries[i].1, Backtick)
  {
    FunctionC(name, MapArgs(arguments, (s: string) => Trim(s, Backtick)), value)
  }

  /** `new ExpressionArray($array, $value)`. */
  function NewArray(refs: seq<string>, values: seq<Value>): (c: Component<string>)
    ensures c.ArrayC?
    ensures |c.refs| == |refs|
    ensures forall i :: 0 <= i < |refs| ==> IsTrimOf(refs[i], c.refs[i], Backtick)
    ensures c.values == values && ValueOf(c) == List(values)
  {
    ArrayC(seq(|refs|, i requires 0 <= i < |refs| => Trim(refs[i], Backtick)), values)
  }

  /** An array entry built from no references and no values has empty
      references and the empty list as its value. */
  lemma EmptyArray()
    ensures NewArray([], []).refs == [] && ValueOf(NewArray([], [])) == List([])
  {
  }

  /** Trimming backticks off a placeholder token `` `h` `` gives back the
      digest h (which holds no backtick): the key of the placeholder. */
  lemma {:induction false} TrimToken(h: string)
    requires '`' !in h
    ensures Trim("`" + h + "`", Backtick) == h
  {
    var s := "`" + h + "`";
    if h == [] {
      assert SkipIn(s, 2, Backtick) == 2;
    } else {
      assert h[0] in h && h[|h| - 1] in h;
      assert SkipIn(s, 1, Backtick) == 1 by { assert s[1] == h[0]; }
      assert SkipIn(s, 0, Backtick) == 1;
      assert BackIn(s, 1, |s| - 1, Backtick) == |s| - 1 by { assert s[|s| - 2] == h[|h| - 1]; }
      assert BackIn(s, 1, |s|, Backtick) == |s| - 1;
      assert s[1..|s| - 1] == h;
    }
  }

  /** Trimming changes only the ends: an inner backtick survives, and a
      reference without backticks is stored unchanged. */
  lemma TrimKeepsPlain(s: string)
    requires '`' !in s
    ensures Trim(s, Backtick) == s
  {
    assert SkipIn(s, 0, Backtick) == 0 by { if |s| > 0 { assert s[0] in s; } }
    assert BackIn(s, 0, |s|, Backtick) == |s| by { if |s| > 0 { assert s[|s| - 1] in s; } }
    assert s[0..|s|] == s;
  }
}

=== FILE: constants.dfy ===
/** `prepareConstants` (src/Executor.php): for each constant in
    registration order, every whole-word, case-insensitive occurrence of its
    name that is not followed (after optional spaces) by an opening
    parenthesis becomes a placeholder for the constant's value. */
module Constants {
  import opened Wrappers
  import opened Text
  import opened Components
  import opened Memo

  /** `(?<![a-z\d_])NAME(?![a-z\d_(])(?!\s*\()` under /i at i. */
  function ConstantAt(name: string, t: Text, i: nat): (r: Option<Match>)
    ensures r.Some? <==>
      |name| > 0 && FoldAt(t, i, name) && (i == 0 || !IsWordItem(t[i - 1])) &&
      !(i + |name| < |t| && IsWordItem(t[i + |name|])) &&
      !CharAt(t, SkipSpaces(t, i + |name|), '(')
    ensures r.Some? ==> r.value.len == |name|
  {
    if |name| > 0 && FoldAt(t, i, name) && (i == 0 || !IsWordItem(t[i - 1])) then
      var j := i + |name|;
      if (j < |t| && (IsWordItem(t[j]) || t[j] == Ch('('))) || CharAt(t, SkipSpaces(t, j), '(')
      then None
      else Some(Match(|name|, [], []))
    else None
  }

  function ConstantMatcher(name: string): Matcher {
    (t: Text, i: nat) => ConstantAt(name, t, i)
  }

  /** The callback records the constant under the text as written. */
  function ConstantEntry(c: (string, Value)): Builder {
    (m: Text, x: Match) => (m, ConstantC(c.0, c.1))
  }

  /** One constant's `preg_replace_callback`. */
  function ReplaceConstant(st: State, c: (string, Value)): (r: State)
    ensures |r.text| <= |st.text|
    ensures Closed(st.text, st.memo) ==> Closed(r.text, r.memo)
    ensures NoHit(st.text, ConstantMatcher(c.0)) ==> r == st
  {
    Scan(st, ConstantMatcher(c.0), ConstantEntry(c))
  }

  /** `prepareConstants`: the constants in registration order. */
  function PrepareConstants(st: State, constants: seq<(string, Value)>): (r: State)
    requires Closed(st.text, st.memo)
    ensures Closed(r.text, r.memo)
    ensures |r.text| <= |st.text|
    decreases |constants|
  {
    if constants == [] then st
    else PrepareConstants(ReplaceConstant(st, constants[0]), constants[1..])
  }

  predicate StartsName(x: Item) { x.Ch? && (IsLetter(x.c) || x.c == '_') }

  /** A text without letters or underscores holds no constant whose name
      starts with one, as every valid name does. */
  lemma {:induction false} ConstantsNeedLetters(st: State, constants: seq<(string, Value)>)
    requires Closed(st.text, st.memo)
    requires forall i :: 0 <= i < |st.text| ==> !StartsName(st.text[i])
    requires forall k :: 0 <= k < |constants| ==>
      |constants[k].0| > 0 && (IsLetter(constants[k].0[0]) || constants[k].0[0] == '_')
    ensures PrepareConstants(st, constants) == st
    decreases |constants|
  {
    if constants != [] {
      var n := constants[0].0;
      assert NoHit(st.text, ConstantMatcher(n));
      ConstantsNeedLetters(st, constants[1..]);
    }
  }

  /** A name followed by an opening parenthesis, directly or after spaces,
      is a function call and not the constant. */
  lemma CallIsNotConstant(name: string, spaces: nat)
    requires |name| > 0
    ensures ConstantAt(name, Lift(name) + seq(spaces, _ => Ch(' ')) + Lift("("), 0).None?
  {
    var t := Lift(name) + seq(spaces, _ => Ch(' ')) + Lift("(");
    var j := |name|;
    forall k | j <= k < j + spaces ensures IsSpaceItem(t[k]) {
      assert t[k] == Ch(' ');
    }
    assert !IsSpaceItem(t[j + spaces]);
    assert SkipSpaces(t, j) == j + spaces by {
      SkipSpacesOver(t, j, j + spaces);
    }
  }

  lemma {:induction false} SkipSpacesOver(t: Text, i: nat, j: nat)
    requires i <= j < |t|
    requires forall k :: i <= k < j ==> IsSpaceItem(t[k])
    requires !IsSpaceItem(t[j])
    ensures SkipSpaces(t, i) == j
    decreases j - i
  {
    if i < j {
      SkipSpacesOver(t, i + 1, j);
    }
  }

  /** A text that is exactly one constant's name, in any case, becomes that
      constant's placeholder. */
  lemma SingleConstant(written: string, c: (string, Value), memo: Memo)
    requires |written| == |c.0| > 0
    requires forall k :: 0 <= k < |written| ==> Lower(written[k]) == Lower(c.0[k])
    ensures var t := Lift(written);
      ReplaceConstant(State(t, memo), c) == State([Ph(t)], memo[t := ConstantC(c.0, c.1)])
  {
    var t := Lift(written);
    assert FoldAt(t, 0, c.0);
    assert SkipSpaces(t, |t|) == |t|;
    assert HitAt(t, 0, ConstantMatcher(c.0));
    ScanWhole(State(t, memo), ConstantMatcher(c.0), ConstantEntry(c));
  }
}

=== FILE: executor.dfy ===
/** `Executor::execute` and `Executor::calculate`: the preparation passes in
    their fixed order, then rounds of arrays, function calls and operations
    until a round changes nothing, then the single-placeholder check. */
module Executor {
  import opened Wrappers
  import opened Text
  import opened Components
  import opened OrderedMap
  import opened Registry
  import opened Memo
  import opened Strings
  import opened Variables
  import opened Constants
  import opened Numbers
  import opened Arrays
  import opened Functions
  import opened Operators

  /** What the evaluator asks of its host: the function callbacks, the
      operator callbacks and the variable resolver, each selected by the id
      kept in the registry. */
  datatype Host = Host(call: Call, apply: Apply, resolve: (Text, Value) -> Value)

  /** The two SyntaxExceptions `execute` raises: a placeholder-shaped token
      in the input, or a text that did not reduce to one placeholder. */
  datatype ExecError = InvalidToken | Unexpected(rest: Text)

  /** The characters PHP's `trim` strips by default. */
  const Trimmed: set<char> := {' ', '\t', '\n', '\r', '\0', '\U{000B}'}

  /** The text is exactly one placeholder (`^`[a-f\d]{32}`$`). */
  predicate IsToken(t: Text) { |t| == 1 && t[0].Ph? }

  /** A text read from the input holds no placeholder yet. */
  lemma LiftClosed(s: string, memo: Memo)
    ensures Closed(Lift(s), memo)
  {
  }

  /** One pass of the `calculate` loop: arrays, then every function, then
      every operator. */
  function Round(st: State, lb: LookBehind, config: Config, host: Host, context: Value): (r: State)
    requires Closed(st.text, st.memo)
    ensures Closed(r.text, r.memo)
    ensures r.text == st.text || |r.text| < |st.text|
  {
    var a := PrepareArrays(st);
    var f := CalcFunctions(a, config.functions, host.call, context);
    CalcOperations(f, config.operators, lb, Keys(config.functions), host.apply, context)
  }

  /** r is what a round produced from a state with the same text: the
      round that made r changed nothing, so `$changed` is false. */
  ghost predicate Settled(r: State, lb: LookBehind, config: Config, host: Host, context: Value) {
    exists p: State :: Closed(p.text, p.memo) && p.text == r.text && Round(p, lb, config, host, context) == r
  }

  /** The `while ($changed)` loop: rounds until one leaves the text as it
      found it. Each round that changes the text shortens it, so the loop
      ends. */
  function Rounds(st: State, lb: LookBehind, config: Config, host: Host, context: Value): (r: State)
    requires Closed(st.text, st.memo)
    ensures Closed(r.text, r.memo)
    ensures |r.text| <= |st.text|
    ensures Settled(r, lb, config, host, context)
    decreases |st.text|
  {
    var s := Round(st, lb, config, host, context);
    if s.text == st.text then s else Rounds(s, lb, config, host, context)
  }

  /** `calculate`: a text that already is one placeholder is left alone. */
  function Calculate(st: State, lb: LookBehind, config: Config, host: Host, context: Value): (r: State)
    requires Closed(st.text, st.memo)
    ensures Closed(r.text, r.memo)
    ensures |r.text| <= |st.text|
    ensures IsToken(st.text) ==> r == st
    ensures !IsToken(st.text) ==> Settled(r, lb, config, host, context)
  {
    if IsToken(st.text) then st else Rounds(st, lb, config, host, context)
  }

  /** The preparation passes of `execute`, in order, on the trimmed input
      (which the guard has accepted), ending with the whitespace collapse. */
  function Prepare(t: Text, config: Config, host: Host, context: Value): (r: State)
    requires Closed(t, map[])
    ensures Closed(r.text, r.memo)
    ensures |r.text| <= |t|
  {
    var s1 := PrepareStrings(State(t, map[]));
    var s2 := PrepareVariables(s1, config.resolver, host.resolve, context);
    var s3 := PrepareConstants(s2, config.constants);
    var s4 := PrepareNumbers(s3);
    var u := Collapse(s4.text);
    assert Closed(u, s4.memo) by {
      forall i | 0 <= i < |u| && u[i].Ph? ensures u[i].key in s4.memo {
        var j :| 0 <= j < |s4.text| && s4.text[j] == u[i];
      }
    }
    State(u, s4.memo)
  }

  /** The text `execute` works on: the input with PHP's default `trim`. */
  function Input(expression: string): (t: Text)
    ensures Closed(t, map[])
    ensures |t| <= |expression|
  {
    LiftClosed(Trim(expression, Trimmed), map[]);
    Lift(Trim(expression, Trimmed))
  }

  /** `execute`: the guard, the preparation, the calculation, and the value
      of the one placeholder left, or the SyntaxException. With lb ==
      AsWritten this is `execute` as the source writes it; with Intended,
      the brackets family uses the corrected look-behind. */
  function Execute(lb: LookBehind, config: Config, host: Host, expression: string, context: Value): (r: Result<Value, ExecError>)
    ensures r == Failure(InvalidToken) <==> !Guard(Input(expression))
    ensures Guard(Input(expression)) ==>
      var s := Calculate(Prepare(Input(expression), config, host, context), lb, config, host, context);
      (r.Success? <==> IsToken(s.text)) &&
      (r.Success? ==> s.text[0].key in s.memo && r.value == ValueOf(Unwrap(s.memo[s.text[0].key]))) &&
      (r.Failure? ==> r.error == Unexpected(s.text))
  {
    var t := Input(expression);
    if !Guard(t) then Failure(InvalidToken)
    else
      var s := Calculate(Prepare(t, config, host, context), lb, config, host, context);
      if IsToken(s.text) then Success(Recall(s.memo, s.text[0].key)) else Failure(Unexpected(s.text))
  }

  // ---------------------------------------------------------------------
  // Whole expressions

  /** Every registered constant has a valid name, as construction ensures. */
  predicate ValidConstants(config: Config) {
    forall k :: 0 <= k < |config.constants| ==> ValidConstantName(config.constants[k].0)
  }

  /** A valid constant name starts with a letter or an underscore. */
  lemma ConstantsStartWithLetters(config: Config)
    requires ValidConstants(config)
    ensures forall k :: 0 <= k < |config.constants| ==>
      |config.constants[k].0| > 0 && StartsName(Ch(config.constants[k].0[0]))
  {
    forall k | 0 <= k < |config.constants|
      ensures |config.constants[k].0| > 0 && StartsName(Ch(config.constants[k].0[0]))
    {
      var n := config.constants[k].0;
      if !IsIdentifier(n) { assert n[..|n| - 1][0] == n[0]; }
    }
  }

  /** A single placeholder passes the variable, constant, number and
      whitespace passes untouched. */
  lemma TokenPassesThrough(k: Text, memo: Memo, config: Config, host: Host, context: Value)
    requires ValidConstants(config) && k in memo
    ensures var st := State([Ph(k)], memo);
      var s2 := PrepareVariables(st, config.resolver, host.resolve, context);
      var s3 := PrepareConstants(s2, config.constants);
      var s4 := PrepareNumbers(s3);
      s4 == st && Collapse(s4.text) == [Ph(k)]
  {
    var st := State([Ph(k)], memo);
    NoBraceNoVariable(st.text);
    ConstantsStartWithLetters(config);
    ConstantsNeedLetters(st, config.constants);
    NumbersNeedDigits(st);
    assert Collapse([Ph(k)]) == [Ph(k)] + Collapse([]);
  }

  /** When the preparation leaves one placeholder, `execute` returns the
      value of its entry. */
  lemma ExecuteToken(lb: LookBehind, config: Config, host: Host, expression: string, context: Value, k: Text, memo: Memo)
    requires Guard(Input(expression))
    requires Prepare(Input(expression), config, host, context) == State([Ph(k)], memo)
    ensures k in memo
    ensures Execute(lb, config, host, expression, context) == Success(ValueOf(memo[k]))
  {
    assert Closed([Ph(k)], memo);
    assert [Ph(k)][0] == Ph(k);
  }

  /** An input read as it is, accepted by the guard and prepared to the
      placeholder of its whole text, executes to that entry's value. */
  lemma ExecuteWhole(lb: LookBehind, config: Config, host: Host, w: string, context: Value, c: Component<Text>)
    requires Input(w) == Lift(w) && Guard(Lift(w))
    requires Prepare(Lift(w), config, host, context) == State([Ph(Lift(w))], map[Lift(w) := c])
    ensures Execute(lb, config, host, w, context) == Success(ValueOf(c))
  {
    ExecuteToken(lb, config, host, w, context, Lift(w), map[Lift(w) := c]);
  }

  /** An input without surrounding blanks is read as it is. */
  lemma InputClean(w: string)
    requires |w| > 0 && w[0] !in Trimmed && w[|w| - 1] !in Trimmed
    ensures Input(w) == Lift(w)
  {
    TrimClean(w, Trimmed);
  }

  /** Without quotes, braces or name starts, the string, variable and
      constant passes leave the input alone. */
  lemma PreparePlain(t: Text, config: Config, host: Host, context: Value)
    requires ValidConstants(config)
    requires Closed(t, map[])
    requires forall i :: 0 <= i < |t| ==> t[i] != Ch('"') && t[i] != Ch('{') && !StartsName(t[i])
    ensures var s4 := PrepareNumbers(State(t, map[]));
      Prepare(t, config, host, context) == State(Collapse(s4.text), s4.memo)
  {
    var st := State(t, map[]);
    NoQuoteNoLiteral(t);
    assert PrepareStrings(st) == st;
    NoBraceNoVariable(t);
    assert PrepareVariables(st, config.resolver, host.resolve, context) == st;
    ConstantsStartWithLetters(config);
    ConstantsNeedLetters(st, config.constants);
  }

  /** The preparation turns a decimal numeral into one placeholder. */
  lemma PreparedNumeral(n: nat, config: Config, host: Host, context: Value)
    requires ValidConstants(config)
    ensures var t := Lift(ToDecimal(n));
      Input(ToDecimal(n)) == t && Guard(t) &&
      Prepare(t, config, host, context) == State([Ph(t)], map[t := IntegerC(n)])
  {
    var t := Lift(ToDecimal(n));
    InputClean(ToDecimal(n));
    GuardWithoutBackticks(t);
    LiftClosed(ToDecimal(n), map[]);
    PreparePlain(t, config, host, context);
    DecimalIsNumeral(n, map[]);
    assert Collapse([Ph(t)]) == [Ph(t)] + Collapse([]);
  }

  /** A natural number written in decimal evaluates to itself. */
  lemma ExecuteNumeral(lb: LookBehind, config: Config, host: Host, n: nat, context: Value)
    requires ValidConstants(config)
    ensures Execute(lb, config, host, ToDecimal(n), context) == Success(Int(n))
  {
    var w := ToDecimal(n);
    PreparedNumeral(n, config, host, context);
    ExecuteWhole(lb, config, host, w, context, IntegerC(n));
  }

  /** `(-d)` for digits d holds no backtick, quote, brace or name start. */
  lemma NegativePlain(d: string)
    requires forall k :: 0 <= k < |d| ==> IsDigit(d[k])
    ensures var t := Lift("(-" + d + ")");
      forall i :: 0 <= i < |t| ==>
        t[i] != Ch('`') && t[i] != Ch('"') && t[i] != Ch('{') && !StartsName(t[i])
  {
    var w := "(-" + d + ")";
    forall i | 2 <= i < |w| - 1 ensures w[i] == d[i - 2] { }
  }

  /** w is `(-n)`: the decimal form of n after a minus sign, in
      parentheses. */
  predicate NegativeNumeral(w: string, n: nat) {
    |w| >= 3 && w[0] == '(' && w[1] == '-' && w[2..|w| - 1] == ToDecimal(n) && w[|w| - 1] == ')'
  }

  /** The characters of `(-n)` spell it. */
  lemma NegativeSpelled(w: string, n: nat)
    requires NegativeNumeral(w, n)
    ensures w == "(-" + ToDecimal(n) + ")"
  {
    var v := "(-" + ToDecimal(n) + ")";
    assert |v| == |w|;
    forall i | 0 <= i < |w| ensures w[i] == v[i] {
      if 2 <= i < |w| - 1 { assert w[i] == w[2..|w| - 1][i - 2]; }
    }
  }

  /** The input `(-n)` is read as it is, passes the guard and is prepared
      into one placeholder. */
  lemma PreparedNegative(n: nat, w: string, config: Config, host: Host, context: Value)
    requires ValidConstants(config) && NegativeNumeral(w, n)
    ensures var t := Lift(w);
      Input(w) == t && Guard(t) &&
      Prepare(t, config, host, context) == State([Ph(t)], map[t := IntegerC(-(n as int))])
  {
    NegativeSpelled(w, n);
    var t := Lift(w);
    InputClean(w);
    LiftClosed(w, map[]);
    NegativePlain(ToDecimal(n));
    GuardWithoutBackticks(t);
    PreparePlain(t, config, host, context);
    NegativeIsNumeral(n, map[]);
    assert Collapse([Ph(t)]) == [Ph(t)] + Collapse([]);
  }

  /** `(-n)` evaluates to the negative number. */
  lemma ExecuteNegative(lb: LookBehind, config: Config, host: Host, n: nat, w: string, context: Value)
    requires ValidConstants(config) && NegativeNumeral(w, n)
    ensures Execute(lb, config, host, w, context) == Success(Int(-(n as int)))
  {
    PreparedNegative(n, w, config, host, context);
    ExecuteWhole(lb, config, host, w, context, IntegerC(-(n as int)));
  }

  /** The guard blanks a whole literal to `""` and accepts it. */
  lemma GuardLiteral(s: string)
    requires |s| > 0 && '"' !in s && '\\' !in s
    ensures Guard(Lift("\"" + s + "\""))
  {
    PlainLiteral(s);
    BlankWhole(Lift("\"" + s + "\""));
  }

  /** A quoted string without quotes or backslashes inside evaluates to
      its content. */
  lemma ExecuteString(lb: LookBehind, config: Config, host: Host, s: string, context: Value)
    requires |s| > 0 && '"' !in s && '\\' !in s
    requires ValidConstants(config)
    ensures Execute(lb, config, host, "\"" + s + "\"", context) == Success(Str(Lift(s)))
  {
    var w := "\"" + s + "\"";
    InputClean(w);
    var t := Lift(w);
    GuardLiteral(s);
    SingleLiteral(s, map[]);
    var memo := map[t := StringC(Lift(s))];
    TokenPassesThrough(t, memo, config, host, context);
    assert Prepare(t, config, host, context) == State([Ph(t)], memo);
    ExecuteToken(lb, config, host, w, context, t, memo);
  }
}

=== FILE: functions.dfy ===
/** `calcFunctions` (src/Executor.php): for each registered function in
    registration order, every call written with its name (in any letter
    case) whose arguments are all placeholders is evaluated by the host and
    reduced to one placeholder, leftmost first, until none is left. The
    arguments are positional `f(a, b)`, named `f(x: a, y: b)` or empty
    `f()`. */
module Functions {
  import opened Wrappers
  import opened Text
  import opened Components
  import opened OrderedMap
  import opened Registry
  import opened Memo
  import opened Arrays

  /** The host side of a function call: the function's id, the recalled
      arguments and the context give the value. */
  type Call = (nat, Args<Value>, Value) -> Value

  /** `(?:\s*PH\s*){1}(?:,\s*PH\s*)*\)` from j: the keys and the position
      after the closing parenthesis. */
  function PositionalAt(t: Text, j: nat): (r: Option<(seq<Text>, nat)>)
    requires j <= |t|
    ensures r.Some? ==> |r.value.0| >= 1 && j < r.value.1 <= |t| && CharAt(t, r.value.1 - 1, ')')
    decreases |t| - j
  {
    var a := SkipSpaces(t, j);
    if !PhAt(t, a) then None
    else
      var b := SkipSpaces(t, a + 1);
      if CharAt(t, b, ')') then Some(([t[a].key], b + 1))
      else if CharAt(t, b, ',') then
        match PositionalAt(t, b + 1)
        case None => None
        case Some((ks, e)) => Some(([t[a].key] + ks, e))
      else None
  }

  /** Every positional key is a placeholder inside the matched stretch. */
  lemma {:induction false} PositionalIn(t: Text, j: nat)
    requires j <= |t|
    ensures var r := PositionalAt(t, j);
      r.Some? ==> forall k :: 0 <= k < |r.value.0| ==> InRange(t, j, r.value.1, r.value.0[k])
    decreases |t| - j
  {
    var r := PositionalAt(t, j);
    var a := SkipSpaces(t, j);
    if r.Some? {
      var b := SkipSpaces(t, a + 1);
      var (ks, e) := r.value;
      PhIn(t, j, e, a);
      if !CharAt(t, b, ')') {
        PositionalIn(t, b + 1);
        var (ks', e') := PositionalAt(t, b + 1).value;
        assert r.value == ([t[a].key] + ks', e');
        PrependIn(t, j, b + 1, e, t[a].key, ks');
      }
    }
  }

  /** `\s*[a-z\d_]+\s*:\s*PH\s*` from j: the name as written, the key,
      and the position after the trailing spaces. */
  function NamedOne(t: Text, j: nat): (r: Option<(string, Text, nat)>)
    requires j <= |t|
    ensures r.Some? ==> j < r.value.2 <= |t| && InRange(t, j, r.value.2, r.value.1)
    ensures r.Some? ==> |r.value.0| > 0 && AllWord(r.value.0)
  {
    var a := SkipSpaces(t, j);
    var r := NamedPiece(t, a);
    if r.None? then None
    else
      Widen(t, j, a, r.value.2, r.value.2, r.value.1);
      r
  }

  /** The same pattern once the leading spaces are behind: the name's word
      run starts at a. */
  function NamedPiece(t: Text, a: nat): (r: Option<(string, Text, nat)>)
    requires a <= |t|
    ensures r.Some? ==> a < r.value.2 <= |t| && InRange(t, a, r.value.2, r.value.1)
    ensures r.Some? ==> |r.value.0| > 0 && AllWord(r.value.0)
  {
    var w := SkipWord(t, a);
    var c := SkipSpaces(t, w);
    if w == a || !CharAt(t, c, ':') then None
    else
      var d := SkipSpaces(t, c + 1);
      if !PhAt(t, d) then None
      else
        var b := SkipSpaces(t, d + 1);
        var key := Chars(t[a..w]);
        assert AllWord(key) by {
          forall k | 0 <= k < |key| ensures IsWordChar(key[k]) { assert IsWordItem(t[a + k]); }
        }
        PhIn(t, a, b, d);
        Some((key, t[d].key, b))
  }

  /** `\s*[a-z\d_]+\s*:\s*PH\s*(?:,\s*[a-z\d_]+\s*:\s*PH\s*)*\)` from j:
      the name/key pairs as written and the position after the closing
      parenthesis. */
  function NamedAt(t: Text, j: nat): (r: Option<(seq<(string, Text)>, nat)>)
    requires j <= |t|
    ensures r.Some? ==> |r.value.0| >= 1 && j < r.value.1 <= |t| && CharAt(t, r.value.1 - 1, ')')
    decreases |t| - j, 1
  {
    match NamedOne(t, j)
    case None => None
    case Some(one) => NamedNext(t, j, one)
  }

  /** After one named argument: `)` ends the list, `,` continues it. */
  function NamedNext(t: Text, j: nat, one: (string, Text, nat)): (r: Option<(seq<(string, Text)>, nat)>)
    requires j < one.2 <= |t|
    ensures r.Some? ==> |r.value.0| >= 1 && j < r.value.1 <= |t| && CharAt(t, r.value.1 - 1, ')')
    decreases |t| - j, 0
  {
    var (key, ref, b) := one;
    if CharAt(t, b, ')') then Some(([(key, ref)], b + 1))
    else if CharAt(t, b, ',') then
      match NamedAt(t, b + 1)
      case None => None
      case Some((ps, e)) => Some(([(key, ref)] + ps, e))
    else None
  }

  /** Every named argument's key is a placeholder inside the matched
      stretch, and every name is a nonempty run of word characters. */
  lemma {:induction false} NamedIn(t: Text, j: nat)
    requires j <= |t|
    ensures var r := NamedAt(t, j);
      r.Some? ==> forall k :: 0 <= k < |r.value.0| ==> InRange(t, j, r.value.1, r.value.0[k].1)
    ensures var r := NamedAt(t, j);
      r.Some? ==> forall k :: 0 <= k < |r.value.0| ==> |r.value.0[k].0| > 0 && AllWord(r.value.0[k].0)
    decreases |t| - j, 1
  {
    if NamedOne(t, j).Some? {
      NamedNextIn(t, j, NamedOne(t, j).value);
    }
  }

  lemma {:induction false} NamedNextIn(t: Text, j: nat, one: (string, Text, nat))
    requires j < one.2 <= |t| && InRange(t, j, one.2, one.1) && |one.0| > 0 && AllWord(one.0)
    ensures var r := NamedNext(t, j, one);
      r.Some? ==> forall k :: 0 <= k < |r.value.0| ==> InRange(t, j, r.value.1, r.value.0[k].1)
    ensures var r := NamedNext(t, j, one);
      r.Some? ==> forall k :: 0 <= k < |r.value.0| ==> |r.value.0[k].0| > 0 && AllWord(r.value.0[k].0)
    decreases |t| - j, 0
  {
    var (key, ref, b) := one;
    var r := NamedNext(t, j, one);
    if r.Some? {
      if CharAt(t, b, ')') {
        assert r.value == ([(key, ref)], b + 1);
        Widen(t, j, j, b, b + 1, ref);
      } else {
        var (ps, e) := NamedAt(t, b + 1).value;
        assert r.value == ([(key, ref)] + ps, e);
        NamedIn(t, b + 1);
        NamedPrepend(t, j, b, e, key, ref, ps);
      }
    }
  }

  lemma NamedPrepend(t: Text, j: nat, b: nat, e: nat, key: string, ref: Text, ps: seq<(string, Text)>)
    requires j < b < e <= |t| && InRange(t, j, b, ref)
    requires forall k :: 0 <= k < |ps| ==> InRange(t, b + 1, e, ps[k].1)
    requires |key| > 0 && AllWord(key)
    requires forall k :: 0 <= k < |ps| ==> |ps[k].0| > 0 && AllWord(ps[k].0)
    ensures var res := [(key, ref)] + ps; forall k :: 0 <= k < |res| ==> InRange(t, j, e, res[k].1)
    ensures var res := [(key, ref)] + ps; forall k :: 0 <= k < |res| ==> |res[k].0| > 0 && AllWord(res[k].0)
  {
    var res := [(key, ref)] + ps;
    Widen(t, j, j, b, e, ref);
    forall k | 1 <= k < |res| ensures InRange(t, j, e, res[k].1) {
      assert res[k] == ps[k - 1];
      Widen(t, j, b + 1, e, e, ps[k - 1].1);
    }
  }

  function RefsOf(ps: seq<(string, Text)>): (rs: seq<Text>)
    ensures |rs| == |ps| && forall k :: 0 <= k < |ps| ==> rs[k] == ps[k].1
  {
    seq(|ps|, k requires 0 <= k < |ps| => ps[k].1)
  }

  /** Not preceded by `[a-z\d_]`. */
  predicate WordStart(t: Text, i: nat) { i == 0 || i > |t| || !IsWordItem(t[i - 1]) }

  /** The argument forms after `(` at j, tried in order: positional keys
      with no names, named pairs (as many names as keys), or nothing but
      spaces; the position after `)`. */
  function ArgumentsAt(t: Text, j: nat): (r: Option<(seq<Text>, seq<string>, nat)>)
    requires j <= |t|
    ensures r.Some? ==> j < r.value.2 <= |t| && CharAt(t, r.value.2 - 1, ')')
    ensures r.Some? ==> r.value.1 == [] || |r.value.1| == |r.value.0|
  {
    match PositionalAt(t, j)
    case Some((ks, e)) => Some((ks, [], e))
    case None =>
      match NamedAt(t, j)
      case Some((ps, e)) => Some((RefsOf(ps), Keys(ps), e))
      case None =>
        var b := SkipSpaces(t, j);
        if CharAt(t, b, ')') then Some(([], [], b + 1)) else None
  }

  /** Every argument key is a placeholder inside the matched stretch. */
  lemma ArgumentsIn(t: Text, j: nat)
    requires j <= |t|
    ensures var r := ArgumentsAt(t, j);
      r.Some? ==> forall k :: 0 <= k < |r.value.0| ==> InRange(t, j, r.value.2, r.value.0[k])
  {
    var r := ArgumentsAt(t, j);
    if r.Some? {
      if PositionalAt(t, j).Some? {
        PositionalIn(t, j);
      } else if NamedAt(t, j).Some? {
        NamedIn(t, j);
      }
    }
  }

  /** The call pattern of the function called `name` at i: the name in any
      letter case, not preceded by a word character, then `(` and one of
      the three argument forms. */
  function CallMatch(name: string, t: Text, i: nat): (r: Option<Match>)
    ensures r.Some? ==> WordStart(t, i) && FoldAt(t, i, name) && CharAt(t, i + |name|, '(')
    ensures r.Some? ==> |name| + 2 <= r.value.len && i + r.value.len <= |t|
    ensures r.Some? ==> CharAt(t, i + r.value.len - 1, ')')
    ensures r.Some? ==> r.value.names == [] || |r.value.names| == |r.value.refs|
  {
    var o := i + |name|;
    if !(WordStart(t, i) && FoldAt(t, i, name) && CharAt(t, o, '(')) then None
    else
      match ArgumentsAt(t, o + 1)
      case None => None
      case Some((ks, ns, e)) => Some(Match(e - i, ks, ns))
  }

  /** Every argument key of a call match is a placeholder inside it. */
  lemma CallIn(name: string, t: Text, i: nat)
    ensures var r := CallMatch(name, t, i);
      r.Some? ==> forall k :: 0 <= k < |r.value.refs| ==> InRange(t, i, i + r.value.len, r.value.refs[k])
  {
    if CallMatch(name, t, i).Some? {
      var m := CallMatch(name, t, i).value;
      var j := i + |name| + 1;
      CallArguments(name, t, i);
      ArgumentsWithin(t, i, j);
      var a := ArgumentsAt(t, j).value;
      assert m.refs == a.0 && i + m.len == a.2;
    }
  }

  /** A call match carries the argument match after its `(`. */
  lemma CallArguments(name: string, t: Text, i: nat)
    requires CallMatch(name, t, i).Some?
    ensures i + |name| + 1 <= |t|
    ensures var args := ArgumentsAt(t, i + |name| + 1);
      args.Some? && CallMatch(name, t, i).value == Match(args.value.2 - i, args.value.0, args.value.1)
  {
  }

  /** The argument keys lie inside any stretch that starts at or before the argument list. */
  lemma ArgumentsWithin(t: Text, i: nat, j: nat)
    requires i <= j <= |t|
    ensures var r := ArgumentsAt(t, j);
      r.Some? ==> forall k :: 0 <= k < |r.value.0| ==> InRange(t, i, r.value.2, r.value.0[k])
  {
    ArgumentsIn(t, j);
    if ArgumentsAt(t, j).Some? {
      var r := ArgumentsAt(t, j).value;
      InsideCall(t, i, j, r.2, r.0);
    }
  }

  lemma InsideCall(t: Text, i: nat, j: nat, e: nat, ks: seq<Text>)
    requires i <= j <= e <= |t|
    requires forall k :: 0 <= k < |ks| ==> InRange(t, j, e, ks[k])
    ensures forall k :: 0 <= k < |ks| ==> InRange(t, i, e, ks[k])
  {
    forall k | 0 <= k < |ks| ensures InRange(t, i, e, ks[k]) {
      Widen(t, i, j, e, e, ks[k]);
    }
  }

  function CallAt(name: string): Matcher {
    (t: Text, i: nat) => CallMatch(name, t, i)
  }

  /** The named arguments as name/key pairs, in written order. */
  function Pairs(ns: seq<string>, rs: seq<Text>): (ps: seq<(string, Text)>)
    requires |ns| == |rs|
    ensures |ps| == |ns| && forall k :: 0 <= k < |ns| ==> ps[k] == (ns[k], rs[k])
  {
    seq(|ns|, k requires 0 <= k < |ns| => (ns[k], rs[k]))
  }

  /** The argument array of a call: positional keys, or the named pairs
      combined with `array_combine` (a repeated name keeps its first
      position and takes its last key). */
  function ArgsOf(x: Match): (a: Args<Text>)
    requires x.names == [] || |x.names| == |x.refs|
    ensures x.names == [] ==> a == Positional(x.refs)
    ensures x.names != [] ==> a.Named? && DistinctKeys(a.entries)
    ensures x.names != [] ==> forall j :: 0 <= j < |a.entries| ==>
      Last(Pairs(x.names, x.refs), a.entries[j].0) == Some(a.entries[j].1)
    ensures x.names != [] ==> forall k :: 0 <= k < |x.names| ==>
      exists j :: 0 <= j < |a.entries| && a.entries[j].0 == x.names[k]
  {
    if x.names == [] then Positional(x.refs)
    else
      var ps := Pairs(x.names, x.refs);
      var r := FromList(ps);
      assert forall k :: 0 <= k < |x.names| ==> ps[k].0 == x.names[k];
      Named(r)
  }

  /** The keys an argument array refers to all have entries. */
  predicate ArgsIn(a: Args<Text>, memo: Memo) {
    match a
    case Positional(xs) => forall k :: 0 <= k < |xs| ==> xs[k] in memo
    case Named(es) => forall k :: 0 <= k < |es| ==> es[k].1 in memo
  }

  /** `array_map(fn($v) => $this->recall($v), $arguments)`. */
  function RecallArgs(memo: Memo, a: Args<Text>): (b: Args<Value>)
    requires ArgsIn(a, memo)
    ensures b.Positional? == a.Positional? && Count(b) == Count(a)
    ensures a.Positional? ==> forall k :: 0 <= k < |a.items| ==> b.items[k] == Recall(memo, a.items[k])
    ensures a.Named? ==> forall k :: 0 <= k < |a.entries| ==>
      b.entries[k] == (a.entries[k].0, Recall(memo, a.entries[k].1))
  {
    match a
    case Positional(xs) => Positional(seq(|xs|, k requires 0 <= k < |xs| => Recall(memo, xs[k])))
    case Named(es) => Named(seq(|es|, k requires 0 <= k < |es| => (es[k].0, Recall(memo, es[k].1))))
  }

  /** The argument keys of a call found in a closed text have entries. */
  lemma CallArgsKnown(st: State, p: nat, name: string)
    requires Closed(st.text, st.memo) && HitAt(st.text, p, CallAt(name))
    ensures ArgsIn(ArgsOf(CallMatch(name, st.text, p).value), st.memo)
  {
    var x := CallMatch(name, st.text, p).value;
    CallRefsKnown(st, p, name);
    if x.names != [] {
      NamedKnown(x, st.memo);
    }
  }

  lemma CallRefsKnown(st: State, p: nat, name: string)
    requires Closed(st.text, st.memo) && HitAt(st.text, p, CallAt(name))
    ensures var x := CallMatch(name, st.text, p).value;
      forall k :: 0 <= k < |x.refs| ==> x.refs[k] in st.memo
  {
    var x := CallMatch(name, st.text, p).value;
    CallIn(name, st.text, p);
    forall k | 0 <= k < |x.refs| ensures x.refs[k] in st.memo {
      KnownIn(st.text, st.memo, p, p + x.len, x.refs[k]);
    }
  }

  lemma NamedKnown(x: Match, memo: Memo)
    requires x.names != [] && |x.names| == |x.refs|
    requires forall k :: 0 <= k < |x.refs| ==> x.refs[k] in memo
    ensures ArgsIn(ArgsOf(x), memo)
  {
    var a := ArgsOf(x);
    var ps := Pairs(x.names, x.refs);
    forall j | 0 <= j < |a.entries| ensures a.entries[j].1 in memo {
      LastIn(ps, a.entries[j].0, a.entries[j].1);
      var k :| 0 <= k < |ps| && ps[k] == a.entries[j];
    }
  }

  /** The entry of a call of f matched at p: the registered name, the
      argument keys, and the host's value for the recalled arguments. */
  function CallEntry(st: State, p: nat, f: FunctionSpec, call: Call, context: Value): (c: Component<Text>)
    requires Closed(st.text, st.memo) && HitAt(st.text, p, CallAt(f.name))
    ensures c.FunctionC? && c.name == f.name
    ensures c.arguments == ArgsOf(CallMatch(f.name, st.text, p).value)
    ensures ArgsIn(c.arguments, st.memo) && c.value == call(f.id, RecallArgs(st.memo, c.arguments), context)
  {
    var a := ArgsOf(CallMatch(f.name, st.text, p).value);
    CallArgsKnown(st, p, f.name);
    FunctionC(f.name, a, call(f.id, RecallArgs(st.memo, a), context))
  }

  /** The `while (preg_match(...))` loop for one function. */
  function Calls(st: State, f: FunctionSpec, call: Call, context: Value): (r: State)
    requires Closed(st.text, st.memo)
    ensures Closed(r.text, r.memo)
    ensures NoHit(r.text, CallAt(f.name))
    ensures NoHit(st.text, CallAt(f.name)) ==> r == st
    ensures r == st || |r.text| < |st.text|
    decreases |st.text|
  {
    var M := CallAt(f.name);
    match Leftmost(st.text, 0, M)
    case None => st
    case Some(p) =>
      Calls(ReduceAt(st, p, M, CallEntry(st, p, f, call, context)), f, call, context)
  }

  /** `calcFunctions`: the loops of the registered functions in registry
      order. */
  function CalcFunctions(st: State, reg: seq<(string, FunctionSpec)>, call: Call, context: Value): (r: State)
    requires Closed(st.text, st.memo)
    ensures Closed(r.text, r.memo)
    ensures r == st || |r.text| < |st.text|
    ensures (forall j :: 0 <= j < |reg| ==> NoHit(st.text, CallAt(reg[j].1.name))) ==> r == st
    ensures |reg| > 0 ==> NoHit(r.text, CallAt(reg[|reg| - 1].1.name))
    decreases |reg|
  {
    if reg == [] then st
    else
      var s1 := CalcFunctions(st, reg[..|reg| - 1], call, context);
      assert forall j :: 0 <= j < |reg| - 1 ==> reg[..|reg| - 1][j] == reg[j];
      Calls(s1, reg[|reg| - 1].1, call, context)
  }

  // ---------------------------------------------------------------------
  // Written calls

  /** The call `name(args)` as written, args being what stands between the
      parentheses. */
  function CallText(name: string, args: Text): Text {
    Lift(name) + [Ch('(')] + args + [Ch(')')]
  }

  /** A name an argument may carry: a nonempty run of `[a-z\d_]`. */
  predicate ArgName(x: string) { |x| > 0 && AllWord(x) }

  /** Named arguments as written: `x1: k1, x2: k2, ...`. */
  function NamedJoin(ns: seq<string>, ks: seq<Text>): (t: Text)
    requires |ns| == |ks| >= 1
    decreases |ks|
  {
    var one := Lift(ns[0]) + [Ch(':'), Ch(' '), Ph(ks[0])];
    if |ks| == 1 then one else one + [Ch(','), Ch(' ')] + NamedJoin(ns[1..], ks[1..])
  }

  /** Skipping word characters stops at the first item that is not one. */
  lemma {:induction false} SkipWordTo(t: Text, a: nat, w: nat)
    requires a <= w < |t| && !IsWordItem(t[w])
    requires forall k :: a <= k < w ==> IsWordItem(t[k])
    ensures SkipWord(t, a) == w
    decreases w - a
  {
    if a < w {
      SkipWordTo(t, a + 1, w);
    }
  }

  /** Written positional arguments after optional spaces at j, then `)`,
      parse back to their keys in order. */
  lemma {:induction false} PositionalOfJoin(t: Text, j: nat, a: nat, ks: seq<Text>)
    requires |ks| >= 1 && j <= a
    requires a + |Join(ks)| <= |t| && t[a..a + |Join(ks)|] == Join(ks) && SkipSpaces(t, j) == a
    requires CharAt(t, a + |Join(ks)|, ')')
    ensures PositionalAt(t, j) == Some((ks, a + |Join(ks)| + 1))
    decreases |ks|, 1
  {
    if |ks| == 1 {
      assert t[a] == Join(ks)[0];
      PositionalLast(t, j, a);
      assert [t[a].key] == ks;
    } else {
      PositionalOfLonger(t, j, a, ks);
    }
  }

  lemma {:induction false} PositionalOfLonger(t: Text, j: nat, a: nat, ks: seq<Text>)
    requires |ks| >= 2 && j <= a
    requires a + |Join(ks)| <= |t| && t[a..a + |Join(ks)|] == Join(ks) && SkipSpaces(t, j) == a
    requires CharAt(t, a + |Join(ks)|, ')')
    ensures PositionalAt(t, j) == Some((ks, a + |Join(ks)| + 1))
    decreases |ks|, 0
  {
    var e := a + |Join(ks)| + 1;
    JoinSplit(t, a, ks);
    assert SkipSpaces(t, a + 2) == a + 3 by {
      assert SkipSpaces(t, a + 3) == a + 3;
    }
    PositionalOfJoin(t, a + 2, a + 3, ks[1..]);
    PositionalNext(t, j, a, ks[1..], e);
    assert [t[a].key] + ks[1..] == ks;
  }

  /** One key and then `)`. */
  lemma PositionalLast(t: Text, j: nat, a: nat)
    requires PhAt(t, a) && j <= a && SkipSpaces(t, j) == a && CharAt(t, a + 1, ')')
    ensures PositionalAt(t, j) == Some(([t[a].key], a + 2))
  {
    assert SkipSpaces(t, a + 1) == a + 1;
  }

  /** One key and `,`: the rest is read after the comma. */
  lemma PositionalNext(t: Text, j: nat, a: nat, rest: seq<Text>, e: nat)
    requires PhAt(t, a) && j <= a && SkipSpaces(t, j) == a && CharAt(t, a + 1, ',')
    requires PositionalAt(t, a + 2) == Some((rest, e))
    ensures PositionalAt(t, j) == Some(([t[a].key] + rest, e))
  {
    assert SkipSpaces(t, a + 1) == a + 1;
  }

  /** The written piece `x: PH` at a puts the name's word run, `:`, one
      space and the placeholder where the named-argument pattern reads them. */
  lemma NamedPieceFacts(t: Text, a: nat, x: string, k: Text)
    requires ArgName(x)
    requires a + |x| + 3 <= |t| && t[a..a + |x| + 3] == Lift(x) + [Ch(':'), Ch(' '), Ph(k)]
    ensures var w := a + |x|;
      SkipWord(t, a) == w && SkipSpaces(t, w) == w && CharAt(t, w, ':') &&
      SkipSpaces(t, w + 1) == w + 2 && t[w + 2] == Ph(k) && Chars(t[a..w]) == x
  {
    var w := a + |x|;
    forall q | a <= q < w ensures IsWordItem(t[q]) {
      assert t[q] == t[a..a + |x| + 3][q - a] == Ch(x[q - a]);
    }
    assert t[w] == t[a..a + |x| + 3][|x|] == Ch(':');
    assert t[w + 1] == t[a..a + |x| + 3][|x| + 1] == Ch(' ');
    assert t[w + 2] == t[a..a + |x| + 3][|x| + 2] == Ph(k);
    SkipWordTo(t, a, w);
    assert SkipSpaces(t, w + 2) == w + 2;
    assert Chars(t[a..w]) == x by {
      forall q | 0 <= q < |x| ensures Chars(t[a..w])[q] == x[q] {
        assert t[a..w][q] == t[a + q];
      }
    }
  }

  /** The named-argument pattern at a reads name x and key k when the name's
      word run, `:`, spaces and the placeholder sit where it looks. */
  lemma NamedPieceBy(t: Text, a: nat, x: string, k: Text)
    requires a + |x| + 3 < |t| && |x| > 0
    requires var w := a + |x|;
      SkipWord(t, a) == w && SkipSpaces(t, w) == w && CharAt(t, w, ':') &&
      SkipSpaces(t, w + 1) == w + 2 && t[w + 2] == Ph(k) && Chars(t[a..w]) == x
    requires SkipSpaces(t, a + |x| + 3) == a + |x| + 3
    ensures NamedPiece(t, a) == Some((x, k, a + |x| + 3))
  {
  }

  /** The named arguments ns: ks are written from position a of t, each
      as `name: PH` and separated by `, `. */
  predicate NamedWritten(t: Text, a: nat, ns: seq<string>, ks: seq<Text>)
    decreases |ks|
  {
    |ns| == |ks| >= 1 && a + |ns[0]| + 3 <= |t| &&
    t[a..a + |ns[0]| + 3] == Lift(ns[0]) + [Ch(':'), Ch(' '), Ph(ks[0])] &&
    (|ks| == 1 ||
     (a + |ns[0]| + 5 <= |t| && t[a + |ns[0]| + 3] == Ch(',') && t[a + |ns[0]| + 4] == Ch(' ') &&
      NamedWritten(t, a + |ns[0]| + 5, ns[1..], ks[1..])))
  }

  /** The named-argument pattern, started at a, reads ns: ks one after the
      other, each followed by `)` when it is the last and `, ` otherwise. */
  predicate NamedReads(t: Text, a: nat, ns: seq<string>, ks: seq<Text>)
    decreases |ks|
  {
    |ns| == |ks| >= 1 &&
    var b := a + |ns[0]| + 3;
    b < |t| && NamedPiece(t, a) == Some((ns[0], ks[0], b)) &&
    if |ks| == 1 then t[b] == Ch(')')
    else
      b + 2 <= |t| && t[b] == Ch(',') && SkipSpaces(t, b + 1) == b + 2 &&
      NamedReads(t, b + 2, ns[1..], ks[1..])
  }

  /** Written named arguments, after spaces that start at j and then `)`,
      parse back to their name/key pairs in order. */
  lemma NamedOfJoin(pre: Text, ns: seq<string>, ks: seq<Text>, post: Text, j: nat)
    requires |ns| == |ks| >= 1 && forall q :: 0 <= q < |ns| ==> ArgName(ns[q])
    requires post != [] && post[0] == Ch(')')
    requires j <= |pre| && SkipSpaces(pre + NamedJoin(ns, ks) + post, j) == |pre|
    ensures NamedAt(pre + NamedJoin(ns, ks) + post, j) == Some((Pairs(ns, ks), |pre| + |NamedJoin(ns, ks)| + 1))
  {
    var t := pre + NamedJoin(ns, ks) + post;
    WrittenNamed(pre, ns, ks, post);
    assert CharAt(t, |pre| + |NamedJoin(ns, ks)|, ')');
    WrittenReads(t, |pre|, ns, ks);
    ReadsNamed(t, j, |pre|, ns, ks, |pre| + |NamedJoin(ns, ks)| + 1);
  }

  /** The written form of named arguments, between any text before and
      after, is where NamedWritten says it is. */
  lemma {:induction false} WrittenNamed(pre: Text, ns: seq<string>, ks: seq<Text>, post: Text)
    requires |ns| == |ks| >= 1
    ensures NamedWritten(pre + NamedJoin(ns, ks) + post, |pre|, ns, ks)
    decreases |ks|
  {
    var one := Lift(ns[0]) + [Ch(':'), Ch(' '), Ph(ks[0])];
    var t := pre + NamedJoin(ns, ks) + post;
    if |ks| == 1 {
      assert NamedJoin(ns, ks) == one;
      Middle(pre, one, post);
    } else {
      var ns2, ks2 := ns[1..], ks[1..];
      var rest := NamedJoin(ns2, ks2);
      var pre2 := pre + one + [Ch(','), Ch(' ')];
      assert NamedJoin(ns, ks) == one + [Ch(','), Ch(' ')] + rest;
      Regroup3(pre, one, rest, post, t);
      var a, w := |pre|, |pre| + |ns[0]| + 3;
      SeparatorAfter(pre, one, rest + post, t, a, w);
      WrittenNamed(pre2, ns2, ks2, post);
      WrittenStep(t, a, w, ns, ks, ns2, ks2);
    }
  }

  /** The middle of three concatenated texts is where it was put. */
  lemma Middle(pre: Text, m: Text, post: Text)
    ensures (pre + m + post)[|pre|..|pre| + |m|] == m
  {
  }

  /** The written form of several named arguments, regrouped as the first
      piece with its separator and the rest. */
  lemma Regroup3(pre: Text, one: Text, rest: Text, post: Text, t: Text)
    requires t == pre + (one + [Ch(','), Ch(' ')] + rest) + post
    ensures t == pre + one + ([Ch(','), Ch(' ')] + (rest + post))
    ensures t == (pre + one + [Ch(','), Ch(' ')]) + rest + post
  {
  }

  /** A piece followed by `, `: where the piece and the separator sit. */
  lemma SeparatorAfter(pre: Text, one: Text, more: Text, t: Text, a: nat, w: nat)
    requires t == pre + one + ([Ch(','), Ch(' ')] + more) && a == |pre| && w == a + |one|
    ensures w + 2 <= |t| && t[a..w] == one && t[w] == Ch(',') && t[w + 1] == Ch(' ')
  {
    Middle(pre, one, [Ch(','), Ch(' ')] + more);
  }

  /** The first written piece, its separator and the written rest make up
      the written form of all the named arguments. */
  lemma WrittenStep(t: Text, a: nat, w: nat, ns: seq<string>, ks: seq<Text>, ns2: seq<string>, ks2: seq<Text>)
    requires |ns| == |ks| > 1 && ns2 == ns[1..] && ks2 == ks[1..] && w == a + |ns[0]| + 3 && w + 2 <= |t|
    requires t[a..w] == Lift(ns[0]) + [Ch(':'), Ch(' '), Ph(ks[0])]
    requires t[w] == Ch(',') && t[w + 1] == Ch(' ')
    requires NamedWritten(t, w + 2, ns2, ks2)
    ensures NamedWritten(t, a, ns, ks)
  {
  }

  /** Named arguments written from a and closed by `)` are read by the
      named-argument pattern as written. */
  lemma {:induction false} WrittenReads(t: Text, a: nat, ns: seq<string>, ks: seq<Text>)
    requires NamedWritten(t, a, ns, ks) && forall q :: 0 <= q < |ns| ==> ArgName(ns[q])
    requires CharAt(t, a + |NamedJoin(ns, ks)|, ')')
    ensures NamedReads(t, a, ns, ks)
    decreases |ks|
  {
    var x, k, b := ns[0], ks[0], a + |ns[0]| + 3;
    assert ArgName(x);
    NamedPieceFacts(t, a, x, k);
    if |ks| == 1 {
      JoinLast(ns, ks, x, k);
      assert t[b] == Ch(')') && SkipSpaces(t, b) == b;
      NamedPieceBy(t, a, x, k);
      ReadsLast(t, a, ns, ks, x, k, b);
    } else {
      JoinStep(ns, ks, ns[1..], ks[1..], x, k, Pairs(ns[1..], ks[1..]));
      assert t[b] == Ch(',') && SkipSpaces(t, b) == b;
      NamedPieceBy(t, a, x, k);
      NamedResumes(t, b, ns[1..], ks[1..]);
      WrittenReads(t, a + |ns[0]| + 3 + 2, ns[1..], ks[1..]);
      ReadsStep(t, a, ns, ks);
    }
  }

  /** The last named argument read at a and followed by `)`. */
  lemma ReadsLast(t: Text, a: nat, ns: seq<string>, ks: seq<Text>, x: string, k: Text, b: nat)
    requires |ns| == |ks| == 1 && x == ns[0] && k == ks[0] && b == a + |x| + 3 && b < |t|
    requires NamedPiece(t, a) == Some((x, k, b)) && t[b] == Ch(')')
    ensures NamedReads(t, a, ns, ks)
  {
  }

  /** A named argument read at a and followed by `,`, then the rest read
      after the comma and its spaces. */
  lemma ReadsStep(t: Text, a: nat, ns: seq<string>, ks: seq<Text>)
    requires |ns| == |ks| > 1 && a + |ns[0]| + 3 < |t|
    requires NamedPiece(t, a) == Some((ns[0], ks[0], a + |ns[0]| + 3)) && t[a + |ns[0]| + 3] == Ch(',')
    requires SkipSpaces(t, a + |ns[0]| + 3 + 1) == a + |ns[0]| + 3 + 2
    requires NamedReads(t, a + |ns[0]| + 3 + 2, ns[1..], ks[1..])
    ensures NamedReads(t, a, ns, ks)
  {
  }

  /** After `,` and one space, the next written name starts at once. */
  lemma NamedResumes(t: Text, b: nat, ns: seq<string>, ks: seq<Text>)
    requires b + 2 <= |t| && t[b + 1] == Ch(' ') && NamedWritten(t, b + 2, ns, ks) && ArgName(ns[0])
    ensures SkipSpaces(t, b + 1) == b + 2
  {
    assert t[b + 2] == t[b + 2..b + |ns[0]| + 5][0] == Ch(ns[0][0]);
    assert IsWordChar(ns[0][0]);
  }

  /** Spaces from j up to a, then named arguments the pattern reads one
      after the other: NamedAt returns them all, in order, and ends after
      the closing parenthesis. */
  lemma {:induction false} ReadsNamed(t: Text, j: nat, a: nat, ns: seq<string>, ks: seq<Text>, e: nat)
    requires NamedReads(t, a, ns, ks) && j <= a && SkipSpaces(t, j) == a
    requires e == a + |NamedJoin(ns, ks)| + 1
    ensures NamedAt(t, j) == Some((Pairs(ns, ks), e))
    decreases |ks|
  {
    var x, k, b := ns[0], ks[0], a + |ns[0]| + 3;
    ReadsHead(t, a, ns, ks, x, k, b);
    if |ks| == 1 {
      JoinLast(ns, ks, x, k);
      NamedLast(t, j, a, x, k, b);
      assert NamedAt(t, j) == Some((Pairs(ns, ks), b + 1));
      assert e == b + 1;
    } else {
      var c, a2 := b + 1, b + 2;
      var ns2, ks2 := ns[1..], ks[1..];
      NamedReadsRest(t, a, b, c, a2, ns, ks, ns2, ks2);
      var e2 := a2 + |NamedJoin(ns2, ks2)| + 1;
      ReadsNamed(t, c, a2, ns2, ks2, e2);
      var ps := Pairs(ns2, ks2);
      JoinStep(ns, ks, ns2, ks2, x, k, ps);
      NamedStep(t, j, a, x, k, b, c, ps, e2);
      assert NamedAt(t, j) == Some((Pairs(ns, ks), e2));
      assert e == e2;
    }
  }

  /** What the named-argument pattern reads after the first argument and
      its comma. */
  lemma NamedReadsRest(t: Text, a: nat, b: nat, c: nat, a2: nat, ns: seq<string>, ks: seq<Text>, ns2: seq<string>, ks2: seq<Text>)
    requires NamedReads(t, a, ns, ks) && |ks| > 1
    requires b == a + |ns[0]| + 3 && c == b + 1 && a2 == b + 2 && ns2 == ns[1..] && ks2 == ks[1..]
    ensures c <= a2 <= |t| && SkipSpaces(t, c) == a2 && NamedReads(t, a2, ns2, ks2)
  {
  }

  /** The named-argument pattern skips leading spaces first. */
  lemma NamedOneFrom(t: Text, j: nat, a: nat)
    requires j <= a <= |t| && SkipSpaces(t, j) == a
    ensures NamedOne(t, j) == NamedPiece(t, a)
  {
  }

  /** The only named argument, read after the spaces from j and followed
      by `)`, is the whole list. */
  lemma NamedLast(t: Text, j: nat, a: nat, x: string, k: Text, b: nat)
    requires j <= a < b < |t| && SkipSpaces(t, j) == a && NamedPiece(t, a) == Some((x, k, b))
    requires t[b] == Ch(')')
    ensures NamedAt(t, j) == Some(([(x, k)], b + 1))
  {
    NamedOneFrom(t, j, a);
    NamedAtOne(t, j, x, k, b);
    NamedClose(t, j, x, k, b);
  }

  /** The first named argument, read after the spaces from j and followed
      by `,`, heads the list that follows the comma. */
  lemma NamedStep(t: Text, j: nat, a: nat, x: string, k: Text, b: nat, c: nat, ps: seq<(string, Text)>, e2: nat)
    requires j <= a < b < |t| && SkipSpaces(t, j) == a && NamedPiece(t, a) == Some((x, k, b))
    requires t[b] == Ch(',') && c == b + 1 && NamedAt(t, c) == Some((ps, e2))
    ensures NamedAt(t, j) == Some(([(x, k)] + ps, e2))
  {
    NamedOneFrom(t, j, a);
    NamedAtOne(t, j, x, k, b);
    NamedFirst(t, j, x, k, b, c);
  }

  /** The first argument the named-argument pattern reads, and the
      character after it. */
  lemma ReadsHead(t: Text, a: nat, ns: seq<string>, ks: seq<Text>, x: string, k: Text, b: nat)
    requires NamedReads(t, a, ns, ks) && x == ns[0] && k == ks[0] && b == a + |ns[0]| + 3
    ensures a < b < |t| && NamedPiece(t, a) == Some((x, k, b))
    ensures |ks| == 1 ==> t[b] == Ch(')')
    ensures |ks| > 1 ==> t[b] == Ch(',')
  {
  }

  lemma JoinLast(ns: seq<string>, ks: seq<Text>, x: string, k: Text)
    requires |ns| == |ks| == 1 && x == ns[0] && k == ks[0]
    ensures |NamedJoin(ns, ks)| == |x| + 3 && Pairs(ns, ks) == [(x, k)]
  {
  }

  lemma JoinStep(ns: seq<string>, ks: seq<Text>, ns2: seq<string>, ks2: seq<Text>, x: string, k: Text, ps: seq<(string, Text)>)
    requires |ns| == |ks| > 1 && x == ns[0] && k == ks[0] && ns2 == ns[1..] && ks2 == ks[1..] && ps == Pairs(ns2, ks2)
    ensures |NamedJoin(ns, ks)| == |x| + 5 + |NamedJoin(ns2, ks2)| && Pairs(ns, ks) == [(x, k)] + ps
  {
  }

  /** A named argument followed by `)` is the whole list. */
  lemma NamedClose(t: Text, j: nat, x: string, k: Text, b: nat)
    requires j < b < |t| && t[b] == Ch(')')
    ensures NamedNext(t, j, (x, k, b)) == Some(([(x, k)], b + 1))
  {
    assert CharAt(t, b, ')');
  }

  /** Once a named argument is read at j, the list goes on from its end. */
  lemma NamedAtOne(t: Text, j: nat, x: string, k: Text, b: nat)
    requires j <= |t| && NamedOne(t, j) == Some((x, k, b))
    ensures NamedAt(t, j) == NamedNext(t, j, (x, k, b))
  {
  }

  /** A named argument followed by `,` continues the list with whatever
      follows the comma reads as. */
  lemma NamedFirst(t: Text, j: nat, x: string, k: Text, b: nat, c: nat)
    requires j < b < |t| && t[b] == Ch(',') && c == b + 1
    ensures var r := NamedAt(t, c);
      r.Some? ==> NamedNext(t, j, (x, k, b)) == Some(([(x, k)] + r.value.0, r.value.1))
  {
    assert !CharAt(t, b, ')') && CharAt(t, b, ',');
  }

  // ---------------------------------------------------------------------
  // Calls as written

  /** The call text starts with the name in its own letter case and `(`. */
  lemma CallHead(name: string, args: Text, post: Text)
    ensures var t := CallText(name, args) + post;
      WordStart(t, 0) && FoldAt(t, 0, name) && CharAt(t, |name|, '(') &&
      t[|name| + 1..|name| + 1 + |args|] == args && CharAt(t, |name| + 1 + |args|, ')')
  {
    var t := CallText(name, args) + post;
    assert forall k :: 0 <= k < |name| ==> t[k] == Ch(name[k]);
    assert t[|name| + 1..|name| + 1 + |args|] == args;
  }

  /** `name(k1, k2, ...)`: one call match, its arguments the keys in the
      order written and no names. */
  lemma PositionalCall(name: string, ks: seq<Text>, post: Text)
    requires |ks| >= 1
    ensures var c := CallText(name, Join(ks));
      CallMatch(name, c + post, 0) == Some(Match(|c|, ks, []))
  {
    var c := CallText(name, Join(ks));
    var t := c + post;
    var a := |name| + 1;
    var e := a + |Join(ks)| + 1;
    CallHead(name, Join(ks), post);
    assert SkipSpaces(t, a) == a by {
      assert t[a] == Join(ks)[0] == Ph(ks[0]);
    }
    ArgumentsOfJoin(t, a, ks);
    CallOfArguments(name, t, ks, [], e);
    assert |c| == e;
  }

  /** Written positional arguments right after `(` are the argument
      match there: positional arguments are the first form tried. */
  lemma ArgumentsOfJoin(t: Text, a: nat, ks: seq<Text>)
    requires |ks| >= 1
    requires a + |Join(ks)| <= |t| && t[a..a + |Join(ks)|] == Join(ks) && SkipSpaces(t, a) == a
    requires CharAt(t, a + |Join(ks)|, ')')
    ensures ArgumentsAt(t, a) == Some((ks, [], a + |Join(ks)| + 1))
  {
    PositionalOfJoin(t, a, a, ks);
  }

  /** The name, `(` and an argument match after it make a call match
      from the start of the text to the argument match's end. */
  lemma CallOfArguments(name: string, t: Text, ks: seq<Text>, ns: seq<string>, e: nat)
    requires WordStart(t, 0) && FoldAt(t, 0, name) && CharAt(t, |name|, '(')
    requires ArgumentsAt(t, |name| + 1) == Some((ks, ns, e))
    ensures CallMatch(name, t, 0) == Some(Match(e, ks, ns))
  {
  }

  /** `name(x1: k1, x2: k2, ...)`: one call match, its arguments the keys
      and its names the names, both in the order written. */
  lemma NamedCall(name: string, ns: seq<string>, ks: seq<Text>, post: Text)
    requires |ns| == |ks| >= 1 && forall q :: 0 <= q < |ns| ==> ArgName(ns[q])
    ensures var c := CallText(name, NamedJoin(ns, ks));
      CallMatch(name, c + post, 0) == Some(Match(|c|, ks, ns))
  {
    var pre := Lift(name) + [Ch('(')];
    var t := CallText(name, NamedJoin(ns, ks)) + post;
    assert t == pre + NamedJoin(ns, ks) + ([Ch(')')] + post);
    var a := |pre|;
    CallHead(name, NamedJoin(ns, ks), post);
    NamedStart(t, a, ns, ks);
    NamedOfJoin(pre, ns, ks, [Ch(')')] + post, a);
    var ps := Pairs(ns, ks);
    assert RefsOf(ps) == ks && Keys(ps) == ns;
  }

  /** Named arguments written at a start with a word character, so the
      positional pattern fails there and no spaces are skipped. */
  lemma NamedStart(t: Text, a: nat, ns: seq<string>, ks: seq<Text>)
    requires |ns| == |ks| >= 1 && ArgName(ns[0])
    requires a + |NamedJoin(ns, ks)| <= |t| && t[a..a + |NamedJoin(ns, ks)|] == NamedJoin(ns, ks)
    ensures SkipSpaces(t, a) == a && PositionalAt(t, a) == None
  {
    assert t[a] == NamedJoin(ns, ks)[0] == Ch(ns[0][0]);
    assert IsWordChar(ns[0][0]);
  }

  /** `name()`: one call match with no arguments. */
  lemma EmptyCall(name: string, post: Text)
    ensures var c := CallText(name, []);
      CallMatch(name, c + post, 0) == Some(Match(|c|, [], []))
  {
    var t := CallText(name, []) + post;
    var a := |name| + 1;
    CallHead(name, [], post);
    assert SkipSpaces(t, a) == a && SkipWord(t, a) == a;
  }

  /** The loop of f on the text of one positional call of f: the text
      becomes the call's placeholder, whose entry holds the host's value for
      the recalled keys in the order written. */
  lemma SingleCall(f: FunctionSpec, ks: seq<Text>, memo: Memo, call: Call, context: Value)
    requires |ks| >= 1 && forall k :: 0 <= k < |ks| ==> ks[k] in memo
    requires Closed(CallText(f.name, Join(ks)), memo)
    ensures var t := CallText(f.name, Join(ks));
      Calls(State(t, memo), f, call, context) ==
      State([Ph(t)], memo[t := FunctionC(f.name, Positional(ks),
        call(f.id, Positional(seq(|ks|, k requires 0 <= k < |ks| => Recall(memo, ks[k]))), context))])
  {
    var t := CallText(f.name, Join(ks));
    var st := State(t, memo);
    var M := CallAt(f.name);
    PositionalCall(f.name, ks, []);
    assert t + [] == t;
    assert M(t, 0) == Some(Match(|t|, ks, []));
    assert HitAt(t, 0, M);
    var c := CallEntry(st, 0, f, call, context);
    assert c == FunctionC(f.name, Positional(ks),
      call(f.id, Positional(seq(|ks|, k requires 0 <= k < |ks| => Recall(memo, ks[k]))), context));
    ReduceWhole(st, M, c);
    var s1 := State([Ph(t)], memo[t := c]);
    assert !HitAt(s1.text, 0, M);
    assert Calls(s1, f, call, context) == s1;
  }
}


=== FILE: memo.dfy ===
/** The evaluator's working state: the expression text and the memo
    (`$this->simplifications`) from matched text to the component it was
    reduced to, together with the two ways the passes rewrite it:
    `preg_replace_callback` (one left-to-right scan over the original text)
    and the `while (preg_match(...)) str_replace(...)` loops (reduce the
    leftmost match everywhere, repeat). */
module Memo {
  import opened Wrappers
  import opened Text
  import opened Components

  type Memo = map<Text, Component<Text>>

  datatype State = State(text: Text, memo: Memo)

  /** Every placeholder in the text has a memo entry. */
  predicate Closed(text: Text, memo: Memo) {
    forall i :: 0 <= i < |text| && text[i].Ph? ==> text[i].key in memo
  }

  /** `simplify($expression, $component)` followed by `str_replace`: the
      entry is recorded under the matched text and every occurrence of that
      text becomes its placeholder. */
  function Reduce(st: State, m: Text, c: Component<Text>): (r: State)
    requires |m| > 0
    ensures r.memo == st.memo[m := c]
    ensures !Occurs(m, r.text)
    ensures !Occurs(m, st.text) ==> r.text == st.text
    ensures |r.text| <= |st.text|
    ensures |m| > 1 && Occurs(m, st.text) ==> |r.text| < |st.text|
    ensures forall i :: 0 <= i < |r.text| ==> r.text[i] in st.text || r.text[i] == Ph(m)
    ensures Closed(st.text, st.memo) ==> Closed(r.text, r.memo)
  {
    NotOwnItem(m);
    ReplaceAllRemovesEvery(st.text, m, Ph(m));
    var u := ReplaceAll(st.text, m, [Ph(m)]);
    var memo := st.memo[m := c];
    assert forall i :: 0 <= i < |u| ==> u[i] in st.text || u[i] == Ph(m);
    assert Closed(st.text, st.memo) ==> Closed(u, memo) by {
      if Closed(st.text, st.memo) {
        forall i | 0 <= i < |u| && u[i].Ph? ensures u[i].key in memo {
          if u[i] != Ph(m) {
            var j :| 0 <= j < |st.text| && st.text[j] == u[i];
          }
        }
      }
    }
    State(u, memo)
  }

  /** The placeholder of k is among t[i..j]. */
  predicate InRange(t: Text, i: nat, j: nat, k: Text) {
    i <= j <= |t| && Ph(k) in t[i..j]
  }

  /** A placeholder inside a closed text has its entry. */
  lemma KnownIn(t: Text, memo: Memo, i: nat, j: nat, k: Text)
    requires Closed(t, memo) && InRange(t, i, j, k)
    ensures k in memo
  {
    var q :| 0 <= q < j - i && t[i..j][q] == Ph(k);
    assert t[i + q] == Ph(k);
  }

  /** A range around a range keeps its placeholders. */
  lemma Widen(t: Text, i: nat, c: nat, d: nat, e: nat, k: Text)
    requires i <= c && d <= e <= |t| && InRange(t, c, d, k)
    ensures InRange(t, i, e, k)
  {
    var q :| 0 <= q < d - c && t[c..d][q] == Ph(k);
    assert t[i..e][c - i + q] == Ph(k);
  }

  /** The placeholder at a is in every range around a. */
  lemma PhIn(t: Text, i: nat, j: nat, a: nat)
    requires i <= a < j <= |t| && t[a].Ph?
    ensures InRange(t, i, j, t[a].key)
  {
    assert t[i..j][a - i] == t[a];
  }

  /** A key in a range followed by keys in a later part of it: all of
      them are in the range. */
  lemma PrependIn(t: Text, j: nat, b: nat, e: nat, key: Text, ks: seq<Text>)
    requires j <= b <= e <= |t| && InRange(t, j, e, key)
    requires forall k :: 0 <= k < |ks| ==> InRange(t, b, e, ks[k])
    ensures forall k :: 0 <= k < |[key] + ks| ==> InRange(t, j, e, ([key] + ks)[k])
  {
    forall k | 1 <= k < |[key] + ks| ensures InRange(t, j, e, ([key] + ks)[k]) {
      assert ([key] + ks)[k] == ks[k - 1];
      Widen(t, j, b, e, e, ks[k - 1]);
    }
  }

  /** `recall($token)`: the value of the entry, through any brackets. */
  function Recall(memo: Memo, k: Text): (v: Value)
    requires k in memo
    ensures v == ValueOf(Unwrap(memo[k]))
  {
    ValueOf(memo[k])
  }

  // ---------------------------------------------------------------------
  // Matches

  /** What a pattern matched at a position: its length, the placeholder
      keys or texts its groups captured, and captured names (the keys of
      named arguments). */
  datatype Match = Match(len: nat, refs: seq<Text>, names: seq<string>)

  /** A matcher: the match of a fixed pattern starting exactly at a
      position of the whole text (look-behind and look-ahead see the whole
      text). */
  type Matcher = (Text, nat) -> Option<Match>

  /** M matches a nonempty stretch of t at p. */
  predicate HitAt(t: Text, p: nat, M: Matcher) {
    p < |t| && M(t, p).Some? && 1 <= M(t, p).value.len <= |t| - p
  }

  /** The text M matched at p. */
  function Matched(t: Text, p: nat, M: Matcher): (m: Text)
    requires HitAt(t, p, M)
    ensures 0 < |m| && m == t[p..p + M(t, p).value.len]
  {
    t[p..p + M(t, p).value.len]
  }

  /** `preg_match`: the leftmost position at or after i where M matches. */
  function Leftmost(t: Text, i: nat, M: Matcher): (r: Option<nat>)
    requires i <= |t|
    ensures r.None? <==> forall p :: i <= p < |t| ==> !HitAt(t, p, M)
    ensures r.Some? ==> i <= r.value < |t| && HitAt(t, r.value, M)
    ensures r.Some? ==> forall p :: i <= p < r.value ==> !HitAt(t, p, M)
    decreases |t| - i
  {
    if i == |t| then None
    else if HitAt(t, i, M) then Some(i)
    else Leftmost(t, i + 1, M)
  }

  /** Reduces the match of M at p, which is longer than one item: the text
      gets shorter. */
  function ReduceAt(st: State, p: nat, M: Matcher, c: Component<Text>): (r: State)
    requires HitAt(st.text, p, M) && M(st.text, p).value.len > 1
    ensures |r.text| < |st.text|
    ensures Closed(st.text, st.memo) ==> Closed(r.text, r.memo)
    ensures r == Reduce(st, Matched(st.text, p, M), c)
  {
    var m := Matched(st.text, p, M);
    OccursAt(st.text, m, p);
    Reduce(st, m, c)
  }

  /** Reducing a match that covers the whole text leaves its placeholder. */
  lemma ReduceWhole(st: State, M: Matcher, c: Component<Text>)
    requires HitAt(st.text, 0, M) && M(st.text, 0).value.len == |st.text| > 1
    ensures ReduceAt(st, 0, M, c) == State([Ph(st.text)], st.memo[st.text := c])
  {
    assert st.text[0..|st.text|] == st.text;
    ReplaceWhole(st.text, [Ph(st.text)]);
  }

  /** No match of M anywhere in t. */
  predicate NoHit(t: Text, M: Matcher) {
    forall p :: 0 <= p < |t| ==> !HitAt(t, p, M)
  }

  // ---------------------------------------------------------------------
  // preg_replace_callback

  /** The memo entry and key a callback records for a match: the key is the
      matched text except where the callback hashes something else. */
  type Builder = (Text, Match) -> (Text, Component<Text>)

  /** `preg_replace_callback` from position i of the original text t: a
      match is replaced by its placeholder and scanning resumes after it;
      otherwise the item is copied. Look-arounds always read t. */
  function ScanFrom(t: Text, i: nat, memo: Memo, M: Matcher, B: Builder): (r: State)
    requires i <= |t|
    ensures |r.text| <= |t| - i
    ensures forall k :: k in memo ==> k in r.memo
    ensures (forall p :: i <= p < |t| ==> !HitAt(t, p, M)) ==> r == State(t[i..], memo)
    ensures forall k :: 0 <= k < |r.text| && r.text[k].Ph? ==> r.text[k] in t[i..] || r.text[k].key in r.memo
    ensures (forall p :: i <= p < |t| && HitAt(t, p, M) ==> M(t, p).value.len > 1) ==>
      r == State(t[i..], memo) || |r.text| < |t| - i
    decreases |t| - i
  {
    if i == |t| then State([], memo)
    else if HitAt(t, i, M) then
      var n := M(t, i).value.len;
      var (key, c) := B(t[i..i + n], M(t, i).value);
      var rest := ScanFrom(t, i + n, memo[key := c], M, B);
      FromLater(t, i, n, rest.text, rest.memo);
      State([Ph(key)] + rest.text, rest.memo)
    else
      var rest := ScanFrom(t, i + 1, memo, M, B);
      FromLater(t, i, 1, rest.text, rest.memo);
      assert t[i..] == [t[i]] + t[i + 1..];
      State([t[i]] + rest.text, rest.memo)
  }

  /** Placeholders copied from a later part of t are copied from t[i..]. */
  lemma FromLater(t: Text, i: nat, n: nat, u: Text, memo: Memo)
    requires i + n <= |t|
    requires forall k :: 0 <= k < |u| && u[k].Ph? ==> u[k] in t[i + n..] || u[k].key in memo
    ensures forall k :: 0 <= k < |u| && u[k].Ph? ==> u[k] in t[i..] || u[k].key in memo
  {
    forall k | 0 <= k < |u| && u[k].Ph? && u[k].key !in memo ensures u[k] in t[i..] {
      var j :| 0 <= j < |t[i + n..]| && t[i + n..][j] == u[k];
      assert t[i..][n + j] == u[k];
    }
  }

  /** `preg_replace_callback` over the whole text. */
  function Scan(st: State, M: Matcher, B: Builder): (r: State)
    ensures NoHit(st.text, M) ==> r == st
    ensures |r.text| <= |st.text|
    ensures Closed(st.text, st.memo) ==> Closed(r.text, r.memo)
  {
    var r := ScanFrom(st.text, 0, st.memo, M, B);
    assert st.text[0..] == st.text;
    r
  }

  /** A scan whose matches are all longer than one item either changes
      nothing or shortens the text. */
  lemma ScanShrinks(st: State, M: Matcher, B: Builder)
    requires forall p :: 0 <= p < |st.text| && HitAt(st.text, p, M) ==> M(st.text, p).value.len > 1
    ensures Scan(st, M, B) == st || |Scan(st, M, B).text| < |st.text|
  {
    assert st.text[0..] == st.text;
  }

  /** A scan whose first match covers the whole text leaves just that
      match's placeholder, with the entry the builder made for it. */
  lemma ScanWhole(st: State, M: Matcher, B: Builder)
    requires HitAt(st.text, 0, M) && M(st.text, 0).value.len == |st.text|
    ensures var kc := B(st.text, M(st.text, 0).value);
      Scan(st, M, B) == State([Ph(kc.0)], st.memo[kc.0 := kc.1])
  {
    var t := st.text;
    assert t[0..|t|] == t;
    var kc := B(t, M(t, 0).value);
    assert ScanFrom(t, |t|, st.memo[kc.0 := kc.1], M, B) == State([], st.memo[kc.0 := kc.1]);
  }
}

=== FILE: numbers.dfy ===
/** `prepareNumbers` (src/Executor.php): four `preg_replace_callback`
    passes, in this order: negative floats `( -1.5 )`, positive floats,
    negative integers `( -7 )`, positive integers. A negative numeral is only
    ever the parenthesised form, and no numeral may touch a word character.
    Floats keep their digits (whole part and fraction), not a binary
    approximation. */
module Numbers {
  import opened Wrappers
  import opened Text
  import opened Components
  import opened Memo

  // ---------------------------------------------------------------------
  // Decimal digits

  function DigitValue(c: char): nat {
    if IsDigit(c) then c as int - '0' as int else 0
  }

  function DigitChar(d: nat): (c: char)
    requires d < 10
    ensures IsDigit(c) && DigitValue(c) == d
  {
    ('0' as int + d) as char
  }

  /** The number a string of decimal digits denotes (`intval`, without its
      overflow). */
  function NumeralValue(s: string): nat {
    if s == [] then 0 else NumeralValue(s[..|s| - 1]) * 10 + DigitValue(s[|s| - 1])
  }

  /** The decimal digits of the text, in order. */
  function DigitsIn(t: Text): (s: string)
    ensures forall k :: 0 <= k < |s| ==> IsDigit(s[k])
  {
    if t == [] then []
    else (if IsDigitItem(t[0]) then [t[0].c] else []) + DigitsIn(t[1..])
  }

  /** The canonical decimal spelling of n: no leading zero. */
  function ToDecimal(n: nat): (s: string)
    ensures |s| > 0 && forall k :: 0 <= k < |s| ==> IsDigit(s[k])
    ensures s[0] == '0' ==> n == 0 && |s| == 1
  {
    if n < 10 then [DigitChar(n)] else ToDecimal(n / 10) + [DigitChar(n % 10)]
  }

  /** Reading back the canonical spelling gives the number. */
  lemma {:induction false} DecimalRoundTrip(n: nat)
    ensures NumeralValue(ToDecimal(n)) == n
  {
    var s := ToDecimal(n);
    if n >= 10 {
      DecimalRoundTrip(n / 10);
      assert s[..|s| - 1] == ToDecimal(n / 10);
    }
  }

  /** Only the digits of a text made of digits are read. */
  lemma {:induction false} DigitsOfDigits(s: string)
    requires forall k :: 0 <= k < |s| ==> IsDigit(s[k])
    ensures DigitsIn(Lift(s)) == s
  {
    if s != [] {
      assert Lift(s)[1..] == Lift(s[1..]);
      DigitsOfDigits(s[1..]);
    }
  }

  // ---------------------------------------------------------------------
  // Pattern pieces

  /** `(?<![\da-z_])` under /i. */
  predicate Detached(t: Text, i: nat) { i == 0 || i > |t| || !IsWordItem(t[i - 1]) }

  /** `(?![\da-z_])` under /i. */
  predicate FreeAfter(t: Text, j: nat) { !(j < |t| && IsWordItem(t[j])) }

  /** `(0|[1-9]\d*)(?!\d)` at i: the end of the digits. */
  function UnsignedEnd(t: Text, i: nat): (r: Option<nat>)
    requires i <= |t|
    ensures r.Some? ==> i < r.value <= |t| && r.value == SkipDigits(t, i)
    ensures r.Some? ==> (t[i] == Ch('0') ==> r.value == i + 1)
  {
    var d := SkipDigits(t, i);
    if d > i && (t[i] != Ch('0') || d == i + 1) then Some(d) else None
  }

  /** `(?:0\.|[1-9]\d*\.)\d+` at i: the position of the point and the end of
      the fraction. */
  function FloatEnd(t: Text, i: nat): (r: Option<(nat, nat)>)
    requires i <= |t|
    ensures r.Some? ==> i < r.value.0 && r.value.0 + 1 < r.value.1 <= |t|
    ensures r.Some? ==> r.value.0 == SkipDigits(t, i) && CharAt(t, r.value.0, '.')
    ensures r.Some? ==> r.value.1 == SkipDigits(t, r.value.0 + 1)
    ensures r.Some? ==> (t[i] == Ch('0') ==> r.value.0 == i + 1)
  {
    match UnsignedEnd(t, i)
    case None => None
    case Some(d) =>
      if CharAt(t, d, '.') then
        var f := SkipDigits(t, d + 1);
        if f > d + 1 then Some((d, f)) else None
      else None
  }

  /** `\(\s*-` at i: where the digits start. */
  function MinusOpen(t: Text, i: nat): (r: Option<nat>)
    ensures r.Some? ==> i < r.value <= |t| && CharAt(t, i, '(') && CharAt(t, r.value - 1, '-')
  {
    if CharAt(t, i, '(') then
      var a := SkipSpaces(t, i + 1);
      if CharAt(t, a, '-') then Some(a + 1) else None
    else None
  }

  /** `\s*\)` followed by no word character, at j: the end of the match. */
  function CloseParen(t: Text, j: nat): (r: Option<nat>)
    requires j <= |t|
    ensures r.Some? ==> j < r.value <= |t| && CharAt(t, r.value - 1, ')') && FreeAfter(t, r.value)
  {
    var b := SkipSpaces(t, j);
    if CharAt(t, b, ')') && FreeAfter(t, b + 1) then Some(b + 1) else None
  }

  // ---------------------------------------------------------------------
  // The four patterns

  /** `(?<![\da-z_])\(\s*-((?:0\.|[1-9]\d*\.)\d+)\s*\)(?![\da-z_])`. */
  function FloatNegAt(t: Text, i: nat): (r: Option<Match>)
    ensures r.Some? ==> Detached(t, i) && CharAt(t, i, '(') && r.value.len >= 6
  {
    if Detached(t, i) then
      match MinusOpen(t, i)
      case None => None
      case Some(a) =>
        match FloatEnd(t, a)
        case None => None
        case Some((d, f)) =>
          match CloseParen(t, f)
          case None => None
          case Some(e) => Some(Match(e - i, [], []))
    else None
  }

  /** `(?<![\da-z_])(((0\.)|([1-9]\d*\.))\d+)(?![\da-z_])`. */
  function FloatPosAt(t: Text, i: nat): (r: Option<Match>)
    ensures r.Some? ==> Detached(t, i) && i < |t| && IsDigitItem(t[i]) && r.value.len >= 3
    ensures r.Some? ==> FreeAfter(t, i + r.value.len)
  {
    if Detached(t, i) && i <= |t| then
      match FloatEnd(t, i)
      case None => None
      case Some((d, f)) => if FreeAfter(t, f) then Some(Match(f - i, [], [])) else None
    else None
  }

  /** `(?<![\da-z_])\(\s*-(0|[1-9]\d*)(?!\d)\s*\)(?![\da-z_])`. */
  function IntNegAt(t: Text, i: nat): (r: Option<Match>)
    ensures r.Some? ==> Detached(t, i) && CharAt(t, i, '(') && r.value.len >= 4
    ensures r.Some? ==> CharAt(t, i + r.value.len - 1, ')') && FreeAfter(t, i + r.value.len)
  {
    if Detached(t, i) then
      match MinusOpen(t, i)
      case None => None
      case Some(a) =>
        match UnsignedEnd(t, a)
        case None => None
        case Some(d) =>
          match CloseParen(t, d)
          case None => None
          case Some(e) => Some(Match(e - i, [], []))
    else None
  }

  /** `(?<![\da-z_])((0)|([1-9]\d*))(?!\d)(?![\da-z_])`. */
  function IntPosAt(t: Text, i: nat): (r: Option<Match>)
    ensures r.Some? ==> Detached(t, i) && FreeAfter(t, i + r.value.len) && r.value.len >= 1
    ensures r.Some? ==> i + r.value.len <= |t|
    ensures r.Some? ==> forall k :: i <= k < i + r.value.len ==> IsDigitItem(t[k])
    ensures r.Some? ==> (t[i] == Ch('0') ==> r.value.len == 1)
  {
    if Detached(t, i) && i <= |t| then
      match UnsignedEnd(t, i)
      case None => None
      case Some(d) => if FreeAfter(t, d) then Some(Match(d - i, [], [])) else None
    else None
  }

  // ---------------------------------------------------------------------
  // Entries

  /** The whole part and the fraction digits of a float's matched text. */
  function FloatParts(m: Text): (nat, string) {
    var k := FindItem(m, 0, Ch('.'));
    (NumeralValue(DigitsIn(m[..k])), if k < |m| then DigitsIn(m[k + 1..]) else [])
  }

  function FloatEntry(negative: bool): Builder {
    (m: Text, x: Match) => (m, FloatC(negative, FloatParts(m).0, FloatParts(m).1))
  }

  /** `intval` of the digits, negated for the parenthesised form. */
  function IntEntry(negative: bool): Builder {
    (m: Text, x: Match) =>
      (m, IntegerC((if negative then -1 else 1) * NumeralValue(DigitsIn(m))))
  }

  /** `prepareNumbers`. */
  function PrepareNumbers(st: State): (r: State)
    ensures |r.text| <= |st.text|
    ensures Closed(st.text, st.memo) ==> Closed(r.text, r.memo)
  {
    var s1 := Scan(st, FloatNegAt, FloatEntry(true));
    var s2 := Scan(s1, FloatPosAt, FloatEntry(false));
    var s3 := Scan(s2, IntNegAt, IntEntry(true));
    Scan(s3, IntPosAt, IntEntry(false))
  }

  /** The canonical spelling of a natural number is one positive integer
      numeral, read back as that number. */
  lemma DecimalIsNumeral(n: nat, memo: Memo)
    ensures var t := Lift(ToDecimal(n));
      PrepareNumbers(State(t, memo)) == State([Ph(t)], memo[t := IntegerC(n)])
  {
    var s := ToDecimal(n);
    var t := Lift(s);
    var st := State(t, memo);
    forall k | 0 <= k < |t| ensures IsDigitItem(t[k]) && t[k] != Ch('(') && t[k] != Ch('.') {
      assert IsDigit(s[k]);
    }
    assert NoHit(t, FloatNegAt);
    assert NoHit(t, IntNegAt);
    assert NoHit(t, FloatPosAt);
    assert SkipDigits(t, 0) == |t|;
    assert IntPosAt(t, 0) == Some(Match(|t|, [], []));
    ScanWhole(st, IntPosAt, IntEntry(false));
    DigitsOfDigits(s);
    DecimalRoundTrip(n);
  }

  /** `(-n)` with the canonical spelling of n is one negative integer
      numeral, read back as -n. */
  lemma NegativeIsNumeral(n: nat, memo: Memo)
    ensures var t := Lift("(-" + ToDecimal(n) + ")");
      PrepareNumbers(State(t, memo)) == State([Ph(t)], memo[t := IntegerC(-(n as int))])
  {
    var s := ToDecimal(n);
    var t := Lift("(-" + s + ")");
    assert NumeralValue(DigitsIn(t)) == n by {
      NegativeDigits(s);
      DecimalRoundTrip(n);
    }
    NegativeShape(s);
    NegativeScan(t, memo);
  }

  /** A text that is one negative integer numeral and nothing else. */
  lemma NegativeScan(t: Text, memo: Memo)
    requires NoHit(t, FloatNegAt) && NoHit(t, FloatPosAt)
    requires IntNegAt(t, 0) == Some(Match(|t|, [], [])) && |t| > 0
    ensures PrepareNumbers(State(t, memo)) == State([Ph(t)], memo[t := IntEntry(true)(t, Match(|t|, [], [])).1])
  {
    var st := State(t, memo);
    ScanWhole(st, IntNegAt, IntEntry(true));
    var s3 := Scan(st, IntNegAt, IntEntry(true));
    assert NoHit(s3.text, IntPosAt);
  }

  lemma NegativeShape(s: string)
    requires |s| > 0 && forall k :: 0 <= k < |s| ==> IsDigit(s[k])
    requires s[0] == '0' ==> |s| == 1
    ensures var t := Lift("(-" + s + ")");
      NoHit(t, FloatNegAt) && NoHit(t, FloatPosAt) && IntNegAt(t, 0) == Some(Match(|t|, [], []))
  {
    var w := "(-" + s + ")";
    var t := Lift(w);
    forall k | 2 <= k < |t| - 1 ensures IsDigitItem(t[k]) {
      assert w[k] == s[k - 2];
    }
    forall k | 0 <= k < |t| ensures t[k] != Ch('.') {
      if 2 <= k < |t| - 1 { assert IsDigitItem(t[k]); }
    }
    assert t[|t| - 1] == Ch(')') by { assert w[|w| - 1] == ')'; }
    assert SkipDigits(t, 2) == |t| - 1;
  }

  lemma NegativeDigits(s: string)
    requires forall k :: 0 <= k < |s| ==> IsDigit(s[k])
    ensures DigitsIn(Lift("(-" + s + ")")) == s
  {
    var a, b, c := Lift("(-"), Lift(s), Lift(")");
    LiftConcat("(-", s);
    LiftConcat("(-" + s, ")");
    DigitsConcat(a, b);
    DigitsConcat(a + b, c);
    DigitsOfDigits(s);
    assert DigitsIn(a) == [] by { assert a[1..][1..] == []; }
    assert DigitsIn(c) == [] by { assert c[1..] == []; }
  }

  lemma {:induction false} DigitsConcat(a: Text, b: Text)
    ensures DigitsIn(a + b) == DigitsIn(a) + DigitsIn(b)
  {
    if a != [] {
      assert (a + b)[0] == a[0];
      assert (a + b)[1..] == a[1..] + b;
      DigitsConcat(a[1..], b);
      var h := if IsDigitItem(a[0]) then [a[0].c] else [];
      assert DigitsIn(a + b) == h + DigitsIn(a[1..] + b);
      assert DigitsIn(a) == h + DigitsIn(a[1..]);
    } else {
      assert a + b == b;
    }
  }

  /** Every number pattern starts with a digit or an opening parenthesis:
      a text with neither keeps its numbers pass a no-op. */
  lemma NumbersNeedDigits(st: State)
    requires forall i :: 0 <= i < |st.text| ==> !IsDigitItem(st.text[i]) && st.text[i] != Ch('(')
    ensures PrepareNumbers(st) == st
  {
    assert NoHit(st.text, FloatNegAt);
    assert NoHit(st.text, FloatPosAt);
    assert NoHit(st.text, IntNegAt);
    assert NoHit(st.text, IntPosAt);
  }
}

=== FILE: operators.dfy ===
/** `calcOperations` (src/Executor.php): binary operations between
    placeholders, in five pattern families tried in a fixed order, each
    family going through the operators by descending priority and reducing
    the leftmost match of an operator until none is left. The brackets
    family `( a op b )` must not follow a function name, so that a call's
    parenthesis is left to the call; its entries are wrapped as brackets.
    At the end a text that is exactly `(PH)` loses its parentheses. */
module Operators {
  import opened Wrappers
  import opened Text
  import opened Components
  import opened Registry
  import opened Memo

  /** The host side of an operator: its id, the two recalled operands and
      the context give the value. */
  type Apply = (nat, Value, Value, Value) -> Value

  /** `brackets`, `simple`, `simple_wrapped`, `simple_wrapped_left`,
      `simple_wrapped_right`, in the order they are tried. */
  datatype Family = Brackets | Simple | Wrapped | WrappedLeft | WrappedRight

  const Families: seq<Family> := [Brackets, Simple, Wrapped, WrappedLeft, WrappedRight]

  // ---------------------------------------------------------------------
  // Operands

  /** `(PH)` at j. */
  function PlainOperand(t: Text, j: nat): (r: Option<(Text, nat)>)
    ensures r.Some? ==> j < |t| && t[j] == Ph(r.value.0) && r.value.1 == j + 1
    ensures r.Some? ==> InRange(t, j, r.value.1, r.value.0)
  {
    if PhAt(t, j) then
      PhIn(t, j, j + 1, j);
      Some((t[j].key, j + 1))
    else None
  }

  /** `\(\s*(PH)\s*\)` at j. */
  function WrappedOperand(t: Text, j: nat): (r: Option<(Text, nat)>)
    ensures r.Some? ==> CharAt(t, j, '(') && j + 3 <= r.value.1 <= |t| && CharAt(t, r.value.1 - 1, ')')
    ensures r.Some? ==> InRange(t, j, r.value.1, r.value.0)
  {
    if CharAt(t, j, '(') then
      var a := SkipSpaces(t, j + 1);
      if PhAt(t, a) then
        var b := SkipSpaces(t, a + 1);
        if CharAt(t, b, ')') then
          PhIn(t, j, b + 1, a);
          Some((t[a].key, b + 1))
        else None
      else None
    else None
  }

  /** `\(\s*(PH)` at j: the left half of the brackets family. */
  function OpenOperand(t: Text, j: nat): (r: Option<(Text, nat)>)
    ensures r.Some? ==> CharAt(t, j, '(') && j + 2 <= r.value.1 <= |t| && t[r.value.1 - 1] == Ph(r.value.0)
    ensures r.Some? ==> InRange(t, j, r.value.1, r.value.0)
  {
    if CharAt(t, j, '(') then
      var a := SkipSpaces(t, j + 1);
      if PhAt(t, a) then
        PhIn(t, j, a + 1, a);
        Some((t[a].key, a + 1))
      else None
    else None
  }

  /** `(PH)\s*\)` at j: the right half of the brackets family. */
  function CloseOperand(t: Text, j: nat): (r: Option<(Text, nat)>)
    ensures r.Some? ==> j < |t| && t[j] == Ph(r.value.0) && j + 2 <= r.value.1 <= |t| && CharAt(t, r.value.1 - 1, ')')
    ensures r.Some? ==> InRange(t, j, r.value.1, r.value.0)
  {
    if PhAt(t, j) then
      var b := SkipSpaces(t, j + 1);
      if CharAt(t, b, ')') then
        PhIn(t, j, b + 1, j);
        Some((t[j].key, b + 1))
      else None
    else None
  }

  function LeftOperand(f: Family, t: Text, j: nat): (r: Option<(Text, nat)>)
    ensures r.Some? ==> j < r.value.1 <= |t| && InRange(t, j, r.value.1, r.value.0)
  {
    match f
    case Brackets => OpenOperand(t, j)
    case Simple => PlainOperand(t, j)
    case Wrapped => WrappedOperand(t, j)
    case WrappedLeft => WrappedOperand(t, j)
    case WrappedRight => PlainOperand(t, j)
  }

  function RightOperand(f: Family, t: Text, j: nat): (r: Option<(Text, nat)>)
    ensures r.Some? ==> j < r.value.1 <= |t| && InRange(t, j, r.value.1, r.value.0)
    ensures r.Some? ==> t[j] == Ph(r.value.0) || t[j] == Ch('(')
  {
    match f
    case Brackets => CloseOperand(t, j)
    case Simple => PlainOperand(t, j)
    case Wrapped => WrappedOperand(t, j)
    case WrappedLeft => PlainOperand(t, j)
    case WrappedRight => WrappedOperand(t, j)
  }

  // ---------------------------------------------------------------------
  // The operator between the operands

  /** The operator's symbol starts at a. */
  predicate SymbolAt(t: Text, a: nat, op: string) {
    a + |op| <= |t| && t[a..a + |op|] == Lift(op)
  }

  /** Where the symbol was found, the right operand's key and the end of
      the match. */
  datatype Sep = Sep(at: nat, key: Text, end: nat)

  /** `OP\s*(right)` at b: the right operand after the symbol and the
      spaces that follow it. */
  function RightAfter(f: Family, op: string, t: Text, b: nat): (r: Option<(Text, nat)>)
    ensures r.Some? ==> SymbolAt(t, b, op) && b + |op| < r.value.1 <= |t|
  {
    if SymbolAt(t, b, op) then RightOperand(f, t, SkipSpaces(t, b + |op|)) else None
  }

  /** `\s*OP\s*(right)` after the left operand ends at p: the greedy leading
      `\s*` is given back one space at a time, so the symbol is tried from
      a, the end of the spaces, back to p. */
  function SeparatorFrom(f: Family, op: string, t: Text, p: nat, a: nat): (r: Option<Sep>)
    requires p <= a <= |t|
    ensures r.Some? ==> p <= r.value.at <= a
    ensures r.Some? ==> RightAfter(f, op, t, r.value.at) == Some((r.value.key, r.value.end))
    ensures r.Some? ==> forall b :: r.value.at < b <= a ==> RightAfter(f, op, t, b).None?
    ensures r.None? ==> forall b :: p <= b <= a ==> RightAfter(f, op, t, b).None?
    decreases a - p
  {
    match RightAfter(f, op, t, a)
    case Some((k, e)) => Some(Sep(a, k, e))
    case None => if a == p then None else SeparatorFrom(f, op, t, p, a - 1)
  }

  // ---------------------------------------------------------------------
  // The function-name look-behind of the brackets family

  /** The items just before i spell name exactly. */
  predicate EndsWith(t: Text, i: nat, name: string) {
    |name| <= i <= |t| && t[i - |name|..i] == Lift(name)
  }

  /** `(?<!F1|F2|...)` as written: the names are compared letter case and
      all, and with no functions the pattern is `(?<!)`, which rejects every
      position. */
  predicate NotFunctionAsWritten(names: seq<string>, t: Text, i: nat) {
    |names| > 0 && forall k :: 0 <= k < |names| ==> !EndsWith(t, i, names[k])
  }

  /** The look-behind as intended: no registered name, in any letter case
      (as the call pattern matches it), ends at i. */
  predicate NotFunction(names: seq<string>, t: Text, i: nat) {
    forall k :: 0 <= k < |names| ==> !(|names[k]| <= i && FoldAt(t, i - |names[k]|, names[k]))
  }

  // ---------------------------------------------------------------------
  // Matches

  /** One family's pattern for op at i, look-behind aside: the refs are the
      left and right keys. */
  function Shape(f: Family, op: string, t: Text, i: nat): (r: Option<Match>)
    ensures r.Some? ==> i + r.value.len <= |t| && r.value.len >= 2
    ensures r.Some? ==> |r.value.refs| == 2 && r.value.names == []
    ensures r.Some? ==> InRange(t, i, i + r.value.len, r.value.refs[0]) && InRange(t, i, i + r.value.len, r.value.refs[1])
  {
    match LeftOperand(f, t, i)
    case None => None
    case Some((l, p)) =>
      match SeparatorFrom(f, op, t, p, SkipSpaces(t, p))
      case None => None
      case Some(sep) =>
        ShapeRefs(f, op, t, i, p, l, sep);
        Some(Match(sep.end - i, [l, sep.key], []))
  }

  lemma ShapeRefs(f: Family, op: string, t: Text, i: nat, p: nat, l: Text, sep: Sep)
    requires i < p <= |t| && LeftOperand(f, t, i) == Some((l, p))
    requires SeparatorFrom(f, op, t, p, SkipSpaces(t, p)) == Some(sep)
    ensures p < sep.end <= |t| && InRange(t, i, sep.end, l) && InRange(t, i, sep.end, sep.key)
  {
    SeparatorRef(f, op, t, p, sep);
    Widen(t, i, i, p, sep.end, l);
  }

  /** The right key of a separator lies between the left operand's end and
      the separator's end. */
  lemma SeparatorRef(f: Family, op: string, t: Text, p: nat, sep: Sep)
    requires p <= |t| && SeparatorFrom(f, op, t, p, SkipSpaces(t, p)) == Some(sep)
    ensures p < sep.end <= |t| && InRange(t, p, sep.end, sep.key)
  {
    var c := SkipSpaces(t, sep.at + |op|);
    assert RightOperand(f, t, c) == Some((sep.key, sep.end));
    Widen(t, p, c, sep.end, sep.end, sep.key);
  }

  /** The pattern of a family and operator at i, with the corrected
      look-behind for the brackets family. */
  function OperationMatch(f: Family, op: string, names: seq<string>, t: Text, i: nat): (r: Option<Match>)
    ensures r.Some? ==> r == Shape(f, op, t, i)
    ensures f != Brackets ==> r == Shape(f, op, t, i)
    ensures f == Brackets ==> (r.Some? <==> Shape(f, op, t, i).Some? && NotFunction(names, t, i))
  {
    if f == Brackets && !NotFunction(names, t, i) then None else Shape(f, op, t, i)
  }

  /** The same with the look-behind as written. */
  function OperationMatchAsWritten(f: Family, op: string, names: seq<string>, t: Text, i: nat): (r: Option<Match>)
    ensures r.Some? ==> r == Shape(f, op, t, i)
    ensures f != Brackets ==> r == Shape(f, op, t, i)
    ensures f == Brackets ==> (r.Some? <==> Shape(f, op, t, i).Some? && NotFunctionAsWritten(names, t, i))
  {
    if f == Brackets && !NotFunctionAsWritten(names, t, i) then None else Shape(f, op, t, i)
  }

  /** Which brackets look-behind a run uses: the one `calcOperations`
      writes (`NotFunctionAsWritten`), or the intended one (`NotFunction`). */
  datatype LookBehind = AsWritten | Intended

  /** The pattern of a family and operator at i under the chosen
      look-behind. */
  function OperationMatchBy(f: Family, op: string, lb: LookBehind, names: seq<string>, t: Text, i: nat): (r: Option<Match>)
    ensures r.Some? ==> r == Shape(f, op, t, i)
    ensures f != Brackets ==> r == Shape(f, op, t, i)
    ensures lb == AsWritten ==> r == OperationMatchAsWritten(f, op, names, t, i)
    ensures lb == Intended ==> r == OperationMatch(f, op, names, t, i)
  {
    match lb
    case AsWritten => OperationMatchAsWritten(f, op, names, t, i)
    case Intended => OperationMatch(f, op, names, t, i)
  }

  /** The pattern `calcOperations` runs for a family and operator, with
      the look-behind chosen by lb. */
  function OperationAt(f: Family, op: string, lb: LookBehind, names: seq<string>): Matcher {
    (t: Text, i: nat) => OperationMatchBy(f, op, lb, names, t, i)
  }

  // ---------------------------------------------------------------------
  // Reduction

  /** The operands of a match found in a closed text have entries. */
  lemma OperandsKnown(st: State, p: nat, f: Family, op: string, lb: LookBehind, names: seq<string>)
    requires Closed(st.text, st.memo) && HitAt(st.text, p, OperationAt(f, op, lb, names))
    ensures var x := OperationMatchBy(f, op, lb, names, st.text, p).value;
      x.refs[0] in st.memo && x.refs[1] in st.memo
  {
    assert OperationAt(f, op, lb, names)(st.text, p) == OperationMatchBy(f, op, lb, names, st.text, p);
    var x := Shape(f, op, st.text, p).value;
    ShapeKnown(st.text, st.memo, p, p + x.len, x.refs[0], x.refs[1]);
  }

  /** Two keys inside a stretch of a closed text have entries. */
  lemma ShapeKnown(t: Text, memo: Memo, i: nat, j: nat, a: Text, b: Text)
    requires Closed(t, memo) && InRange(t, i, j, a) && InRange(t, i, j, b)
    ensures a in memo && b in memo
  {
    KnownIn(t, memo, i, j, a);
    KnownIn(t, memo, i, j, b);
  }

  /** The entry of an operation: the symbol, the operand keys and the
      host's value for the recalled operands, wrapped as brackets in the
      brackets family. */
  function OperationEntry(memo: Memo, f: Family, op: OperatorSpec, left: Text, right: Text,
                          apply: Apply, context: Value): (c: Component<Text>)
    requires left in memo && right in memo
    ensures c.BracketsC? <==> f == Brackets
    ensures Unwrap(c) == OperationC(op.symbol, left, right, ValueOf(c))
    ensures ValueOf(c) == apply(op.id, Recall(memo, left), Recall(memo, right), context)
  {
    var inner := OperationC(op.symbol, left, right, apply(op.id, Recall(memo, left), Recall(memo, right), context));
    if f == Brackets then BracketsC(inner) else inner
  }

  /** The `while (preg_match(...))` loop of one family and operator. */
  function OperationLoop(st: State, f: Family, op: OperatorSpec, lb: LookBehind, names: seq<string>,
                         apply: Apply, context: Value): (r: State)
    requires Closed(st.text, st.memo)
    ensures Closed(r.text, r.memo)
    ensures NoHit(r.text, OperationAt(f, op.symbol, lb, names))
    ensures NoHit(st.text, OperationAt(f, op.symbol, lb, names)) ==> r == st
    ensures r == st || |r.text| < |st.text|
    decreases |st.text|
  {
    var M := OperationAt(f, op.symbol, lb, names);
    match Leftmost(st.text, 0, M)
    case None => st
    case Some(p) =>
      OperationLoop(OperationStep(st, p, f, op, lb, names, apply, context), f, op, lb, names, apply, context)
  }

  /** One round of the loop: the match at p reduced to its entry. */
  function OperationStep(st: State, p: nat, f: Family, op: OperatorSpec, lb: LookBehind, names: seq<string>,
                         apply: Apply, context: Value): (r: State)
    requires Closed(st.text, st.memo) && HitAt(st.text, p, OperationAt(f, op.symbol, lb, names))
    ensures Closed(r.text, r.memo) && |r.text| < |st.text|
  {
    var M := OperationAt(f, op.symbol, lb, names);
    var x := OperationMatchBy(f, op.symbol, lb, names, st.text, p).value;
    OperandsKnown(st, p, f, op.symbol, lb, names);
    ReduceAt(st, p, M, OperationEntry(st.memo, f, op, x.refs[0], x.refs[1], apply, context))
  }

  /** One family through the operators in order. */
  function FamilyPass(st: State, f: Family, ops: seq<OperatorSpec>, lb: LookBehind, names: seq<string>,
                      apply: Apply, context: Value): (r: State)
    requires Closed(st.text, st.memo)
    ensures Closed(r.text, r.memo)
    ensures r == st || |r.text| < |st.text|
    ensures |ops| > 0 ==> NoHit(r.text, OperationAt(f, ops[|ops| - 1].symbol, lb, names))
    decreases |ops|
  {
    if ops == [] then st
    else
      var s1 := FamilyPass(st, f, ops[..|ops| - 1], lb, names, apply, context);
      OperationLoop(s1, f, ops[|ops| - 1], lb, names, apply, context)
  }

  /** The families in order. */
  function FamiliesFrom(st: State, fs: seq<Family>, ops: seq<OperatorSpec>, lb: LookBehind, names: seq<string>,
                        apply: Apply, context: Value): (r: State)
    requires Closed(st.text, st.memo)
    ensures Closed(r.text, r.memo)
    ensures r == st || |r.text| < |st.text|
    decreases |fs|
  {
    if fs == [] then st
    else FamiliesFrom(FamilyPass(st, fs[0], ops, lb, names, apply, context), fs[1..], ops, lb, names, apply, context)
  }

  /** `(PH)` alone, as `^\(PH\)$` matches it. */
  predicate ParenToken(t: Text) {
    |t| == 3 && t[0] == Ch('(') && t[1].Ph? && t[2] == Ch(')')
  }

  /** `trim($expression, '()')` on a text that is `(PH)`. */
  function Unparen(t: Text): Text {
    if ParenToken(t) then [t[1]] else t
  }

  /** `calcOperations`: the families in order, then a lone `(PH)` loses
      its parentheses, so none is ever left. */
  function CalcOperations(st: State, ops: seq<OperatorSpec>, lb: LookBehind, names: seq<string>,
                          apply: Apply, context: Value): (r: State)
    requires Closed(st.text, st.memo)
    ensures Closed(r.text, r.memo)
    ensures r.text == st.text || |r.text| < |st.text|
    ensures !ParenToken(r.text)
  {
    var s := FamiliesFrom(st, Families, ops, lb, names, apply, context);
    assert Closed(Unparen(s.text), s.memo) by {
      if Unparen(s.text) != s.text { assert s.text[1] in s.text; }
    }
    State(Unparen(s.text), s.memo)
  }

  // ---------------------------------------------------------------------
  // Grouping

  /** A key read straight from the input: it holds no placeholder, so no
      operation's key equals it. */
  predicate Atomic(k: Text) { forall i :: 0 <= i < |k| ==> k[i].Ch? }

  /** `x OP y` with a one-character symbol and no spaces. */
  function Binary(x: Text, o: char, y: Text): (t: Text)
    ensures |t| == 3 && t[0].Ph? && !Atomic(t)
  {
    [Ph(x), Ch(o), Ph(y)]
  }

  /** The simple pattern of a one-character symbol o matches `x o y` at i. */
  lemma SimpleAt(t: Text, i: nat, op: string, x: Text, y: Text)
    requires |op| == 1 && !IsSpace(op[0])
    requires i + 3 <= |t| && t[i] == Ph(x) && t[i + 1] == Ch(op[0]) && t[i + 2] == Ph(y)
    ensures Shape(Simple, op, t, i) == Some(Match(3, [x, y], []))
  {
    assert SkipSpaces(t, i + 1) == i + 1;
    assert SkipSpaces(t, i + 2) == i + 2;
    assert t[i + 1..i + 2] == Lift(op);
    assert RightAfter(Simple, op, t, i + 1) == Some((y, i + 3));
  }

  /** The simple pattern of o does not match at i when the item after a
      placeholder at i is another character, or i holds no placeholder. */
  lemma SimpleNotAt(t: Text, i: nat, op: string)
    requires |op| == 1 && !IsSpace(op[0]) && i < |t|
    requires !t[i].Ph? || (i + 1 < |t| && t[i + 1].Ch? && !IsSpace(t[i + 1].c) && t[i + 1] != Ch(op[0])) ||
      i + 1 == |t|
    ensures Shape(Simple, op, t, i).None?
  {
    if t[i].Ph? {
      assert SkipSpaces(t, i + 1) == i + 1;
      if i + 1 < |t| { assert t[i + 1..i + 2][0] == t[i + 1]; }
    }
  }

  /** The entry of the simple family for `x OP y`. */
  function Applied(memo: Memo, op: OperatorSpec, x: Text, y: Text, apply: Apply, context: Value): (c: Component<Text>)
    requires x in memo && y in memo
    ensures c == OperationEntry(memo, Simple, op, x, y, apply, context)
  {
    OperationC(op.symbol, x, y, apply(op.id, Recall(memo, x), Recall(memo, y), context))
  }

  /** A loop whose first reduction leaves no match does that one
      reduction. */
  lemma LoopOnce(st: State, p: nat, f: Family, op: OperatorSpec, lb: LookBehind, names: seq<string>,
                 apply: Apply, context: Value, r: State)
    requires Closed(st.text, st.memo) && Leftmost(st.text, 0, OperationAt(f, op.symbol, lb, names)) == Some(p)
    requires OperationStep(st, p, f, op, lb, names, apply, context) == r
    requires NoHit(r.text, OperationAt(f, op.symbol, lb, names))
    ensures OperationLoop(st, f, op, lb, names, apply, context) == r
  {
  }

  /** The loop does its leftmost reduction and goes on from there. */
  lemma LoopThen(st: State, p: nat, f: Family, op: OperatorSpec, lb: LookBehind, names: seq<string>,
                 apply: Apply, context: Value, s1: State)
    requires Closed(st.text, st.memo) && Leftmost(st.text, 0, OperationAt(f, op.symbol, lb, names)) == Some(p)
    requires OperationStep(st, p, f, op, lb, names, apply, context) == s1
    ensures Closed(s1.text, s1.memo)
    ensures OperationLoop(st, f, op, lb, names, apply, context) == OperationLoop(s1, f, op, lb, names, apply, context)
  {
  }

  /** The reduction of `x o y` at p. */
  lemma StepAt(st: State, p: nat, op: OperatorSpec, lb: LookBehind, names: seq<string>, apply: Apply, context: Value,
               x: Text, y: Text)
    requires Closed(st.text, st.memo) && |op.symbol| == 1 && !IsSpace(op.symbol[0])
    requires p + 3 <= |st.text| && st.text[p] == Ph(x) && st.text[p + 1] == Ch(op.symbol[0]) && st.text[p + 2] == Ph(y)
    requires x in st.memo && y in st.memo
    ensures HitAt(st.text, p, OperationAt(Simple, op.symbol, lb, names))
    ensures OperationStep(st, p, Simple, op, lb, names, apply, context) ==
      Reduce(st, Binary(x, op.symbol[0], y), Applied(st.memo, op, x, y, apply, context))
  {
    var M := OperationAt(Simple, op.symbol, lb, names);
    SimpleAt(st.text, p, op.symbol, x, y);
    assert M(st.text, p) == Some(Match(3, [x, y], []));
    assert Matched(st.text, p, M) == Binary(x, op.symbol[0], y) by {
      assert st.text[p..p + 3] == Binary(x, op.symbol[0], y);
    }
  }

  /** `x l y` holds no simple match of another symbol. */
  lemma NoSimpleIn(u: Text, op: string, lb: LookBehind, names: seq<string>, x: Text, l: char, y: Text)
    requires |op| == 1 && !IsSpace(op[0]) && !IsSpace(l) && l != op[0]
    requires u == Binary(x, l, y)
    ensures NoHit(u, OperationAt(Simple, op, lb, names))
  {
    SimpleNotAt(u, 0, op);
    SimpleNotAt(u, 1, op);
    SimpleNotAt(u, 2, op);
  }

  /** `x OP y` alone is reduced whole, to the operation's entry. */
  lemma SingleOperation(st: State, op: OperatorSpec, lb: LookBehind, names: seq<string>, apply: Apply, context: Value,
                        x: Text, y: Text)
    requires |op.symbol| == 1 && !IsSpace(op.symbol[0])
    requires st.text == Binary(x, op.symbol[0], y) && x in st.memo && y in st.memo
    ensures OperationLoop(st, Simple, op, lb, names, apply, context) ==
      State([Ph(st.text)], st.memo[st.text := Applied(st.memo, op, x, y, apply, context)])
  {
    var r := State([Ph(st.text)], st.memo[st.text := Applied(st.memo, op, x, y, apply, context)]);
    SingleStep(st, op, lb, names, apply, context, x, y);
    LoneTokenIdle(st.text, op.symbol, lb, names);
    LoopOnce(st, 0, Simple, op, lb, names, apply, context, r);
  }

  /** A lone placeholder holds no simple operation. */
  lemma LoneTokenIdle(k: Text, op: string, lb: LookBehind, names: seq<string>)
    requires |op| == 1 && !IsSpace(op[0])
    ensures NoHit([Ph(k)], OperationAt(Simple, op, lb, names))
  {
    SimpleNotAt([Ph(k)], 0, op);
  }

  /** The first step on `x OP y` alone: the match is at 0 and covers the
      whole text. */
  lemma SingleStep(st: State, op: OperatorSpec, lb: LookBehind, names: seq<string>, apply: Apply, context: Value,
                   x: Text, y: Text)
    requires |op.symbol| == 1 && !IsSpace(op.symbol[0])
    requires st.text == Binary(x, op.symbol[0], y) && x in st.memo && y in st.memo
    ensures Closed(st.text, st.memo)
    ensures Leftmost(st.text, 0, OperationAt(Simple, op.symbol, lb, names)) == Some(0)
    ensures OperationStep(st, 0, Simple, op, lb, names, apply, context) ==
      State([Ph(st.text)], st.memo[st.text := Applied(st.memo, op, x, y, apply, context)])
  {
    var t := st.text;
    assert Closed(t, st.memo) by {
      forall i | 0 <= i < |t| && t[i].Ph? ensures t[i].key in st.memo {
        assert t[i] == Ph(x) || t[i] == Ph(y);
      }
    }
    StepAt(st, 0, op, lb, names, apply, context, x, y);
    ReplaceWhole(t, [Ph(t)]);
  }

  /** str_replace of `a o b` in `a o b o c`. */
  lemma ReplaceLeft(a: Text, b: Text, o: char, c: Text)
    ensures var m := Binary(a, o, b);
      ReplaceAll([Ph(a), Ch(o), Ph(b), Ch(o), Ph(c)], m, [Ph(m)]) == Binary(m, o, c)
  {
    var t := [Ph(a), Ch(o), Ph(b), Ch(o), Ph(c)];
    var m := Binary(a, o, b);
    assert t[..3] == m;
    ReplaceAllFront(t, m, [Ph(m)]);
    assert t[3..] == [Ch(o), Ph(c)];
  }

  /** Equal operators group to the left: `a o b o c` is `(a o b) o c`. */
  lemma LeftAssociative(memo: Memo, op: OperatorSpec, lb: LookBehind, names: seq<string>, apply: Apply, context: Value,
                        a: Text, b: Text, c: Text)
    requires |op.symbol| == 1 && !IsSpace(op.symbol[0])
    requires a in memo && b in memo && c in memo && Atomic(c)
    ensures var o := op.symbol[0];
      var r := OperationLoop(State([Ph(a), Ch(o), Ph(b), Ch(o), Ph(c)], memo), Simple, op, lb, names, apply, context);
      |r.text| == 1 && r.text[0].Ph? && r.text[0].key in r.memo &&
      Recall(r.memo, r.text[0].key) ==
        apply(op.id, apply(op.id, Recall(memo, a), Recall(memo, b), context), Recall(memo, c), context)
  {
    var o := op.symbol[0];
    var m1 := Binary(a, o, b);
    var memo1 := memo[m1 := Applied(memo, op, a, b, apply, context)];
    LeftSteps(memo, op, lb, names, apply, context, a, b, c);
    assert c != m1;
    assert Recall(memo1, m1) == apply(op.id, Recall(memo, a), Recall(memo, b), context);
    assert Recall(memo1, c) == Recall(memo, c);
  }

  /** The two reductions of `a o b o c`: first `a o b`, then the rest. */
  lemma LeftSteps(memo: Memo, op: OperatorSpec, lb: LookBehind, names: seq<string>, apply: Apply, context: Value,
                  a: Text, b: Text, c: Text)
    requires |op.symbol| == 1 && !IsSpace(op.symbol[0])
    requires a in memo && b in memo && c in memo && Atomic(c)
    ensures var o := op.symbol[0];
      var m1 := Binary(a, o, b);
      var memo1 := memo[m1 := Applied(memo, op, a, b, apply, context)];
      var m2 := Binary(m1, o, c);
      OperationLoop(State([Ph(a), Ch(o), Ph(b), Ch(o), Ph(c)], memo), Simple, op, lb, names, apply, context) ==
      State([Ph(m2)], memo1[m2 := Applied(memo1, op, m1, c, apply, context)])
  {
    var o := op.symbol[0];
    var t := [Ph(a), Ch(o), Ph(b), Ch(o), Ph(c)];
    var st := State(t, memo);
    var M := OperationAt(Simple, op.symbol, lb, names);
    var m1 := Binary(a, o, b);
    var s1 := State(Binary(m1, o, c), memo[m1 := Applied(memo, op, a, b, apply, context)]);
    ChainClosed(memo, a, o, b, c);
    assert OperationStep(st, 0, Simple, op, lb, names, apply, context) == s1 && HitAt(t, 0, M) by {
      StepAt(st, 0, op, lb, names, apply, context, a, b);
      ReplaceLeft(a, b, o, c);
    }
    assert Leftmost(t, 0, M) == Some(0);
    LoopThen(st, 0, Simple, op, lb, names, apply, context, s1);
    assert c != m1;
    SingleOperation(s1, op, lb, names, apply, context, m1, c);
  }

  /** Every operand of `a o b o c` has an entry. */
  lemma ChainClosed(memo: Memo, a: Text, o: char, b: Text, c: Text)
    requires a in memo && b in memo && c in memo
    ensures Closed([Ph(a), Ch(o), Ph(b), Ch(o), Ph(c)], memo)
  {
    var t := [Ph(a), Ch(o), Ph(b), Ch(o), Ph(c)];
    forall i | 0 <= i < |t| && t[i].Ph? ensures t[i].key in memo {
      assert t[i] == Ph(a) || t[i] == Ph(b) || t[i] == Ph(c);
    }
  }

  /** In `a l b h c` the leftmost match of h is `b h c`. */
  lemma RightFirstMatch(t: Text, op: string, lb: LookBehind, names: seq<string>, a: Text, l: char, b: Text, c: Text)
    requires |op| == 1 && !IsSpace(op[0]) && !IsSpace(l) && l != op[0]
    requires t == [Ph(a), Ch(l), Ph(b), Ch(op[0]), Ph(c)]
    ensures Leftmost(t, 0, OperationAt(Simple, op, lb, names)) == Some(2)
  {
    var M := OperationAt(Simple, op, lb, names);
    SimpleNotAt(t, 0, op);
    SimpleNotAt(t, 1, op);
    SimpleAt(t, 2, op, b, c);
    assert !HitAt(t, 0, M) && !HitAt(t, 1, M) && HitAt(t, 2, M);
    assert Leftmost(t, 2, M) == Some(2);
    assert Leftmost(t, 0, M) == Leftmost(t, 1, M) == Leftmost(t, 2, M);
  }

  /** str_replace of `b o c` in `a l b o c`. */
  lemma ReplaceRight(a: Text, l: char, b: Text, o: char, c: Text)
    requires l != o
    ensures var m := Binary(b, o, c);
      ReplaceAll([Ph(a), Ch(l), Ph(b), Ch(o), Ph(c)], m, [Ph(m)]) == Binary(a, l, m)
  {
    var t := [Ph(a), Ch(l), Ph(b), Ch(o), Ph(c)];
    var m := Binary(b, o, c);
    assert t[..3][1] != m[1];
    ReplaceAllKeep(t, m, [Ph(m)]);
    assert t[1..][..3][0] != m[0];
    ReplaceAllKeep(t[1..], m, [Ph(m)]);
    assert t[1..][1..] == m;
    ReplaceWhole(m, [Ph(m)]);
  }

  /** One family over two operators is the first operator's loop, then the
      second's. */
  lemma PassOfTwo(st: State, f: Family, x: OperatorSpec, y: OperatorSpec, lb: LookBehind, names: seq<string>,
                  apply: Apply, context: Value)
    requires Closed(st.text, st.memo)
    ensures FamilyPass(st, f, [x, y], lb, names, apply, context) ==
      OperationLoop(OperationLoop(st, f, x, lb, names, apply, context), f, y, lb, names, apply, context)
  {
    assert [x, y][..1] == [x] && [x][..0] == [];
    assert FamilyPass(st, f, [], lb, names, apply, context) == st;
    assert FamilyPass(st, f, [x], lb, names, apply, context) == OperationLoop(st, f, x, lb, names, apply, context);
  }

  /** The loop of h on `a l b h c` reduces `b h c` and stops. */
  lemma RightFirst(memo: Memo, hi: OperatorSpec, l: char, lb: LookBehind, names: seq<string>, apply: Apply,
                   context: Value, a: Text, b: Text, c: Text)
    requires |hi.symbol| == 1 && !IsSpace(hi.symbol[0]) && !IsSpace(l) && l != hi.symbol[0]
    requires a in memo && b in memo && c in memo
    ensures var m1 := Binary(b, hi.symbol[0], c);
      OperationLoop(State([Ph(a), Ch(l), Ph(b), Ch(hi.symbol[0]), Ph(c)], memo), Simple, hi, lb, names, apply, context) ==
      State(Binary(a, l, m1), memo[m1 := Applied(memo, hi, b, c, apply, context)])
  {
    var t := [Ph(a), Ch(l), Ph(b), Ch(hi.symbol[0]), Ph(c)];
    var st := State(t, memo);
    var M := OperationAt(Simple, hi.symbol, lb, names);
    var m1 := Binary(b, hi.symbol[0], c);
    var r := State(Binary(a, l, m1), memo[m1 := Applied(memo, hi, b, c, apply, context)]);
    assert Closed(t, memo) by {
      forall i | 0 <= i < |t| && t[i].Ph? ensures t[i].key in memo {
        assert t[i] == Ph(a) || t[i] == Ph(b) || t[i] == Ph(c);
      }
    }
    assert Leftmost(t, 0, M) == Some(2) by {
      RightFirstMatch(t, hi.symbol, lb, names, a, l, b, c);
    }
    assert OperationStep(st, 2, Simple, hi, lb, names, apply, context) == r by {
      StepAt(st, 2, hi, lb, names, apply, context, b, c);
      ReplaceRight(a, l, b, hi.symbol[0], c);
    }
    NoSimpleIn(r.text, hi.symbol, lb, names, a, l, m1);
    LoopOnce(st, 2, Simple, hi, lb, names, apply, context, r);
  }

  /** Operators are tried in the given order: with `hi` before `lo`,
      `a lo b hi c` is `a lo (b hi c)`. */
  lemma PriorityOrder(memo: Memo, hi: OperatorSpec, lo: OperatorSpec, lb: LookBehind, names: seq<string>, apply: Apply,
                      context: Value, a: Text, b: Text, c: Text)
    requires |hi.symbol| == 1 && |lo.symbol| == 1 && hi.symbol != lo.symbol
    requires !IsSpace(hi.symbol[0]) && !IsSpace(lo.symbol[0])
    requires a in memo && b in memo && c in memo && Atomic(a)
    ensures var t := [Ph(a), Ch(lo.symbol[0]), Ph(b), Ch(hi.symbol[0]), Ph(c)];
      var r := FamilyPass(State(t, memo), Simple, [hi, lo], lb, names, apply, context);
      |r.text| == 1 && r.text[0].Ph? && r.text[0].key in r.memo &&
      Recall(r.memo, r.text[0].key) ==
        apply(lo.id, Recall(memo, a), apply(hi.id, Recall(memo, b), Recall(memo, c), context), context)
  {
    var t := [Ph(a), Ch(lo.symbol[0]), Ph(b), Ch(hi.symbol[0]), Ph(c)];
    var st := State(t, memo);
    var m1 := Binary(b, hi.symbol[0], c);
    var s1 := State(Binary(a, lo.symbol[0], m1), memo[m1 := Applied(memo, hi, b, c, apply, context)]);
    assert Closed(t, memo) by {
      forall i | 0 <= i < |t| && t[i].Ph? ensures t[i].key in memo {
        assert t[i] == Ph(a) || t[i] == Ph(b) || t[i] == Ph(c);
      }
    }
    assert OperationLoop(st, Simple, hi, lb, names, apply, context) == s1 by {
      assert lo.symbol[0] != hi.symbol[0] by { assert lo.symbol == [lo.symbol[0]]; assert hi.symbol == [hi.symbol[0]]; }
      RightFirst(memo, hi, lo.symbol[0], lb, names, apply, context, a, b, c);
    }
    assert a != m1;
    var r := State([Ph(s1.text)], s1.memo[s1.text := Applied(s1.memo, lo, a, m1, apply, context)]);
    assert OperationLoop(s1, Simple, lo, lb, names, apply, context) == r by {
      SingleOperation(s1, lo, lb, names, apply, context, a, m1);
    }
    PassOfTwo(st, Simple, hi, lo, lb, names, apply, context);
  }

  // ---------------------------------------------------------------------
  // The look-behind, as written and as intended

  /** `(x + y)` right after the registered name `MIN` written as `min`: the
      look-behind as written compares letter case, so it lets the brackets
      family take the parenthesis of the call `min(x + y)` that the call
      pattern (case-insensitive) would have evaluated; the intended
      look-behind leaves it to the call. */
  lemma CaseSensitiveLookBehind(a: Text, b: Text)
    ensures var t := Lift("min(") + [Ph(a), Ch('+'), Ph(b), Ch(')')];
      NotFunctionAsWritten(["MIN"], t, 3) && !NotFunction(["MIN"], t, 3) &&
      OperationMatchAsWritten(Brackets, "+", ["MIN"], t, 3) == Some(Match(5, [a, b], [])) &&
      OperationMatch(Brackets, "+", ["MIN"], t, 3) == None
  {
    var t := Lift("min(") + [Ph(a), Ch('+'), Ph(b), Ch(')')];
    assert !EndsWith(t, 3, "MIN") by { assert t[0..3][0] == Ch('m') != Lift("MIN")[0]; }
    assert NotFunctionAsWritten(["MIN"], t, 3);
    assert FoldAt(t, 0, "MIN") by {
      assert t[0] == Ch('m') && t[1] == Ch('i') && t[2] == Ch('n');
      assert Lower('M') == 'm' && Lower('I') == 'i' && Lower('N') == 'n';
    }
    var names := ["MIN"];
    assert |names[0]| <= 3 && FoldAt(t, 3 - |names[0]|, names[0]);
    assert t[3..8] == [Ch('('), Ph(a), Ch('+'), Ph(b), Ch(')')];
    BracketsAt(t, 3, "+", a, b);
  }

  /** With no functions registered the look-behind as written is `(?<!)`,
      which fails everywhere: the brackets family never matches. The
      intended look-behind excludes nothing. */
  lemma EmptyRegistryLookBehind(op: string, t: Text, i: nat)
    ensures OperationMatchAsWritten(Brackets, op, [], t, i) == None
    ensures OperationMatch(Brackets, op, [], t, i) == Shape(Brackets, op, t, i)
  {
  }

  /** With no functions registered, the brackets pass of `calcOperations`
      as written changes nothing, whatever the operators. */
  lemma {:induction false} BracketsPassIdle(st: State, ops: seq<OperatorSpec>, apply: Apply, context: Value)
    requires Closed(st.text, st.memo)
    ensures FamilyPass(st, Brackets, ops, AsWritten, [], apply, context) == st
    decreases |ops|
  {
    if ops != [] {
      BracketsPassIdle(st, ops[..|ops| - 1], apply, context);
      var M := OperationAt(Brackets, ops[|ops| - 1].symbol, AsWritten, []);
      assert NoHit(st.text, M);
    }
  }

  /** In `2-(3+4)-5` with no functions, the brackets family as written
      leaves `(3+4)` alone, and the operators then group it as
      `2 - ((3+4) - 5)`; the intended look-behind reduces it first. */
  lemma EmptyRegistryGrouping(w: Text, x: Text, y: Text, z: Text)
    ensures var t := [Ph(w), Ch('-'), Ch('('), Ph(x), Ch('+'), Ph(y), Ch(')'), Ch('-'), Ph(z)];
      OperationMatchAsWritten(Brackets, "+", [], t, 2) == None &&
      OperationMatch(Brackets, "+", [], t, 2) == Some(Match(5, [x, y], []))
  {
    var t := [Ph(w), Ch('-'), Ch('('), Ph(x), Ch('+'), Ph(y), Ch(')'), Ch('-'), Ph(z)];
    assert t[2..7] == [Ch('('), Ph(x), Ch('+'), Ph(y), Ch(')')];
    BracketsAt(t, 2, "+", x, y);
  }

  // ---------------------------------------------------------------------
  // The families in order

  /** A lone placeholder holds no match of any family. */
  lemma LoneIdle(k: Text, f: Family, op: string, lb: LookBehind, names: seq<string>)
    requires |op| > 0
    ensures NoHit([Ph(k)], OperationAt(f, op, lb, names))
  {
    var t := [Ph(k)];
    assert SkipSpaces(t, 1) == 1 && !SymbolAt(t, 1, op);
    assert Shape(f, op, t, 0).None?;
  }

  /** A family pass over operators none of which matches changes nothing. */
  lemma {:induction false} PassIdle(st: State, f: Family, ops: seq<OperatorSpec>, lb: LookBehind, names: seq<string>,
                                    apply: Apply, context: Value)
    requires Closed(st.text, st.memo)
    requires forall k :: 0 <= k < |ops| ==> NoHit(st.text, OperationAt(f, ops[k].symbol, lb, names))
    ensures FamilyPass(st, f, ops, lb, names, apply, context) == st
    decreases |ops|
  {
    if ops != [] {
      var init := ops[..|ops| - 1];
      assert forall k :: 0 <= k < |init| ==> init[k] == ops[k];
      PassIdle(st, f, init, lb, names, apply, context);
      assert NoHit(st.text, OperationAt(f, ops[|ops| - 1].symbol, lb, names));
    }
  }

  /** `calcOperations` runs the brackets family, then the simple one, then
      the wrapped, wrapped-left and wrapped-right families, each over all
      the operators. */
  lemma FamiliesInOrder(st: State, ops: seq<OperatorSpec>, lb: LookBehind, names: seq<string>,
                        apply: Apply, context: Value)
    requires Closed(st.text, st.memo)
    ensures var s1 := FamilyPass(st, Brackets, ops, lb, names, apply, context);
      var s2 := FamilyPass(s1, Simple, ops, lb, names, apply, context);
      var s3 := FamilyPass(s2, Wrapped, ops, lb, names, apply, context);
      var s4 := FamilyPass(s3, WrappedLeft, ops, lb, names, apply, context);
      FamiliesFrom(st, Families, ops, lb, names, apply, context) ==
        FamilyPass(s4, WrappedRight, ops, lb, names, apply, context)
  {
    var fs := Families;
    assert fs[1..][1..][1..][1..][1..] == [];
  }

  /** Every family pass leaves a lone placeholder as it is. */
  lemma LonePassIdle(st: State, f: Family, ops: seq<OperatorSpec>, lb: LookBehind, names: seq<string>,
                     apply: Apply, context: Value)
    requires Closed(st.text, st.memo) && |st.text| == 1 && st.text[0].Ph?
    requires forall k :: 0 <= k < |ops| ==> |ops[k].symbol| > 0
    ensures FamilyPass(st, f, ops, lb, names, apply, context) == st
  {
    assert st.text == [Ph(st.text[0].key)];
    forall k | 0 <= k < |ops| ensures NoHit(st.text, OperationAt(f, ops[k].symbol, lb, names)) {
      LoneIdle(st.text[0].key, f, ops[k].symbol, lb, names);
    }
    PassIdle(st, f, ops, lb, names, apply, context);
  }

  /** `(a OP b)` at i is a brackets match, for any one-character symbol. */
  lemma BracketsAt(t: Text, i: nat, op: string, a: Text, b: Text)
    requires |op| == 1 && !IsSpace(op[0])
    requires i + 5 <= |t| && t[i..i + 5] == [Ch('('), Ph(a), Ch(op[0]), Ph(b), Ch(')')]
    ensures Shape(Brackets, op, t, i) == Some(Match(5, [a, b], []))
  {
    FiveItems(t, i, Ch('('), Ph(a), Ch(op[0]), Ph(b), Ch(')'));
    BracketsItems(t, i, op, a, b);
  }

  /** The five items of a five-item stretch. */
  lemma FiveItems(t: Text, i: nat, x0: Item, x1: Item, x2: Item, x3: Item, x4: Item)
    requires i + 5 <= |t| && t[i..i + 5] == [x0, x1, x2, x3, x4]
    ensures t[i] == x0 && t[i + 1] == x1 && t[i + 2] == x2 && t[i + 3] == x3 && t[i + 4] == x4
  {
    var s := t[i..i + 5];
    assert s[0] == t[i] && s[1] == t[i + 1] && s[2] == t[i + 2] && s[3] == t[i + 3] && s[4] == t[i + 4];
  }

  lemma BracketsItems(t: Text, i: nat, op: string, a: Text, b: Text)
    requires |op| == 1 && !IsSpace(op[0]) && i + 5 <= |t|
    requires t[i] == Ch('(') && t[i + 1] == Ph(a) && t[i + 2] == Ch(op[0])
    requires t[i + 3] == Ph(b) && t[i + 4] == Ch(')')
    ensures Shape(Brackets, op, t, i) == Some(Match(5, [a, b], []))
  {
    assert OpenOperand(t, i) == Some((a, i + 2)) by {
      assert SkipSpaces(t, i + 1) == i + 1;
    }
    assert RightAfter(Brackets, op, t, i + 2) == Some((b, i + 5)) by {
      assert t[i + 2..i + 3] == Lift(op);
      assert SkipSpaces(t, i + 3) == i + 3;
      assert SkipSpaces(t, i + 4) == i + 4;
    }
    assert SkipSpaces(t, i + 2) == i + 2;
    assert SeparatorFrom(Brackets, op, t, i + 2, i + 2) == Some(Sep(i + 2, b, i + 5));
  }

  /** At the start of the text no function name precedes, so neither
      look-behind rejects position 0 when every registered name is
      nonempty (and, as written, at least one is registered). */
  lemma LookBehindAtStart(f: Family, op: string, lb: LookBehind, names: seq<string>, t: Text)
    requires forall k :: 0 <= k < |names| ==> |names[k]| > 0
    requires lb == AsWritten ==> |names| > 0
    ensures OperationMatchBy(f, op, lb, names, t, 0) == Shape(f, op, t, 0)
  {
  }

  /** No brackets match where the text holds no `(`. */
  lemma NoOpenIdle(t: Text, op: string, lb: LookBehind, names: seq<string>)
    requires forall i :: 0 <= i < |t| ==> t[i] != Ch('(')
    ensures NoHit(t, OperationAt(Brackets, op, lb, names))
  {
    forall p | 0 <= p < |t| ensures !HitAt(t, p, OperationAt(Brackets, op, lb, names)) {
      assert OpenOperand(t, p).None?;
    }
  }

  /** `(a l b) h c`: the text the grouping lemmas below start from. */
  function GroupedLeft(a: Text, l: char, b: Text, h: char, c: Text): (t: Text)
    ensures |t| == 7 && t[0] == Ch('(') && t[4] == Ch(')')
  {
    [Ch('('), Ph(a), Ch(l), Ph(b), Ch(')'), Ch(h), Ph(c)]
  }

  /** The brackets loop of `h` finds nothing in `(a l b) h c`. */
  lemma GroupedOtherIdle(t: Text, hi: string, lb: LookBehind, names: seq<string>, a: Text, l: char, b: Text, c: Text)
    requires |hi| == 1 && hi[0] != l && hi[0] != '(' && l != '(' && !IsSpace(l)
    requires t == GroupedLeft(a, l, b, hi[0], c)
    ensures NoHit(t, OperationAt(Brackets, hi, lb, names))
  {
    forall p | 0 <= p < |t| ensures !HitAt(t, p, OperationAt(Brackets, hi, lb, names)) {
      if p == 0 {
        assert SkipSpaces(t, 1) == 1 && SkipSpaces(t, 2) == 2;
        assert OpenOperand(t, 0) == Some((a, 2));
        assert !SymbolAt(t, 2, hi);
        assert SeparatorFrom(Brackets, hi, t, 2, 2).None?;
      } else {
        assert OpenOperand(t, p).None?;
      }
    }
  }

  /** The brackets pattern of `l` first matches `(a l b) h c` at 0. */
  lemma GroupedHit(t: Text, lo: string, lb: LookBehind, names: seq<string>, a: Text, b: Text, h: char, c: Text)
    requires |lo| == 1 && !IsSpace(lo[0])
    requires forall k :: 0 <= k < |names| ==> |names[k]| > 0
    requires lb == AsWritten ==> |names| > 0
    requires t == GroupedLeft(a, lo[0], b, h, c)
    ensures OperationAt(Brackets, lo, lb, names)(t, 0) == Some(Match(5, [a, b], []))
    ensures Leftmost(t, 0, OperationAt(Brackets, lo, lb, names)) == Some(0)
  {
    assert t[0..5] == [Ch('('), Ph(a), Ch(lo[0]), Ph(b), Ch(')')];
    BracketsAt(t, 0, lo, a, b);
    LookBehindAtStart(Brackets, lo, lb, names, t);
  }

  /** str_replace of the bracket `(a l b)` in `(a l b) h c`. */
  lemma GroupedReplace(a: Text, l: char, b: Text, h: char, c: Text)
    ensures var t := GroupedLeft(a, l, b, h, c);
      ReplaceAll(t, t[..5], [Ph(t[..5])]) == [Ph(t[..5]), Ch(h), Ph(c)]
  {
    var t := GroupedLeft(a, l, b, h, c);
    var m1 := t[..5];
    assert t == [] + m1 + [Ch(h), Ph(c)];
    NoRoom(m1, [Ch(h), Ph(c)]);
    ReplaceMiddle([], m1, [Ch(h), Ph(c)], Ph(m1));
  }

  /** The reduction of the bracket at the front of `(a l b) h c`. */
  lemma GroupedStep(st: State, lo: OperatorSpec, lb: LookBehind, names: seq<string>, apply: Apply, context: Value,
                    a: Text, b: Text, h: char, c: Text)
    requires |lo.symbol| == 1 && !IsSpace(lo.symbol[0])
    requires forall k :: 0 <= k < |names| ==> |names[k]| > 0
    requires lb == AsWritten ==> |names| > 0
    requires st.text == GroupedLeft(a, lo.symbol[0], b, h, c) && Closed(st.text, st.memo)
    requires a in st.memo && b in st.memo
    ensures HitAt(st.text, 0, OperationAt(Brackets, lo.symbol, lb, names))
    ensures OperationStep(st, 0, Brackets, lo, lb, names, apply, context) ==
      State([Ph(st.text[..5]), Ch(h), Ph(c)],
            st.memo[st.text[..5] := OperationEntry(st.memo, Brackets, lo, a, b, apply, context)])
  {
    var t := st.text;
    var M := OperationAt(Brackets, lo.symbol, lb, names);
    var e := OperationEntry(st.memo, Brackets, lo, a, b, apply, context);
    GroupedHit(t, lo.symbol, lb, names, a, b, h, c);
    assert OperationMatchBy(Brackets, lo.symbol, lb, names, t, 0) == Some(Match(5, [a, b], []));
    assert ReduceAt(st, 0, M, e) == Reduce(st, t[..5], e);
    GroupedReplace(a, lo.symbol[0], b, h, c);
  }

  /** The brackets loop of `l` reduces `(a l b)` at the front of
      `(a l b) h c` and stops. */
  lemma GroupedBrackets(st: State, lo: OperatorSpec, lb: LookBehind, names: seq<string>, apply: Apply, context: Value,
                        a: Text, b: Text, h: char, c: Text)
    requires |lo.symbol| == 1 && !IsSpace(lo.symbol[0]) && h != '('
    requires forall k :: 0 <= k < |names| ==> |names[k]| > 0
    requires lb == AsWritten ==> |names| > 0
    requires st.text == GroupedLeft(a, lo.symbol[0], b, h, c) && Closed(st.text, st.memo)
    requires a in st.memo && b in st.memo
    ensures var m1 := st.text[..5];
      OperationLoop(st, Brackets, lo, lb, names, apply, context) ==
      State([Ph(m1), Ch(h), Ph(c)], st.memo[m1 := OperationEntry(st.memo, Brackets, lo, a, b, apply, context)])
  {
    var m1 := st.text[..5];
    var r := State([Ph(m1), Ch(h), Ph(c)], st.memo[m1 := OperationEntry(st.memo, Brackets, lo, a, b, apply, context)]);
    GroupedHit(st.text, lo.symbol, lb, names, a, b, h, c);
    GroupedStep(st, lo, lb, names, apply, context, a, b, h, c);
    BinaryNoOpen(r.text, m1, h, c);
    NoOpenIdle(r.text, lo.symbol, lb, names);
    LoopOnce(st, 0, Brackets, lo, lb, names, apply, context, r);
  }

  /** The brackets family over `[h, l]` on `(a l b) h c`: `h` finds
      nothing, `l` reduces the bracket. */
  lemma GroupedBracketsPass(st: State, hi: OperatorSpec, lo: OperatorSpec, lb: LookBehind, names: seq<string>,
                            apply: Apply, context: Value, a: Text, b: Text, c: Text)
    requires |hi.symbol| == 1 && |lo.symbol| == 1 && hi.symbol[0] != lo.symbol[0]
    requires !IsSpace(lo.symbol[0]) && hi.symbol[0] != '(' && lo.symbol[0] != '('
    requires forall k :: 0 <= k < |names| ==> |names[k]| > 0
    requires lb == AsWritten ==> |names| > 0
    requires st.text == GroupedLeft(a, lo.symbol[0], b, hi.symbol[0], c) && Closed(st.text, st.memo)
    requires a in st.memo && b in st.memo
    ensures var m1 := st.text[..5];
      FamilyPass(st, Brackets, [hi, lo], lb, names, apply, context) ==
      State([Ph(m1), Ch(hi.symbol[0]), Ph(c)], st.memo[m1 := OperationEntry(st.memo, Brackets, lo, a, b, apply, context)])
  {
    GroupedOtherIdle(st.text, hi.symbol, lb, names, a, lo.symbol[0], b, c);
    GroupedBrackets(st, lo, lb, names, apply, context, a, b, hi.symbol[0], c);
    PassOfTwo(st, Brackets, hi, lo, lb, names, apply, context);
  }

  /** The simple family on `m1 h c`, where m1 is the reduced bracket:
      h reduces the whole text, and l then finds a lone placeholder. */
  lemma GroupedSimple(st: State, hi: OperatorSpec, lo: OperatorSpec, lb: LookBehind, names: seq<string>,
                      apply: Apply, context: Value, m1: Text, c: Text)
    requires |hi.symbol| == 1 && !IsSpace(hi.symbol[0]) && |lo.symbol| == 1 && !IsSpace(lo.symbol[0])
    requires st.text == Binary(m1, hi.symbol[0], c) && m1 in st.memo && c in st.memo
    ensures FamilyPass(st, Simple, [hi, lo], lb, names, apply, context) ==
      State([Ph(st.text)], st.memo[st.text := Applied(st.memo, hi, m1, c, apply, context)])
  {
    var r := State([Ph(st.text)], st.memo[st.text := Applied(st.memo, hi, m1, c, apply, context)]);
    SingleStep(st, hi, lb, names, apply, context, m1, c);
    SingleOperation(st, hi, lb, names, apply, context, m1, c);
    LoneTokenIdle(st.text, lo.symbol, lb, names);
    PassOfTwo(st, Simple, hi, lo, lb, names, apply, context);
  }

  /** Every operand of `(a l b) h c` has an entry. */
  lemma GroupedClosed(memo: Memo, a: Text, l: char, b: Text, h: char, c: Text)
    requires a in memo && b in memo && c in memo
    ensures Closed(GroupedLeft(a, l, b, h, c), memo)
  {
    var t := GroupedLeft(a, l, b, h, c);
    forall i | 0 <= i < |t| && t[i].Ph? ensures t[i].key in memo {
      assert t[i] == Ph(a) || t[i] == Ph(b) || t[i] == Ph(c);
    }
  }

  /** When the brackets and simple families leave a lone placeholder,
      `calcOperations` ends there: the wrapped families find nothing and
      no parenthesis is left to trim. */
  lemma LoneAfterSimple(st: State, s1: State, s2: State, ops: seq<OperatorSpec>, lb: LookBehind, names: seq<string>,
                        apply: Apply, context: Value)
    requires Closed(st.text, st.memo)
    requires FamilyPass(st, Brackets, ops, lb, names, apply, context) == s1
    requires FamilyPass(s1, Simple, ops, lb, names, apply, context) == s2
    requires |s2.text| == 1 && s2.text[0].Ph?
    requires forall k :: 0 <= k < |ops| ==> |ops[k].symbol| > 0
    ensures CalcOperations(st, ops, lb, names, apply, context) == s2
  {
    LonePassIdle(s2, Wrapped, ops, lb, names, apply, context);
    LonePassIdle(s2, WrappedLeft, ops, lb, names, apply, context);
    LonePassIdle(s2, WrappedRight, ops, lb, names, apply, context);
    FamiliesInOrder(st, ops, lb, names, apply, context);
    assert Unparen(s2.text) == s2.text;
  }

  /** Both symbols of a two-operator list are nonempty. */
  lemma TwoSymbols(x: OperatorSpec, y: OperatorSpec)
    requires |x.symbol| > 0 && |y.symbol| > 0
    ensures forall k :: 0 <= k < |[x, y]| ==> |[x, y][k].symbol| > 0
  {
  }

  /** `calcOperations` with operators `[h, l]` on `(a l b) h c`: the
      bracket is reduced to m1, then `m1 h c` to m2, and the wrapped
      families find a lone placeholder. */
  lemma GroupedCalc(st: State, hi: OperatorSpec, lo: OperatorSpec, lb: LookBehind, names: seq<string>,
                    apply: Apply, context: Value, a: Text, b: Text, c: Text)
    requires |hi.symbol| == 1 && |lo.symbol| == 1 && hi.symbol[0] != lo.symbol[0]
    requires !IsSpace(hi.symbol[0]) && !IsSpace(lo.symbol[0]) && hi.symbol[0] != '(' && lo.symbol[0] != '('
    requires forall k :: 0 <= k < |names| ==> |names[k]| > 0
    requires lb == AsWritten ==> |names| > 0
    requires st.text == GroupedLeft(a, lo.symbol[0], b, hi.symbol[0], c) && Closed(st.text, st.memo)
    requires a in st.memo && b in st.memo && c in st.memo && st.text[..5] != c
    ensures var m1 := st.text[..5];
      var s1 := State([Ph(m1), Ch(hi.symbol[0]), Ph(c)], st.memo[m1 := OperationEntry(st.memo, Brackets, lo, a, b, apply, context)]);
      CalcOperations(st, [hi, lo], lb, names, apply, context) ==
      State([Ph(s1.text)], s1.memo[s1.text := Applied(s1.memo, hi, m1, c, apply, context)])
  {
    var ops := [hi, lo];
    var m1 := st.text[..5];
    var s1 := State([Ph(m1), Ch(hi.symbol[0]), Ph(c)], st.memo[m1 := OperationEntry(st.memo, Brackets, lo, a, b, apply, context)]);
    var s2 := State([Ph(s1.text)], s1.memo[s1.text := Applied(s1.memo, hi, m1, c, apply, context)]);
    assert FamilyPass(st, Brackets, ops, lb, names, apply, context) == s1 by {
      GroupedBracketsPass(st, hi, lo, lb, names, apply, context, a, b, c);
    }
    assert FamilyPass(s1, Simple, ops, lb, names, apply, context) == s2 by {
      assert s1.text == Binary(m1, hi.symbol[0], c);
      GroupedSimple(s1, hi, lo, lb, names, apply, context, m1, c);
    }
    TwoSymbols(hi, lo);
    LoneAfterSimple(st, s1, s2, ops, lb, names, apply, context);
  }

  /** The families run brackets first: with operators `[h, l]` and every
      registered name nonempty, `(a l b) h c` reduces the bracket before
      the simple family sees `h`, so the result is `(a l b) h c` and not
      `a l (b h c)`, under either look-behind. */
  lemma BracketsFirst(memo: Memo, hi: OperatorSpec, lo: OperatorSpec, lb: LookBehind, names: seq<string>,
                      apply: Apply, context: Value, a: Text, b: Text, c: Text)
    requires |hi.symbol| == 1 && |lo.symbol| == 1 && hi.symbol != lo.symbol
    requires !IsSpace(hi.symbol[0]) && !IsSpace(lo.symbol[0]) && hi.symbol[0] != '(' && lo.symbol[0] != '('
    requires forall k :: 0 <= k < |names| ==> |names[k]| > 0
    requires lb == AsWritten ==> |names| > 0
    requires a in memo && b in memo && c in memo && Atomic(c)
    ensures var t := GroupedLeft(a, lo.symbol[0], b, hi.symbol[0], c);
      var m1 := t[..5];
      var m2 := Binary(m1, hi.symbol[0], c);
      var r := CalcOperations(State(t, memo), [hi, lo], lb, names, apply, context);
      r.text == [Ph(m2)] && m1 in r.memo && m2 in r.memo && r.memo[m1].BracketsC? &&
      Recall(r.memo, m2) == apply(hi.id, apply(lo.id, Recall(memo, a), Recall(memo, b), context), Recall(memo, c), context)
  {
    var h, l := hi.symbol[0], lo.symbol[0];
    assert h != l by { assert hi.symbol == [h] && lo.symbol == [l]; }
    var t := GroupedLeft(a, l, b, h, c);
    GroupedClosed(memo, a, l, b, h, c);
    var m1 := t[..5];
    assert m1 != c by { assert m1[1].Ph?; }
    GroupedCalc(State(t, memo), hi, lo, lb, names, apply, context, a, b, c);
    var e1 := OperationEntry(memo, Brackets, lo, a, b, apply, context);
    var memo1 := memo[m1 := e1];
    assert Recall(memo1, m1) == apply(lo.id, Recall(memo, a), Recall(memo, b), context);
    assert Recall(memo1, c) == Recall(memo, c);
  }

  // ---------------------------------------------------------------------
  // `w o (x i y) o z` with no functions registered

  /** `w o (x i y) o z`, as in `2-(3+4)-5`. */
  function Nested(w: Text, o: char, x: Text, i: char, y: Text, z: Text): (t: Text)
    ensures |t| == 9
  {
    [Ph(w), Ch(o), Ch('('), Ph(x), Ch(i), Ph(y), Ch(')'), Ch(o), Ph(z)]
  }

  /** `w o (m) o z`: the nested text once `x i y` is m. */
  function NestedInner(w: Text, o: char, m: Text, z: Text): (t: Text)
    ensures |t| == 7
  {
    [Ph(w), Ch(o), Ch('('), Ph(m), Ch(')'), Ch(o), Ph(z)]
  }

  /** The items of `w o (x i y) o z`. */
  lemma NestedItems(w: Text, o: char, x: Text, i: char, y: Text, z: Text)
    ensures var t := Nested(w, o, x, i, y, z);
      t[0] == Ph(w) && t[1] == Ch(o) && t[2] == Ch('(') && t[3] == Ph(x) && t[4] == Ch(i) &&
      t[5] == Ph(y) && t[6] == Ch(')') && t[7] == Ch(o) && t[8] == Ph(z)
  {
  }

  /** The simple pattern of i does not match `w o (` in
      `w o (x i y) o z`. */
  lemma NestedInnerMisses(t: Text, i: string, lb: LookBehind, names: seq<string>,
                          w: Text, o: char, x: Text, y: Text, z: Text)
    requires |i| == 1 && !IsSpace(i[0]) && !IsSpace(o) && o != i[0]
    requires t == Nested(w, o, x, i[0], y, z)
    ensures forall p :: 0 <= p < 3 ==> !HitAt(t, p, OperationAt(Simple, i, lb, names))
  {
    NestedItems(w, o, x, i[0], y, z);
    forall p | 0 <= p < 3 ensures Shape(Simple, i, t, p).None? {
      SimpleNotAt(t, p, i);
    }
  }

  /** The simple pattern of i first matches `w o (x i y) o z` at `x i y`. */
  lemma NestedInnerFirst(t: Text, i: string, lb: LookBehind, names: seq<string>,
                         w: Text, o: char, x: Text, y: Text, z: Text)
    requires |i| == 1 && !IsSpace(i[0]) && !IsSpace(o) && o != i[0]
    requires t == Nested(w, o, x, i[0], y, z)
    ensures Leftmost(t, 0, OperationAt(Simple, i, lb, names)) == Some(3)
  {
    var M := OperationAt(Simple, i, lb, names);
    NestedItems(w, o, x, i[0], y, z);
    SimpleAt(t, 3, i, x, y);
    assert M(t, 3) == Some(Match(3, [x, y], []));
    assert HitAt(t, 3, M);
    assert Leftmost(t, 3, M) == Some(3);
    NestedInnerMisses(t, i, lb, names, w, o, x, y, z);
    assert !HitAt(t, 0, M) && !HitAt(t, 1, M) && !HitAt(t, 2, M);
    assert Leftmost(t, 0, M) == Leftmost(t, 1, M) == Leftmost(t, 2, M) == Leftmost(t, 3, M);
  }

  /** str_replace of `x i y` in `w o (x i y) o z`. */
  lemma NestedReplaceInner(w: Text, o: char, x: Text, i: char, y: Text, z: Text)
    requires o != i
    ensures var m := Binary(x, i, y);
      ReplaceAll(Nested(w, o, x, i, y, z), m, [Ph(m)]) == NestedInner(w, o, m, z)
  {
    var t := Nested(w, o, x, i, y, z);
    var m := Binary(x, i, y);
    var pre, post := [Ph(w), Ch(o), Ch('(')], [Ch(')'), Ch(o), Ph(z)];
    assert t == pre + m + post;
    forall k | 0 <= k < |pre| ensures !StartsAt(t, k, m) {
      assert t[k..k + 3][1] == t[k + 1];
    }
    assert !StartsWith(post, m) by { assert post[..3][0] == Ch(')'); }
    NoRoom(m, post[1..]);
    ReplaceMiddle(pre, m, post, Ph(m));
    assert pre + [Ph(m)] + post == NestedInner(w, o, m, z);
  }

  /** The items of `w o (m) o z`. */
  lemma NestedInnerItems(w: Text, o: char, m: Text, z: Text)
    ensures var t := NestedInner(w, o, m, z);
      t[0] == Ph(w) && t[1] == Ch(o) && t[2] == Ch('(') && t[3] == Ph(m) && t[4] == Ch(')') &&
      t[5] == Ch(o) && t[6] == Ph(z)
  {
  }

  /** `w o (m) o z` holds no simple match of a symbol other than o and `)`. */
  lemma NestedInnerIdle(t: Text, i: string, lb: LookBehind, names: seq<string>, w: Text, o: char, m: Text, z: Text)
    requires |i| == 1 && !IsSpace(i[0]) && !IsSpace(o) && o != i[0] && i[0] != ')'
    requires t == NestedInner(w, o, m, z)
    ensures NoHit(t, OperationAt(Simple, i, lb, names))
  {
    NestedInnerItems(w, o, m, z);
    forall p | 0 <= p < |t| ensures Shape(Simple, i, t, p).None? {
      SimpleNotAt(t, p, i);
    }
  }

  /** The reduction of `x i y` in `w o (x i y) o z`. */
  lemma NestedInnerStep(st: State, inner: OperatorSpec, lb: LookBehind, names: seq<string>, apply: Apply,
                        context: Value, w: Text, o: char, x: Text, y: Text, z: Text)
    requires |inner.symbol| == 1 && !IsSpace(inner.symbol[0]) && !IsSpace(o) && o != inner.symbol[0]
    requires st.text == Nested(w, o, x, inner.symbol[0], y, z) && Closed(st.text, st.memo)
    requires x in st.memo && y in st.memo
    ensures HitAt(st.text, 3, OperationAt(Simple, inner.symbol, lb, names))
    ensures var m := Binary(x, inner.symbol[0], y);
      OperationStep(st, 3, Simple, inner, lb, names, apply, context) ==
      State(NestedInner(w, o, m, z), st.memo[m := Applied(st.memo, inner, x, y, apply, context)])
  {
    NestedItems(w, o, x, inner.symbol[0], y, z);
    StepAt(st, 3, inner, lb, names, apply, context, x, y);
    NestedReplaceInner(w, o, x, inner.symbol[0], y, z);
  }

  /** The simple loop of i reduces `x i y` in `w o (x i y) o z`. */
  lemma NestedSimpleInner(st: State, inner: OperatorSpec, lb: LookBehind, names: seq<string>, apply: Apply,
                          context: Value, w: Text, o: char, x: Text, y: Text, z: Text)
    requires |inner.symbol| == 1 && !IsSpace(inner.symbol[0]) && !IsSpace(o) && o != inner.symbol[0]
    requires inner.symbol[0] != ')'
    requires st.text == Nested(w, o, x, inner.symbol[0], y, z) && Closed(st.text, st.memo)
    requires x in st.memo && y in st.memo
    ensures var m := Binary(x, inner.symbol[0], y);
      OperationLoop(st, Simple, inner, lb, names, apply, context) ==
      State(NestedInner(w, o, m, z), st.memo[m := Applied(st.memo, inner, x, y, apply, context)])
  {
    var m := Binary(x, inner.symbol[0], y);
    var r := State(NestedInner(w, o, m, z), st.memo[m := Applied(st.memo, inner, x, y, apply, context)]);
    NestedInnerFirst(st.text, inner.symbol, lb, names, w, o, x, y, z);
    NestedInnerStep(st, inner, lb, names, apply, context, w, o, x, y, z);
    NestedInnerIdle(r.text, inner.symbol, lb, names, w, o, m, z);
    LoopOnce(st, 3, Simple, inner, lb, names, apply, context, r);
  }

  /** `w o (m) o z` holds no simple match of o: the operand after the
      first o is a parenthesis. */
  lemma NestedSimpleOuterIdle(t: Text, outer: string, lb: LookBehind, names: seq<string>, w: Text, m: Text, z: Text)
    requires |outer| == 1 && !IsSpace(outer[0]) && outer[0] != ')'
    requires t == NestedInner(w, outer[0], m, z)
    ensures NoHit(t, OperationAt(Simple, outer, lb, names))
  {
    NestedInnerItems(w, outer[0], m, z);
    forall p | 0 <= p < |t| ensures Shape(Simple, outer, t, p).None? {
      if p == 0 {
        SimpleOpenRight(t, outer, w);
      } else {
        SimpleNotAt(t, p, outer);
      }
    }
  }

  /** `w o (` holds no simple match of o at 0. */
  lemma SimpleOpenRight(t: Text, op: string, w: Text)
    requires |op| == 1 && !IsSpace(op[0])
    requires 3 <= |t| && t[0] == Ph(w) && t[1] == Ch(op[0]) && t[2] == Ch('(')
    ensures Shape(Simple, op, t, 0).None?
  {
    assert SkipSpaces(t, 1) == 1 && SkipSpaces(t, 2) == 2;
    assert RightAfter(Simple, op, t, 1).None?;
  }

  /** In `w o (m) o z`, `(m)` is the one wrapped operand. */
  lemma NestedWrappedOperand(t: Text, w: Text, o: char, m: Text, z: Text)
    requires !IsSpace(o) && t == NestedInner(w, o, m, z)
    ensures WrappedOperand(t, 2) == Some((m, 5))
    ensures forall p :: 0 <= p < |t| && p != 2 ==> WrappedOperand(t, p).None?
    ensures SkipSpaces(t, 5) == 5 && SkipSpaces(t, 6) == 6
  {
    NestedInnerItems(w, o, m, z);
    assert SkipSpaces(t, 3) == 3 && SkipSpaces(t, 4) == 4;
  }

  /** `w o (m) o z` holds no match `(PH) OP (PH)`, whatever the symbol. */
  lemma NestedWrappedIdle(t: Text, op: string, lb: LookBehind, names: seq<string>, w: Text, o: char, m: Text, z: Text)
    requires |op| == 1 && !IsSpace(o) && t == NestedInner(w, o, m, z)
    ensures NoHit(t, OperationAt(Wrapped, op, lb, names))
  {
    NestedWrappedOperand(t, w, o, m, z);
    NestedInnerItems(w, o, m, z);
    assert WrappedOperand(t, 6).None?;
    assert RightAfter(Wrapped, op, t, 5).None?;
    assert Shape(Wrapped, op, t, 2).None?;
    forall p | 0 <= p < |t| ensures Shape(Wrapped, op, t, p).None? {
    }
  }

  /** `w o (m) o z` holds no match `(PH) OP PH` for a symbol other than o. */
  lemma NestedWrappedLeftIdle(t: Text, op: string, lb: LookBehind, names: seq<string>,
                              w: Text, o: char, m: Text, z: Text)
    requires |op| == 1 && !IsSpace(o) && op[0] != o && t == NestedInner(w, o, m, z)
    ensures NoHit(t, OperationAt(WrappedLeft, op, lb, names))
  {
    NestedWrappedOperand(t, w, o, m, z);
    NestedInnerItems(w, o, m, z);
    assert !SymbolAt(t, 5, op) by { assert t[5..6][0] == Ch(o); }
    assert Shape(WrappedLeft, op, t, 2).None?;
    forall p | 0 <= p < |t| ensures Shape(WrappedLeft, op, t, p).None? {
    }
  }

  /** The wrapped-left pattern of o first matches `w o (m) o z` at
      `(m) o z`. */
  lemma NestedWrappedLeftAt(t: Text, outer: string, lb: LookBehind, names: seq<string>, w: Text, m: Text, z: Text)
    requires |outer| == 1 && !IsSpace(outer[0]) && t == NestedInner(w, outer[0], m, z)
    ensures OperationAt(WrappedLeft, outer, lb, names)(t, 2) == Some(Match(5, [m, z], []))
    ensures Leftmost(t, 0, OperationAt(WrappedLeft, outer, lb, names)) == Some(2)
  {
    var M := OperationAt(WrappedLeft, outer, lb, names);
    NestedWrappedOperand(t, w, outer[0], m, z);
    NestedInnerItems(w, outer[0], m, z);
    assert t[5..6] == Lift(outer);
    assert RightAfter(WrappedLeft, outer, t, 5) == Some((z, 7));
    assert SeparatorFrom(WrappedLeft, outer, t, 5, 5) == Some(Sep(5, z, 7));
    assert M(t, 2) == Some(Match(5, [m, z], []));
    assert HitAt(t, 2, M);
    assert Leftmost(t, 2, M) == Some(2);
    assert !HitAt(t, 0, M) && !HitAt(t, 1, M);
    assert Leftmost(t, 0, M) == Leftmost(t, 1, M) == Leftmost(t, 2, M);
  }

  /** str_replace of `(m) o z` in `w o (m) o z`. */
  lemma NestedReplaceOuter(w: Text, o: char, m: Text, z: Text)
    requires o != '('
    ensures var t := NestedInner(w, o, m, z);
      ReplaceAll(t, t[2..7], [Ph(t[2..7])]) == [Ph(w), Ch(o), Ph(t[2..7])]
  {
    var t := NestedInner(w, o, m, z);
    var m2 := t[2..7];
    var pre := [Ph(w), Ch(o)];
    assert t == pre + m2 + [];
    forall k | 0 <= k < |pre| ensures !StartsAt(t, k, m2) {
      assert t[k..k + 5][0] == t[k];
    }
    NoRoom(m2, []);
    ReplaceMiddle(pre, m2, [], Ph(m2));
    assert pre + [Ph(m2)] + [] == [Ph(w), Ch(o), Ph(m2)];
  }

  /** The reduction of `(m) o z` in `w o (m) o z`. */
  lemma NestedWrappedLeftStep(st: State, outer: OperatorSpec, lb: LookBehind, names: seq<string>, apply: Apply,
                              context: Value, w: Text, m: Text, z: Text)
    requires |outer.symbol| == 1 && !IsSpace(outer.symbol[0]) && outer.symbol[0] != '('
    requires st.text == NestedInner(w, outer.symbol[0], m, z) && Closed(st.text, st.memo)
    requires m in st.memo && z in st.memo
    ensures HitAt(st.text, 2, OperationAt(WrappedLeft, outer.symbol, lb, names))
    ensures var m2 := st.text[2..7];
      OperationStep(st, 2, WrappedLeft, outer, lb, names, apply, context) ==
      State([Ph(w), Ch(outer.symbol[0]), Ph(m2)],
            st.memo[m2 := OperationEntry(st.memo, WrappedLeft, outer, m, z, apply, context)])
  {
    var M := OperationAt(WrappedLeft, outer.symbol, lb, names);
    var e := OperationEntry(st.memo, WrappedLeft, outer, m, z, apply, context);
    NestedWrappedLeftAt(st.text, outer.symbol, lb, names, w, m, z);
    assert ReduceAt(st, 2, M, e) == Reduce(st, st.text[2..7], e);
    NestedReplaceOuter(w, outer.symbol[0], m, z);
  }

  /** `w o k` holds no item `(`, so no family but the simple one matches
      in it. */
  lemma BinaryNoOpen(t: Text, w: Text, o: char, k: Text)
    requires o != '(' && t == [Ph(w), Ch(o), Ph(k)]
    ensures forall p :: 0 <= p < |t| ==> t[p] != Ch('(')
    ensures forall p :: 0 <= p < |t| ==> WrappedOperand(t, p).None? && OpenOperand(t, p).None?
  {
  }

  /** `w o k` holds no match `(PH) OP PH`. */
  lemma BinaryWrappedLeftIdle(t: Text, op: string, lb: LookBehind, names: seq<string>, w: Text, o: char, k: Text)
    requires o != '(' && t == [Ph(w), Ch(o), Ph(k)]
    ensures NoHit(t, OperationAt(WrappedLeft, op, lb, names))
  {
    BinaryNoOpen(t, w, o, k);
    forall p | 0 <= p < |t| ensures Shape(WrappedLeft, op, t, p).None? {
    }
  }

  /** The wrapped-left loop of o reduces `(m) o z` in `w o (m) o z`. */
  lemma NestedWrappedLeft(st: State, outer: OperatorSpec, lb: LookBehind, names: seq<string>, apply: Apply,
                          context: Value, w: Text, m: Text, z: Text)
    requires |outer.symbol| == 1 && !IsSpace(outer.symbol[0]) && outer.symbol[0] != '('
    requires st.text == NestedInner(w, outer.symbol[0], m, z) && Closed(st.text, st.memo)
    requires m in st.memo && z in st.memo
    ensures var m2 := st.text[2..7];
      OperationLoop(st, WrappedLeft, outer, lb, names, apply, context) ==
      State([Ph(w), Ch(outer.symbol[0]), Ph(m2)],
            st.memo[m2 := OperationEntry(st.memo, WrappedLeft, outer, m, z, apply, context)])
  {
    var m2 := st.text[2..7];
    var r := State([Ph(w), Ch(outer.symbol[0]), Ph(m2)],
                   st.memo[m2 := OperationEntry(st.memo, WrappedLeft, outer, m, z, apply, context)]);
    NestedWrappedLeftAt(st.text, outer.symbol, lb, names, w, m, z);
    NestedWrappedLeftStep(st, outer, lb, names, apply, context, w, m, z);
    BinaryWrappedLeftIdle(r.text, outer.symbol, lb, names, w, outer.symbol[0], m2);
    LoopOnce(st, 2, WrappedLeft, outer, lb, names, apply, context, r);
  }

  /** `w o k` holds no match `PH OP (PH)`, whatever the symbol. */
  lemma WrappedRightIdle(t: Text, op: string, lb: LookBehind, names: seq<string>, w: Text, o: char, k: Text)
    requires |op| == 1 && !IsSpace(o) && t == [Ph(w), Ch(o), Ph(k)]
    ensures NoHit(t, OperationAt(WrappedRight, op, lb, names))
  {
    assert SkipSpaces(t, 1) == 1 && SkipSpaces(t, 2) == 2 && SkipSpaces(t, 3) == 3;
    assert WrappedOperand(t, 2).None?;
    assert RightAfter(WrappedRight, op, t, 1).None?;
    assert RightAfter(WrappedRight, op, t, 3).None?;
    forall p | 0 <= p < |t| ensures Shape(WrappedRight, op, t, p).None? {
    }
  }

  /** Every operand of `w o (x i y) o z` has an entry. */
  /** The bracketed middle of a nested text holds placeholders, so it is no atomic key. */
  lemma NestedMiddleKey(w: Text, o: char, x: Text, i: char, y: Text, z: Text)
    ensures !Atomic(Nested(w, o, x, i, y, z)[2..7])
  {
    var m := Nested(w, o, x, i, y, z)[2..7];
    assert m[1] == Ph(x);
  }

  lemma NestedClosed(memo: Memo, w: Text, o: char, x: Text, i: char, y: Text, z: Text)
    requires w in memo && x in memo && y in memo && z in memo
    ensures Closed(Nested(w, o, x, i, y, z), memo)
  {
    var t := Nested(w, o, x, i, y, z);
    forall k | 0 <= k < |t| && t[k].Ph? ensures t[k].key in memo {
      assert t[k] == Ph(w) || t[k] == Ph(x) || t[k] == Ph(y) || t[k] == Ph(z);
    }
  }

  /** The simple family over `[i, o]` on `w o (x i y) o z`: i reduces
      `x i y`, and o then finds no placeholder after its first symbol. */
  lemma NestedPassSimple(st: State, inner: OperatorSpec, outer: OperatorSpec, lb: LookBehind, names: seq<string>,
                         apply: Apply, context: Value, w: Text, x: Text, y: Text, z: Text)
    requires |inner.symbol| == 1 && |outer.symbol| == 1 && inner.symbol[0] != outer.symbol[0]
    requires !IsSpace(inner.symbol[0]) && !IsSpace(outer.symbol[0]) && inner.symbol[0] != ')' && outer.symbol[0] != ')'
    requires st.text == Nested(w, outer.symbol[0], x, inner.symbol[0], y, z) && Closed(st.text, st.memo)
    requires x in st.memo && y in st.memo
    ensures var m := Binary(x, inner.symbol[0], y);
      FamilyPass(st, Simple, [inner, outer], lb, names, apply, context) ==
      State(NestedInner(w, outer.symbol[0], m, z), st.memo[m := Applied(st.memo, inner, x, y, apply, context)])
  {
    var m := Binary(x, inner.symbol[0], y);
    NestedSimpleInner(st, inner, lb, names, apply, context, w, outer.symbol[0], x, y, z);
    NestedSimpleOuterIdle(NestedInner(w, outer.symbol[0], m, z), outer.symbol, lb, names, w, m, z);
    PassOfTwo(st, Simple, inner, outer, lb, names, apply, context);
  }

  /** The wrapped family over `[i, o]` leaves `w o (m) o z` as it is. */
  lemma NestedPassWrapped(st: State, inner: OperatorSpec, outer: OperatorSpec, lb: LookBehind, names: seq<string>,
                          apply: Apply, context: Value, w: Text, m: Text, z: Text)
    requires |inner.symbol| == 1 && |outer.symbol| == 1 && !IsSpace(outer.symbol[0])
    requires st.text == NestedInner(w, outer.symbol[0], m, z) && Closed(st.text, st.memo)
    ensures FamilyPass(st, Wrapped, [inner, outer], lb, names, apply, context) == st
  {
    NestedWrappedIdle(st.text, inner.symbol, lb, names, w, outer.symbol[0], m, z);
    NestedWrappedIdle(st.text, outer.symbol, lb, names, w, outer.symbol[0], m, z);
    PassOfTwo(st, Wrapped, inner, outer, lb, names, apply, context);
  }

  /** The wrapped-left family over `[i, o]` on `w o (m) o z`: i finds
      nothing, o reduces `(m) o z`. */
  lemma NestedPassWrappedLeft(st: State, inner: OperatorSpec, outer: OperatorSpec, lb: LookBehind, names: seq<string>,
                              apply: Apply, context: Value, w: Text, m: Text, z: Text)
    requires |inner.symbol| == 1 && |outer.symbol| == 1 && inner.symbol[0] != outer.symbol[0]
    requires !IsSpace(outer.symbol[0]) && outer.symbol[0] != '('
    requires st.text == NestedInner(w, outer.symbol[0], m, z) && Closed(st.text, st.memo)
    requires m in st.memo && z in st.memo
    ensures var m2 := st.text[2..7];
      FamilyPass(st, WrappedLeft, [inner, outer], lb, names, apply, context) ==
      State([Ph(w), Ch(outer.symbol[0]), Ph(m2)],
            st.memo[m2 := OperationEntry(st.memo, WrappedLeft, outer, m, z, apply, context)])
  {
    NestedWrappedLeftIdle(st.text, inner.symbol, lb, names, w, outer.symbol[0], m, z);
    NestedWrappedLeft(st, outer, lb, names, apply, context, w, m, z);
    PassOfTwo(st, WrappedLeft, inner, outer, lb, names, apply, context);
  }

  /** The wrapped-right family over `[i, o]` leaves `w o k` as it is. */
  lemma PassWrappedRightIdle(st: State, inner: OperatorSpec, outer: OperatorSpec, lb: LookBehind, names: seq<string>,
                             apply: Apply, context: Value, w: Text, o: char, k: Text)
    requires |inner.symbol| == 1 && |outer.symbol| == 1 && !IsSpace(o)
    requires st.text == [Ph(w), Ch(o), Ph(k)] && Closed(st.text, st.memo)
    ensures FamilyPass(st, WrappedRight, [inner, outer], lb, names, apply, context) == st
  {
    WrappedRightIdle(st.text, inner.symbol, lb, names, w, o, k);
    WrappedRightIdle(st.text, outer.symbol, lb, names, w, o, k);
    PassOfTwo(st, WrappedRight, inner, outer, lb, names, apply, context);
  }

  /** The first round of `calcOperations` as written, with no functions
      registered, on `w o (x i y) o z` with operators `[i, o]`: the
      brackets family is idle, the simple family reduces `x i y` to m,
      and the wrapped-left family reduces `(m) o z`, leaving
      `w o ((m) o z)`. */
  lemma NestedRoundOne(memo: Memo, inner: OperatorSpec, outer: OperatorSpec, apply: Apply, context: Value,
                       w: Text, x: Text, y: Text, z: Text)
    requires |inner.symbol| == 1 && |outer.symbol| == 1 && inner.symbol[0] != outer.symbol[0]
    requires !IsSpace(inner.symbol[0]) && !IsSpace(outer.symbol[0])
    requires inner.symbol[0] != ')' && outer.symbol[0] != ')' && outer.symbol[0] != '('
    requires w in memo && x in memo && y in memo && z in memo
    ensures var o := outer.symbol[0];
      var m := Binary(x, inner.symbol[0], y);
      var memo1 := memo[m := Applied(memo, inner, x, y, apply, context)];
      var m2 := NestedInner(w, o, m, z)[2..7];
      CalcOperations(State(Nested(w, o, x, inner.symbol[0], y, z), memo), [inner, outer], AsWritten, [], apply, context) ==
      State([Ph(w), Ch(o), Ph(m2)], memo1[m2 := OperationEntry(memo1, WrappedLeft, outer, m, z, apply, context)])
  {
    var ops := [inner, outer];
    var o := outer.symbol[0];
    var m := Binary(x, inner.symbol[0], y);
    var memo1 := memo[m := Applied(memo, inner, x, y, apply, context)];
    var t1 := NestedInner(w, o, m, z);
    var m2 := t1[2..7];
    var st := State(Nested(w, o, x, inner.symbol[0], y, z), memo);
    var s1 := State(t1, memo1);
    var s2 := State([Ph(w), Ch(o), Ph(m2)], memo1[m2 := OperationEntry(memo1, WrappedLeft, outer, m, z, apply, context)]);
    NestedClosed(memo, w, o, x, inner.symbol[0], y, z);
    assert FamilyPass(st, Brackets, ops, AsWritten, [], apply, context) == st by {
      BracketsPassIdle(st, ops, apply, context);
    }
    assert FamilyPass(st, Simple, ops, AsWritten, [], apply, context) == s1 by {
      NestedPassSimple(st, inner, outer, AsWritten, [], apply, context, w, x, y, z);
    }
    assert FamilyPass(s1, Wrapped, ops, AsWritten, [], apply, context) == s1 by {
      NestedPassWrapped(s1, inner, outer, AsWritten, [], apply, context, w, m, z);
    }
    assert FamilyPass(s1, WrappedLeft, ops, AsWritten, [], apply, context) == s2 by {
      NestedPassWrappedLeft(s1, inner, outer, AsWritten, [], apply, context, w, m, z);
    }
    assert FamilyPass(s2, WrappedRight, ops, AsWritten, [], apply, context) == s2 by {
      PassWrappedRightIdle(s2, inner, outer, AsWritten, [], apply, context, w, o, m2);
    }
    FamiliesInOrder(st, ops, AsWritten, [], apply, context);
    assert Unparen(s2.text) == s2.text;
  }

  /** The second round as written, on `w o k` with operators `[i, o]`: the
      simple family reduces the whole text. */
  lemma NestedRoundTwo(st: State, inner: OperatorSpec, outer: OperatorSpec, apply: Apply, context: Value,
                       w: Text, k: Text)
    requires |inner.symbol| == 1 && |outer.symbol| == 1 && inner.symbol[0] != outer.symbol[0]
    requires !IsSpace(inner.symbol[0]) && !IsSpace(outer.symbol[0])
    requires st.text == Binary(w, outer.symbol[0], k) && Closed(st.text, st.memo)
    requires w in st.memo && k in st.memo
    ensures CalcOperations(st, [inner, outer], AsWritten, [], apply, context) ==
      State([Ph(st.text)], st.memo[st.text := Applied(st.memo, outer, w, k, apply, context)])
  {
    var ops := [inner, outer];
    var s2 := State([Ph(st.text)], st.memo[st.text := Applied(st.memo, outer, w, k, apply, context)]);
    assert FamilyPass(st, Brackets, ops, AsWritten, [], apply, context) == st by {
      BracketsPassIdle(st, ops, apply, context);
    }
    assert FamilyPass(st, Simple, ops, AsWritten, [], apply, context) == s2 by {
      NoSimpleIn(st.text, inner.symbol, AsWritten, [], w, outer.symbol[0], k);
      SingleOperation(st, outer, AsWritten, [], apply, context, w, k);
      PassOfTwo(st, Simple, inner, outer, AsWritten, [], apply, context);
    }
    TwoSymbols(inner, outer);
    LoneAfterSimple(st, st, s2, ops, AsWritten, [], apply, context);
  }

  /** `w o (x i y) o z` with operators `[i, o]` and no functions
      registered, as written: the brackets family never matches, the
      wrapped-left family takes `(x i y) o z` in the first round, and the
      second round applies the first o last, so the value is
      `w o ((x i y) o z)`. */
  lemma AsWrittenNesting(memo: Memo, inner: OperatorSpec, outer: OperatorSpec, apply: Apply, context: Value,
                         w: Text, x: Text, y: Text, z: Text)
    requires |inner.symbol| == 1 && |outer.symbol| == 1 && inner.symbol[0] != outer.symbol[0]
    requires !IsSpace(inner.symbol[0]) && !IsSpace(outer.symbol[0])
    requires inner.symbol[0] != ')' && outer.symbol[0] != ')' && outer.symbol[0] != '('
    requires w in memo && x in memo && y in memo && z in memo && Atomic(w) && Atomic(z)
    ensures var t := Nested(w, outer.symbol[0], x, inner.symbol[0], y, z);
      var r1 := CalcOperations(State(t, memo), [inner, outer], AsWritten, [], apply, context);
      var r2 := CalcOperations(r1, [inner, outer], AsWritten, [], apply, context);
      |r1.text| == 3 && r1.text[0] == Ph(w) &&
      |r2.text| == 1 && r2.text[0].Ph? && r2.text[0].key in r2.memo &&
      Recall(r2.memo, r2.text[0].key) ==
        apply(outer.id, Recall(memo, w),
              apply(outer.id, apply(inner.id, Recall(memo, x), Recall(memo, y), context), Recall(memo, z), context),
              context)
  {
    var o := outer.symbol[0];
    var m := Binary(x, inner.symbol[0], y);
    var memo1 := memo[m := Applied(memo, inner, x, y, apply, context)];
    var m2 := NestedInner(w, o, m, z)[2..7];
    var memo2 := memo1[m2 := OperationEntry(memo1, WrappedLeft, outer, m, z, apply, context)];
    var t := Nested(w, o, x, inner.symbol[0], y, z);
    var r1 := State([Ph(w), Ch(o), Ph(m2)], memo2);
    var r2 := State([Ph(r1.text)], memo2[r1.text := Applied(memo2, outer, w, m2, apply, context)]);
    NestedClosed(memo, w, o, x, inner.symbol[0], y, z);
    assert CalcOperations(State(t, memo), [inner, outer], AsWritten, [], apply, context) == r1 by {
      NestedRoundOne(memo, inner, outer, apply, context, w, x, y, z);
    }
    assert m != z && m != w by { assert m[0].Ph?; }
    assert m2 != w by { assert m2[1].Ph?; }
    assert CalcOperations(r1, [inner, outer], AsWritten, [], apply, context) == r2 by {
      assert r1.text == Binary(w, o, m2);
      NestedRoundTwo(r1, inner, outer, apply, context, w, m2);
    }
    assert Recall(memo1, m) == apply(inner.id, Recall(memo, x), Recall(memo, y), context);
    assert Recall(memo1, z) == Recall(memo, z);
    assert Recall(memo2, w) == Recall(memo, w);
  }

  /** The bracket of `w o (x i y) o z`. */
  lemma NestedBracketSlice(w: Text, o: char, x: Text, i: char, y: Text, z: Text)
    ensures Nested(w, o, x, i, y, z)[2..7] == [Ch('('), Ph(x), Ch(i), Ph(y), Ch(')')]
  {
  }

  /** `a o b o c` holds no brackets match. */
  lemma ChainNoOpen(t: Text, op: string, lb: LookBehind, names: seq<string>, a: Text, o: char, b: Text, c: Text)
    requires o != '(' && t == [Ph(a), Ch(o), Ph(b), Ch(o), Ph(c)]
    ensures NoHit(t, OperationAt(Brackets, op, lb, names))
  {
    forall p | 0 <= p < |t| ensures t[p] != Ch('(') {
    }
    NoOpenIdle(t, op, lb, names);
  }

  /** No brackets pattern matches `w o (x i y) o z` before the bracket. */
  lemma NestedBracketsMisses(t: Text, i: string, lb: LookBehind, names: seq<string>,
                             w: Text, o: char, x: Text, y: Text, z: Text)
    requires |i| == 1 && o != '(' && t == Nested(w, o, x, i[0], y, z)
    ensures forall p :: 0 <= p < 2 ==> !HitAt(t, p, OperationAt(Brackets, i, lb, names))
  {
    NestedItems(w, o, x, i[0], y, z);
    forall p | 0 <= p < 2 ensures OpenOperand(t, p).None? {
    }
  }

  /** The brackets pattern of i first matches `w o (x i y) o z` at the
      bracket, when it is not rejected at 2. */
  lemma NestedBracketsAt(t: Text, i: string, lb: LookBehind, names: seq<string>,
                         w: Text, o: char, x: Text, y: Text, z: Text)
    requires |i| == 1 && !IsSpace(i[0]) && o != '('
    requires t == Nested(w, o, x, i[0], y, z)
    requires OperationMatchBy(Brackets, i, lb, names, t, 2) == Shape(Brackets, i, t, 2)
    ensures OperationAt(Brackets, i, lb, names)(t, 2) == Some(Match(5, [x, y], []))
    ensures Leftmost(t, 0, OperationAt(Brackets, i, lb, names)) == Some(2)
  {
    var M := OperationAt(Brackets, i, lb, names);
    NestedBracketSlice(w, o, x, i[0], y, z);
    BracketsAt(t, 2, i, x, y);
    assert M(t, 2) == Some(Match(5, [x, y], []));
    assert HitAt(t, 2, M);
    assert Leftmost(t, 2, M) == Some(2);
    NestedBracketsMisses(t, i, lb, names, w, o, x, y, z);
    assert !HitAt(t, 0, M) && !HitAt(t, 1, M);
    assert Leftmost(t, 0, M) == Leftmost(t, 1, M) == Leftmost(t, 2, M);
  }

  /** str_replace of the bracket `(x i y)` in `w o (x i y) o z`. */
  lemma NestedReplaceBracket(w: Text, o: char, x: Text, i: char, y: Text, z: Text)
    requires o != '('
    ensures var t := Nested(w, o, x, i, y, z);
      ReplaceAll(t, t[2..7], [Ph(t[2..7])]) == [Ph(w), Ch(o), Ph(t[2..7]), Ch(o), Ph(z)]
  {
    var t := Nested(w, o, x, i, y, z);
    var mb := t[2..7];
    var pre, post := [Ph(w), Ch(o)], [Ch(o), Ph(z)];
    assert t == pre + mb + post;
    forall k | 0 <= k < |pre| ensures !StartsAt(t, k, mb) {
      assert t[k..k + 5][0] == t[k];
    }
    NoRoom(mb, post);
    ReplaceMiddle(pre, mb, post, Ph(mb));
    assert pre + [Ph(mb)] + post == [Ph(w), Ch(o), Ph(mb), Ch(o), Ph(z)];
  }

  /** The reduction of the bracket in `w o (x i y) o z`. */
  lemma NestedBracketsStep(st: State, inner: OperatorSpec, lb: LookBehind, names: seq<string>, apply: Apply,
                           context: Value, w: Text, o: char, x: Text, y: Text, z: Text)
    requires |inner.symbol| == 1 && !IsSpace(inner.symbol[0]) && o != '('
    requires st.text == Nested(w, o, x, inner.symbol[0], y, z) && Closed(st.text, st.memo)
    requires OperationMatchBy(Brackets, inner.symbol, lb, names, st.text, 2) == Shape(Brackets, inner.symbol, st.text, 2)
    requires x in st.memo && y in st.memo
    ensures HitAt(st.text, 2, OperationAt(Brackets, inner.symbol, lb, names))
    ensures var mb := st.text[2..7];
      OperationStep(st, 2, Brackets, inner, lb, names, apply, context) ==
      State([Ph(w), Ch(o), Ph(mb), Ch(o), Ph(z)],
            st.memo[mb := OperationEntry(st.memo, Brackets, inner, x, y, apply, context)])
  {
    var M := OperationAt(Brackets, inner.symbol, lb, names);
    var e := OperationEntry(st.memo, Brackets, inner, x, y, apply, context);
    NestedBracketsAt(st.text, inner.symbol, lb, names, w, o, x, y, z);
    assert ReduceAt(st, 2, M, e) == Reduce(st, st.text[2..7], e);
    NestedReplaceBracket(w, o, x, inner.symbol[0], y, z);
  }

  /** The brackets loop of i reduces `(x i y)` in `w o (x i y) o z`. */
  lemma NestedBrackets(st: State, inner: OperatorSpec, lb: LookBehind, names: seq<string>, apply: Apply,
                       context: Value, w: Text, o: char, x: Text, y: Text, z: Text)
    requires |inner.symbol| == 1 && !IsSpace(inner.symbol[0]) && o != '('
    requires st.text == Nested(w, o, x, inner.symbol[0], y, z) && Closed(st.text, st.memo)
    requires OperationMatchBy(Brackets, inner.symbol, lb, names, st.text, 2) == Shape(Brackets, inner.symbol, st.text, 2)
    requires x in st.memo && y in st.memo
    ensures var mb := st.text[2..7];
      OperationLoop(st, Brackets, inner, lb, names, apply, context) ==
      State([Ph(w), Ch(o), Ph(mb), Ch(o), Ph(z)],
            st.memo[mb := OperationEntry(st.memo, Brackets, inner, x, y, apply, context)])
  {
    var mb := st.text[2..7];
    var r := State([Ph(w), Ch(o), Ph(mb), Ch(o), Ph(z)],
                   st.memo[mb := OperationEntry(st.memo, Brackets, inner, x, y, apply, context)]);
    NestedBracketsAt(st.text, inner.symbol, lb, names, w, o, x, y, z);
    NestedBracketsStep(st, inner, lb, names, apply, context, w, o, x, y, z);
    ChainNoOpen(r.text, inner.symbol, lb, names, w, o, mb, z);
    LoopOnce(st, 2, Brackets, inner, lb, names, apply, context, r);
  }

  /** `a o b o c` holds no simple match of another symbol. */
  lemma ChainIdle(t: Text, i: string, lb: LookBehind, names: seq<string>, a: Text, o: char, b: Text, c: Text)
    requires |i| == 1 && !IsSpace(i[0]) && !IsSpace(o) && o != i[0]
    requires t == [Ph(a), Ch(o), Ph(b), Ch(o), Ph(c)]
    ensures NoHit(t, OperationAt(Simple, i, lb, names))
  {
    forall p | 0 <= p < |t| ensures Shape(Simple, i, t, p).None? {
      SimpleNotAt(t, p, i);
    }
  }

  /** The same text with the intended look-behind: the brackets family
      reduces `(x i y)` first and the simple family groups the rest to the
      left, so the value is `(w o (x i y)) o z`, in one round. */
  lemma IntendedNesting(memo: Memo, inner: OperatorSpec, outer: OperatorSpec, apply: Apply, context: Value,
                        w: Text, x: Text, y: Text, z: Text)
    requires |inner.symbol| == 1 && |outer.symbol| == 1 && inner.symbol[0] != outer.symbol[0]
    requires !IsSpace(inner.symbol[0]) && !IsSpace(outer.symbol[0]) && outer.symbol[0] != '('
    requires w in memo && x in memo && y in memo && z in memo && Atomic(w) && Atomic(z)
    ensures var t := Nested(w, outer.symbol[0], x, inner.symbol[0], y, z);
      var r := CalcOperations(State(t, memo), [inner, outer], Intended, [], apply, context);
      |r.text| == 1 && r.text[0].Ph? && r.text[0].key in r.memo &&
      Recall(r.memo, r.text[0].key) ==
        apply(outer.id,
              apply(outer.id, Recall(memo, w), apply(inner.id, Recall(memo, x), Recall(memo, y), context), context),
              Recall(memo, z), context)
  {
    var ops := [inner, outer];
    var o := outer.symbol[0];
    var t := Nested(w, o, x, inner.symbol[0], y, z);
    var st := State(t, memo);
    var mb := t[2..7];
    var memo1 := memo[mb := OperationEntry(memo, Brackets, inner, x, y, apply, context)];
    var s1 := State([Ph(w), Ch(o), Ph(mb), Ch(o), Ph(z)], memo1);
    NestedClosed(memo, w, o, x, inner.symbol[0], y, z);
    assert FamilyPass(st, Brackets, ops, Intended, [], apply, context) == s1 by {
      NestedBrackets(st, inner, Intended, [], apply, context, w, o, x, y, z);
      ChainNoOpen(s1.text, outer.symbol, Intended, [], w, o, mb, z);
      PassOfTwo(st, Brackets, inner, outer, Intended, [], apply, context);
    }
    assert mb != z && mb != w by {
      NestedMiddleKey(w, o, x, inner.symbol[0], y, z);
    }
    var m1 := Binary(w, o, mb);
    var memo2 := memo1[m1 := Applied(memo1, outer, w, mb, apply, context)];
    var m2 := Binary(m1, o, z);
    var s2 := State([Ph(m2)], memo2[m2 := Applied(memo2, outer, m1, z, apply, context)]);
    assert FamilyPass(s1, Simple, ops, Intended, [], apply, context) == s2 by {
      ChainIdle(s1.text, inner.symbol, Intended, [], w, o, mb, z);
      LeftSteps(memo1, outer, Intended, [], apply, context, w, mb, z);
      PassOfTwo(s1, Simple, inner, outer, Intended, [], apply, context);
    }
    assert CalcOperations(st, ops, Intended, [], apply, context) == s2 by {
      TwoSymbols(inner, outer);
      LoneAfterSimple(st, s1, s2, ops, Intended, [], apply, context);
    }
    assert m1 != z by { assert m1[0].Ph?; }
    assert Recall(memo1, mb) == apply(inner.id, Recall(memo, x), Recall(memo, y), context);
    assert Recall(memo2, m1) == apply(outer.id, Recall(memo, w), Recall(memo1, mb), context);
    assert Recall(memo2, z) == Recall(memo, z);
  }
}

=== FILE: ordered_map.dfy ===
/** PHP arrays used as ordered maps: assigning to an existing key keeps its
    position and takes the new value; a new key goes at the end. Both the
    function registry (`$this->functions[$name] = $function`) and
    `array_combine` over named call arguments build their maps this way, so
    for every key the last value given wins, in the position of the first. */
module OrderedMap {
  import opened Wrappers

  /** The value last given for k, if any. */
  function Last<K(==), V>(es: seq<(K, V)>, k: K): Option<V> {
    if es == [] then None
    else if es[|es| - 1].0 == k then Some(es[|es| - 1].1)
    else Last(es[..|es| - 1], k)
  }

  predicate Has<K(==), V>(es: seq<(K, V)>, k: K) {
    exists i :: 0 <= i < |es| && es[i].0 == k
  }

  /** The keys in order (`array_keys`). */
  function Keys<K, V>(m: seq<(K, V)>): (ks: seq<K>)
    ensures |ks| == |m| && forall i :: 0 <= i < |m| ==> ks[i] == m[i].0
  {
    seq(|m|, i requires 0 <= i < |m| => m[i].0)
  }

  /** The position of the first entry with key k (|es| if none). */
  function FirstIndex<K(==), V>(es: seq<(K, V)>, k: K): (n: nat)
    ensures n <= |es|
    ensures n < |es| ==> es[n].0 == k
    ensures forall i :: 0 <= i < n ==> es[i].0 != k
  {
    if es == [] then 0
    else if es[0].0 == k then 0
    else 1 + FirstIndex(es[1..], k)
  }

  predicate DistinctKeys<K(==), V>(r: seq<(K, V)>) {
    forall j, k :: 0 <= j < k < |r| ==> r[j].0 != r[k].0
  }

  /** `$map[$k] = $v`. */
  function Put<K(==), V>(m: seq<(K, V)>, k: K, v: V): seq<(K, V)> {
    var j := FirstIndex(m, k);
    if j < |m| then m[j := (k, v)] else m + [(k, v)]
  }

  /** The map built by assigning the entries in order. */
  function FromList<K(==), V>(es: seq<(K, V)>): (r: seq<(K, V)>)
    ensures DistinctKeys(r)
    ensures forall j :: 0 <= j < |r| ==> Last(es, r[j].0) == Some(r[j].1)
    ensures forall i :: 0 <= i < |es| ==> exists j :: 0 <= j < |r| && r[j].0 == es[i].0
    ensures forall j, k :: 0 <= j < k < |r| ==> FirstIndex(es, r[j].0) < FirstIndex(es, r[k].0)
  {
    if es == [] then []
    else
      var init := es[..|es| - 1];
      var e := es[|es| - 1];
      var m := FromList(init);
      Snoc(es);
      PutDistinct(m, e.0, e.1);
      PutLast(init, e, m);
      PutCovers(init, e, m);
      PutOrder(init, e, m);
      Put(m, e.0, e.1)
  }

  /** A nonempty list is its entries but the last, then the last. */
  lemma Snoc<T>(es: seq<T>)
    requires es != []
    ensures es == es[..|es| - 1] + [es[|es| - 1]]
  {
  }

  lemma PutShape<K, V>(m: seq<(K, V)>, k: K, v: V)
    ensures var r := Put(m, k, v); var j := FirstIndex(m, k);
      (j < |m| ==> |r| == |m| && r[j] == (k, v) && forall a :: 0 <= a < |m| && a != j ==> r[a] == m[a]) &&
      (j == |m| ==> r == m + [(k, v)] && forall a :: 0 <= a < |m| ==> m[a].0 != k) &&
      (forall a :: 0 <= a < |m| ==> r[a].0 == m[a].0)
  {
  }

  lemma PutDistinct<K, V>(m: seq<(K, V)>, k: K, v: V)
    requires DistinctKeys(m)
    ensures DistinctKeys(Put(m, k, v))
  {
    PutShape(m, k, v);
    var r := Put(m, k, v);
    forall a, b | 0 <= a < b < |r| ensures r[a].0 != r[b].0 {
      if b < |m| {
        assert r[a].0 == m[a].0 && r[b].0 == m[b].0;
      } else {
        assert r[b] == (k, v) && r[a] == m[a];
      }
    }
  }

  lemma LastExtend<K, V>(init: seq<(K, V)>, e: (K, V), k: K)
    ensures Last(init + [e], k) == if e.0 == k then Some(e.1) else Last(init, k)
  {
    var es := init + [e];
    assert es[|es| - 1] == e && es[..|es| - 1] == init;
  }

  lemma PutLast<K, V>(init: seq<(K, V)>, e: (K, V), m: seq<(K, V)>)
    requires DistinctKeys(m)
    requires forall j :: 0 <= j < |m| ==> Last(init, m[j].0) == Some(m[j].1)
    ensures forall a :: 0 <= a < |Put(m, e.0, e.1)| ==>
      Last(init + [e], Put(m, e.0, e.1)[a].0) == Some(Put(m, e.0, e.1)[a].1)
  {
    var r := Put(m, e.0, e.1);
    PutShape(m, e.0, e.1);
    forall a | 0 <= a < |r| ensures Last(init + [e], r[a].0) == Some(r[a].1) {
      LastExtend(init, e, r[a].0);
      if r[a] != (e.0, e.1) {
        assert a < |m| && r[a] == m[a];
      }
    }
  }

  lemma PutCovers<K, V>(init: seq<(K, V)>, e: (K, V), m: seq<(K, V)>)
    requires forall i :: 0 <= i < |init| ==> exists j :: 0 <= j < |m| && m[j].0 == init[i].0
    ensures forall i :: 0 <= i < |init + [e]| ==>
      exists j :: 0 <= j < |Put(m, e.0, e.1)| && Put(m, e.0, e.1)[j].0 == (init + [e])[i].0
  {
    var r := Put(m, e.0, e.1);
    var es := init + [e];
    PutShape(m, e.0, e.1);
    forall i | 0 <= i < |es| ensures exists j :: 0 <= j < |r| && r[j].0 == es[i].0 {
      if i < |init| {
        assert es[i] == init[i];
        var j :| 0 <= j < |m| && m[j].0 == init[i].0;
        assert r[j].0 == m[j].0;
      } else {
        var j := FirstIndex(m, e.0);
        if j < |m| { assert r[j].0 == e.0; } else { assert r[|m|].0 == e.0; }
      }
    }
  }

  lemma PutOrder<K, V>(init: seq<(K, V)>, e: (K, V), m: seq<(K, V)>)
    requires forall j :: 0 <= j < |m| ==> Last(init, m[j].0) == Some(m[j].1)
    requires forall i :: 0 <= i < |init| ==> exists j :: 0 <= j < |m| && m[j].0 == init[i].0
    requires forall j, k :: 0 <= j < k < |m| ==> FirstIndex(init, m[j].0) < FirstIndex(init, m[k].0)
    ensures forall j, k :: 0 <= j < k < |Put(m, e.0, e.1)| ==>
      FirstIndex(init + [e], Put(m, e.0, e.1)[j].0) < FirstIndex(init + [e], Put(m, e.0, e.1)[k].0)
  {
    ExtendKeepsIndex(init, e, m);
    if FirstIndex(m, e.0) == |m| {
      PutOrderNew(init, e, m);
    } else {
      PutShape(m, e.0, e.1);
      PutOrderUpdate(init + [e], init, m, Put(m, e.0, e.1));
    }
  }

  lemma ExtendKeepsIndex<K, V>(init: seq<(K, V)>, e: (K, V), m: seq<(K, V)>)
    requires forall j :: 0 <= j < |m| ==> Last(init, m[j].0) == Some(m[j].1)
    ensures forall a :: 0 <= a < |m| ==>
      FirstIndex(init + [e], m[a].0) == FirstIndex(init, m[a].0) < |init|
  {
    forall a | 0 <= a < |m|
      ensures FirstIndex(init + [e], m[a].0) == FirstIndex(init, m[a].0) < |init|
    {
      LastHas(init, m[a].0);
      FirstIndexExtend(init, e, m[a].0);
    }
  }

  lemma PutOrderNew<K, V>(init: seq<(K, V)>, e: (K, V), m: seq<(K, V)>)
    requires FirstIndex(m, e.0) == |m|
    requires forall i :: 0 <= i < |init| ==> exists j :: 0 <= j < |m| && m[j].0 == init[i].0
    requires forall j, k :: 0 <= j < k < |m| ==> FirstIndex(init, m[j].0) < FirstIndex(init, m[k].0)
    requires forall a :: 0 <= a < |m| ==>
      FirstIndex(init + [e], m[a].0) == FirstIndex(init, m[a].0) < |init|
    ensures forall j, k :: 0 <= j < k < |Put(m, e.0, e.1)| ==>
      FirstIndex(init + [e], Put(m, e.0, e.1)[j].0) < FirstIndex(init + [e], Put(m, e.0, e.1)[k].0)
  {
    assert Put(m, e.0, e.1) == m + [(e.0, e.1)];
    AbsentNotHas(init, e.0, m);
    FirstIndexExtend(init, e, e.0);
    PutOrderAppend(init + [e], m, (e.0, e.1), m + [(e.0, e.1)]);
  }

  lemma PutOrderUpdate<K, V>(es: seq<(K, V)>, init: seq<(K, V)>, m: seq<(K, V)>, r: seq<(K, V)>)
    requires |r| == |m|
    requires forall a :: 0 <= a < |m| ==> r[a].0 == m[a].0
    requires forall a :: 0 <= a < |m| ==> FirstIndex(es, m[a].0) == FirstIndex(init, m[a].0)
    requires forall j, k :: 0 <= j < k < |m| ==> FirstIndex(init, m[j].0) < FirstIndex(init, m[k].0)
    ensures forall j, k :: 0 <= j < k < |r| ==> FirstIndex(es, r[j].0) < FirstIndex(es, r[k].0)
  {
    forall j, k | 0 <= j < k < |r| ensures FirstIndex(es, r[j].0) < FirstIndex(es, r[k].0) {
      assert r[j].0 == m[j].0 && r[k].0 == m[k].0;
    }
  }

  lemma AbsentNotHas<K, V>(init: seq<(K, V)>, k: K, m: seq<(K, V)>)
    requires forall i :: 0 <= i < |init| ==> exists j :: 0 <= j < |m| && m[j].0 == init[i].0
    requires FirstIndex(m, k) == |m|
    ensures !Has(init, k)
  {
    forall i | 0 <= i < |init| ensures init[i].0 != k {
      var j :| 0 <= j < |m| && m[j].0 == init[i].0;
    }
  }

  lemma PutOrderAppend<K, V>(es: seq<(K, V)>, m: seq<(K, V)>, e: (K, V), r: seq<(K, V)>)
    requires r == m + [e]
    requires forall j, k :: 0 <= j < k < |m| ==> FirstIndex(es, m[j].0) < FirstIndex(es, m[k].0)
    requires forall a :: 0 <= a < |m| ==> FirstIndex(es, m[a].0) < FirstIndex(es, e.0)
    ensures forall j, k :: 0 <= j < k < |r| ==> FirstIndex(es, r[j].0) < FirstIndex(es, r[k].0)
  {
    forall j, k | 0 <= j < k < |r| ensures FirstIndex(es, r[j].0) < FirstIndex(es, r[k].0) {
      assert r[j] == m[j];
      if k < |m| { assert r[k] == m[k]; } else { assert r[k] == e; }
    }
  }

  lemma {:induction false} FirstIndexIs<K, V>(es: seq<(K, V)>, k: K, n: nat)
    requires n < |es| && es[n].0 == k
    requires forall j :: 0 <= j < n ==> es[j].0 != k
    ensures FirstIndex(es, k) == n
  {
    if n > 0 {
      assert es[0].0 != k;
      FirstIndexIs(es[1..], k, n - 1);
    }
  }

  lemma FirstIndexExtend<K, V>(init: seq<(K, V)>, e: (K, V), k: K)
    ensures Has(init, k) ==> FirstIndex(init + [e], k) == FirstIndex(init, k) < |init|
    ensures !Has(init, k) && e.0 == k ==> FirstIndex(init + [e], k) == |init|
  {
    var es := init + [e];
    if Has(init, k) {
      var i :| 0 <= i < |init| && init[i].0 == k;
      var n := FirstIndex(init, k);
      assert n <= i;
      assert es[n] == init[n];
      assert forall j :: 0 <= j < n ==> es[j] == init[j];
      FirstIndexIs(es, k, n);
    } else if e.0 == k {
      assert forall j :: 0 <= j < |init| ==> es[j] == init[j];
      assert es[|init|] == e;
      FirstIndexIs(es, k, |init|);
    }
  }

  lemma LastHas<K, V>(es: seq<(K, V)>, k: K)
    requires Last(es, k).Some?
    ensures Has(es, k)
  {
    if es[|es| - 1].0 != k {
      LastHas(es[..|es| - 1], k);
      var i :| 0 <= i < |es| - 1 && es[..|es| - 1][i].0 == k;
      assert es[i].0 == k;
    }
  }

  /** The value last given for a key was given with that key. */
  lemma LastIn<K, V>(es: seq<(K, V)>, k: K, v: V)
    requires Last(es, k) == Some(v)
    ensures (k, v) in es
  {
    if es[|es| - 1].0 != k {
      LastIn(es[..|es| - 1], k, v);
    } else {
      assert es[|es| - 1] == (k, v);
    }
  }

  /** A key given only once keeps the value it was given. */
  lemma {:induction false} LastOfSingle<K, V>(es: seq<(K, V)>, i: nat)
    requires i < |es|
    requires forall j :: 0 <= j < |es| && j != i ==> es[j].0 != es[i].0
    ensures Last(es, es[i].0) == Some(es[i].1)
  {
    if i != |es| - 1 {
      LastOfSingle(es[..|es| - 1], i);
    }
  }
}

=== FILE: registry.dfy ===
/** The evaluator's configuration: the function, operator and constant
    registries, validated and normalised once at construction
    (src/Executor.php, the constructor). Host behaviour is not part of the
    configuration: a registered function or operator carries an id, and the
    callback the host attaches to that id is supplied at evaluation time
    (see `Executor.Host`). */
module Registry {
  import opened Wrappers
  import opened Text
  import opened Components
  import opened OrderedMap

  datatype FunctionSpec = FunctionSpec(name: string, id: nat)

  /** An operator: its symbol, its priority (higher binds tighter) and the
      id of its host callback. */
  datatype OperatorSpec = OperatorSpec(symbol: string, priority: int, id: nat)

  /** A constructed evaluator: functions keyed by name in registration
      order, operators by descending priority, whether a variable resolver
      was given, and the constants in registration order. */
  datatype Config = Config(
    functions: seq<(string, FunctionSpec)>,
    operators: seq<OperatorSpec>,
    resolver: bool,
    constants: seq<(string, Value)>)

  /** ExecutorException codes 11, 22 and 4. */
  datatype ConfigError =
    | InvalidFunctionName(name: string)
    | InvalidOperator(symbol: string)
    | InvalidConstantName(name: string)

  // ---------------------------------------------------------------------
  // Validation patterns

  predicate AllWord(s: string) { forall i :: 0 <= i < |s| ==> IsWordChar(s[i]) }

  /** PCRE's `$` also matches just before a final line feed. */
  predicate EndsWithLineFeed(s: string) { |s| > 0 && s[|s| - 1] == '\n' }

  /** `~^[a-z\d_]+$~i`. */
  predicate ValidFunctionName(n: string) {
    (|n| > 0 && AllWord(n)) ||
    (EndsWithLineFeed(n) && |n| > 1 && AllWord(n[..|n| - 1]))
  }

  predicate IsIdentifier(s: string) {
    |s| > 0 && (IsLetter(s[0]) || s[0] == '_') && AllWord(s[1..])
  }

  /** `~^[a-z_][a-z\d_]*$~i`. */
  predicate ValidConstantName(n: string) {
    IsIdentifier(n) || (EndsWithLineFeed(n) && IsIdentifier(n[..|n| - 1]))
  }

  predicate ForbiddenInOperator(c: char) {
    c == '"' || c == '(' || c == ')' || c == ',' || c == '_'
  }

  /** An operator symbol must not match `~["(),_]~`. */
  predicate ValidOperator(symbol: string) {
    forall i :: 0 <= i < |symbol| ==> !ForbiddenInOperator(symbol[i])
  }

  /** The index of the first string that fails ok, if any. */
  function FirstFailing(xs: seq<string>, ok: string -> bool): (r: Option<nat>)
    ensures r.None? <==> forall i :: 0 <= i < |xs| ==> ok(xs[i])
    ensures r.Some? ==> r.value < |xs| && !ok(xs[r.value]) &&
                        forall j :: 0 <= j < r.value ==> ok(xs[j])
  {
    if xs == [] then None
    else if !ok(xs[0]) then Some(0)
    else match FirstFailing(xs[1..], ok)
      case None => None
      case Some(i) => Some(i + 1)
  }

  function FunctionNames(fs: seq<FunctionSpec>): (ns: seq<string>)
    ensures |ns| == |fs| && forall i :: 0 <= i < |fs| ==> ns[i] == fs[i].name
  {
    seq(|fs|, i requires 0 <= i < |fs| => fs[i].name)
  }

  function Symbols(ops: seq<OperatorSpec>): (ns: seq<string>)
    ensures |ns| == |ops| && forall i :: 0 <= i < |ops| ==> ns[i] == ops[i].symbol
  {
    seq(|ops|, i requires 0 <= i < |ops| => ops[i].symbol)
  }

  // ---------------------------------------------------------------------
  // Function registry: keyed by name, last registration wins

  /** The function list as name/function pairs. */
  function Keyed(fs: seq<FunctionSpec>): (es: seq<(string, FunctionSpec)>)
    ensures |es| == |fs| && forall i :: 0 <= i < |fs| ==> es[i] == (fs[i].name, fs[i])
  {
    seq(|fs|, i requires 0 <= i < |fs| => (fs[i].name, fs[i]))
  }

  /** The registry the constructor builds: `$this->functions[$name] =
      $function` for each function in turn. */
  function Register(fs: seq<FunctionSpec>): (r: seq<(string, FunctionSpec)>)
    ensures DistinctKeys(r)
    ensures forall j :: 0 <= j < |r| ==> r[j].1.name == r[j].0
    ensures forall j :: 0 <= j < |r| ==> Last(Keyed(fs), r[j].0) == Some(r[j].1)
    ensures forall i :: 0 <= i < |fs| ==> exists j :: 0 <= j < |r| && r[j].0 == fs[i].name
    ensures forall j, k :: 0 <= j < k < |r| ==>
      FirstIndex(Keyed(fs), r[j].0) < FirstIndex(Keyed(fs), r[k].0)
  {
    var es := Keyed(fs);
    var r := FromList(es);
    forall j | 0 <= j < |r| ensures r[j].1.name == r[j].0 {
      LastIn(es, r[j].0, r[j].1);
    }
    forall i | 0 <= i < |fs| ensures exists j :: 0 <= j < |r| && r[j].0 == fs[i].name {
      assert es[i].0 == fs[i].name;
    }
    r
  }

  /** Registering a function under a fresh name adds it at the end; under a
      taken name it replaces the earlier function in place. */
  lemma RegisterLastWins(fs: seq<FunctionSpec>, f: FunctionSpec)
    ensures Register(fs + [f]) == Put(Register(fs), f.name, f)
  {
    assert Keyed(fs + [f]) == Keyed(fs) + [(f.name, f)];
    var es := Keyed(fs + [f]);
    assert es[..|es| - 1] == Keyed(fs);
  }

  // ---------------------------------------------------------------------
  // Operator order: descending priority, ties in registration order

  predicate SortedByPriority(ops: seq<OperatorSpec>) {
    forall i, j :: 0 <= i < j < |ops| ==> ops[i].priority >= ops[j].priority
  }

  /** The operators of priority q, in order. */
  function WithPriority(ops: seq<OperatorSpec>, q: int): seq<OperatorSpec> {
    if ops == [] then []
    else (if ops[0].priority == q then [ops[0]] else []) + WithPriority(ops[1..], q)
  }

  /** Inserts x before the first operator whose priority is not higher. */
  function Insert(x: OperatorSpec, s: seq<OperatorSpec>): seq<OperatorSpec> {
    if s == [] || s[0].priority <= x.priority then [x] + s
    else [s[0]] + Insert(x, s[1..])
  }

  lemma {:induction false} InsertKeeps(x: OperatorSpec, s: seq<OperatorSpec>)
    ensures multiset(Insert(x, s)) == multiset(s) + multiset{x}
  {
    if !(s == [] || s[0].priority <= x.priority) {
      InsertKeeps(x, s[1..]);
      assert s == [s[0]] + s[1..];
    }
  }

  lemma {:induction false} InsertSorted(x: OperatorSpec, s: seq<OperatorSpec>)
    requires SortedByPriority(s)
    ensures SortedByPriority(Insert(x, s))
  {
    var r := Insert(x, s);
    if s == [] || s[0].priority <= x.priority {
      forall i, j | 0 <= i < j < |r| ensures r[i].priority >= r[j].priority {
        assert r[j] == s[j - 1];
        if i > 0 { assert r[i] == s[i - 1]; }
      }
    } else {
      var rest := Insert(x, s[1..]);
      InsertSorted(x, s[1..]);
      InsertKeeps(x, s[1..]);
      forall i, j | 0 <= i < j < |r| ensures r[i].priority >= r[j].priority {
        assert r[j] == rest[j - 1];
        if i == 0 {
          assert rest[j - 1] in multiset(rest);
          if rest[j - 1] != x {
            assert rest[j - 1] in s[1..];
            var m :| 0 <= m < |s[1..]| && s[1..][m] == rest[j - 1];
            assert s[m + 1] == r[j];
          }
        } else {
          assert r[i] == rest[i - 1];
        }
      }
    }
  }

  /** The constructor's `usort` by descending priority, made stable. */
  function SortOperators(ops: seq<OperatorSpec>): (r: seq<OperatorSpec>)
    ensures multiset(r) == multiset(ops)
    ensures SortedByPriority(r)
  {
    if ops == [] then []
    else
      var rest := SortOperators(ops[1..]);
      InsertKeeps(ops[0], rest);
      InsertSorted(ops[0], rest);
      assert ops == [ops[0]] + ops[1..];
      Insert(ops[0], rest)
  }

  lemma {:induction false} WithPriorityAppend(a: seq<OperatorSpec>, b: seq<OperatorSpec>, q: int)
    ensures WithPriority(a + b, q) == WithPriority(a, q) + WithPriority(b, q)
  {
    if a == [] {
      assert a + b == b;
    } else {
      assert (a + b)[0] == a[0];
      assert (a + b)[1..] == a[1..] + b;
      WithPriorityAppend(a[1..], b, q);
    }
  }

  lemma {:induction false} InsertStable(x: OperatorSpec, s: seq<OperatorSpec>, q: int)
    ensures WithPriority(Insert(x, s), q) == WithPriority([x], q) + WithPriority(s, q)
  {
    if s == [] || s[0].priority <= x.priority {
      WithPriorityAppend([x], s, q);
    } else {
      InsertStable(x, s[1..], q);
      WithPriorityAppend([s[0]], Insert(x, s[1..]), q);
      WithPriorityAppend([x], s[1..], q);
      assert s == [s[0]] + s[1..];
      WithPriorityAppend([s[0]], s[1..], q);
      if x.priority == q {
        assert WithPriority([s[0]], q) == [];
      } else {
        assert WithPriority([x], q) == [];
      }
    }
  }

  /** Sorting keeps the registration order among operators of equal
      priority: ties are broken by position, not left to chance. */
  lemma {:induction false} SortStable(ops: seq<OperatorSpec>, q: int)
    ensures WithPriority(SortOperators(ops), q) == WithPriority(ops, q)
  {
    if ops != [] {
      SortStable(ops[1..], q);
      InsertStable(ops[0], SortOperators(ops[1..]), q);
      assert ops == [ops[0]] + ops[1..];
      WithPriorityAppend([ops[0]], ops[1..], q);
    }
  }

  // ---------------------------------------------------------------------
  // Construction

  /** `new Executor($functions, $operators, $variables, $constants)`:
      function names are checked first, then operator symbols, then
      constant names; the first offender is reported. */
  function Construct(fs: seq<FunctionSpec>, ops: seq<OperatorSpec>, resolver: bool,
                     constants: seq<(string, Value)>): (r: Result<Config, ConfigError>)
    ensures r.Success? <==>
      (forall i :: 0 <= i < |fs| ==> ValidFunctionName(fs[i].name)) &&
      (forall i :: 0 <= i < |ops| ==> ValidOperator(ops[i].symbol)) &&
      (forall i :: 0 <= i < |constants| ==> ValidConstantName(constants[i].0))
    ensures r.Failure? && r.error.InvalidFunctionName? ==>
      exists i :: 0 <= i < |fs| && fs[i].name == r.error.name && !ValidFunctionName(fs[i].name) &&
        forall j :: 0 <= j < i ==> ValidFunctionName(fs[j].name)
    ensures r.Failure? && r.error.InvalidOperator? ==>
      (forall i :: 0 <= i < |fs| ==> ValidFunctionName(fs[i].name)) &&
      exists i :: 0 <= i < |ops| && ops[i].symbol == r.error.symbol && !ValidOperator(ops[i].symbol) &&
        forall j :: 0 <= j < i ==> ValidOperator(ops[j].symbol)
    ensures r.Failure? && r.error.InvalidConstantName? ==>
      (forall i :: 0 <= i < |fs| ==> ValidFunctionName(fs[i].name)) &&
      (forall i :: 0 <= i < |ops| ==> ValidOperator(ops[i].symbol)) &&
      exists i :: 0 <= i < |constants| && constants[i].0 == r.error.name &&
        !ValidConstantName(constants[i].0) &&
        forall j :: 0 <= j < i ==> ValidConstantName(constants[j].0)
    ensures r.Success? ==>
      r.value.resolver == resolver && r.value.constants == constants &&
      r.value.functions == Register(fs) && r.value.operators == SortOperators(ops)
  {
    match FirstFailing(FunctionNames(fs), ValidFunctionName)
    case Some(i) => Failure(InvalidFunctionName(fs[i].name))
    case None =>
      match FirstFailing(Symbols(ops), ValidOperator)
      case Some(i) => Failure(InvalidOperator(ops[i].symbol))
      case None =>
        match FirstFailing(Keys(constants), ValidConstantName)
        case Some(i) => Failure(InvalidConstantName(constants[i].0))
        case None => Success(Config(Register(fs), SortOperators(ops), resolver, constants))
  }

  /** After construction every operator is kept, in non-increasing
      priority, with ties in registration order. */
  lemma ConstructOrdersOperators(fs: seq<FunctionSpec>, ops: seq<OperatorSpec>, resolver: bool,
                                 constants: seq<(string, Value)>, q: int)
    requires Construct(fs, ops, resolver, constants).Success?
    ensures var c := Construct(fs, ops, resolver, constants).value;
      multiset(c.operators) == multiset(ops) && SortedByPriority(c.operators) &&
      WithPriority(c.operators, q) == WithPriority(ops, q)
  {
    SortStable(ops, q);
  }
}

=== FILE: strings.dfy ===
/** Quoted string literals: the literal pattern shared by `prepareStrings`
    and `guardToken`, the empty-string pass, unescaping, and the guard
    against placeholder-shaped text in the input (src/Executor.php). */
module Strings {
  import opened Wrappers
  import opened Text
  import opened Components
  import opened Memo

  predicate IsBs(x: Item) { x == Ch('\\') }

  /** The end of the run of backslashes starting at i. */
  function RunFrom(t: Text, i: nat): (j: nat)
    requires i <= |t|
    ensures i <= j <= |t|
    ensures forall k :: i <= k < j ==> IsBs(t[k])
    ensures j < |t| ==> !IsBs(t[j])
    decreases |t| - i
  {
    if i < |t| && IsBs(t[i]) then RunFrom(t, i + 1) else i
  }

  /** The start of the run of backslashes that ends just before j. */
  function RunBefore(t: Text, j: nat): (i: nat)
    requires j <= |t|
    ensures i <= j
    ensures forall k :: i <= k < j ==> IsBs(t[k])
    ensures i > 0 ==> !IsBs(t[i - 1])
  {
    if j > 0 && IsBs(t[j - 1]) then RunBefore(t, j - 1) else j
  }

  /** The run ending before j is determined by where it starts. */
  lemma RunBeforeIs(t: Text, j: nat, i: nat)
    requires i <= j <= |t|
    requires forall k :: i <= k < j ==> IsBs(t[k])
    requires i > 0 ==> !IsBs(t[i - 1])
    ensures RunBefore(t, j) == i
  {
  }

  /** `(?<!\\)(?:\\{2})*"` at s: s starts a run of an even number of
      backslashes (possibly none) that is followed by a quote. The result is
      where the literal's content starts. */
  function OpeningAt(t: Text, s: nat): (r: Option<nat>)
    ensures r.Some? ==> s < r.value <= |t| && CharAt(t, r.value - 1, '"')
    ensures r.Some? ==> (s == 0 || !IsBs(t[s - 1])) && (r.value - 1 - s) % 2 == 0
    ensures r.Some? ==> forall k :: s <= k < r.value - 1 ==> IsBs(t[k])
  {
    if s < |t| && (s == 0 || !IsBs(t[s - 1])) then
      var e := RunFrom(t, s);
      if (e - s) % 2 == 0 && CharAt(t, e, '"') then Some(e + 1) else None
    else None
  }

  /** A quote preceded by an even run of backslashes ends a literal; one
      preceded by an odd run is escaped. */
  predicate Closes(t: Text, q: nat) {
    CharAt(t, q, '"') && (q - RunBefore(t, q)) % 2 == 0
  }

  /** The first unescaped quote at or after q. */
  function FirstClosing(t: Text, q: nat): (r: Option<nat>)
    requires q <= |t|
    ensures r.None? <==> forall p :: q <= p < |t| ==> !Closes(t, p)
    ensures r.Some? ==> q <= r.value < |t| && Closes(t, r.value)
    ensures r.Some? ==> forall p :: q <= p < r.value ==> !Closes(t, p)
    decreases |t| - q
  {
    if q == |t| then None
    else if Closes(t, q) then Some(q)
    else FirstClosing(t, q + 1)
  }

  /** The literal pattern
      `(?<!\\)(?:\\{2})*"((?:(?<!\\)(?:\\{2})*\\"|[^"])+(?<!\\)(?:\\{2})*)"`
      matched at s. Escaped quotes can be part of the content, an unescaped
      one cannot, so the only possible end is the first unescaped quote; the
      match fails if the content before that quote's backslash run is
      empty. The one captured group is the content, up to the closing
      quote. */
  function LiteralAt(t: Text, s: nat): (r: Option<Match>)
    ensures r.Some? ==> 3 <= r.value.len && s + r.value.len <= |t|
    ensures r.Some? ==> CharAt(t, s + r.value.len - 1, '"') && Closes(t, s + r.value.len - 1)
    ensures r.Some? ==> OpeningAt(t, s).Some? && OpeningAt(t, s).value < s + r.value.len - 1
    ensures r.Some? ==> |r.value.refs| == 1
    ensures r.Some? ==> r.value.refs[0] == t[OpeningAt(t, s).value..s + r.value.len - 1]
  {
    match OpeningAt(t, s)
    case None => None
    case Some(cs) =>
      match FirstClosing(t, cs)
      case None => None
      case Some(q) =>
        if RunBefore(t, q) > cs then Some(Match(q + 1 - s, [t[cs..q]], [])) else None
  }

  /** `str_replace('\"', '"', $content)`. */
  function Unescape(content: Text): (u: Text)
    ensures |u| <= |content|
  {
    ReplaceAll(content, Lift("\\\""), Lift("\""))
  }

  // ---------------------------------------------------------------------
  // prepareStrings

  /** `(?<!\\)"{2}`: an empty literal not preceded by a backslash. */
  function EmptyAt(t: Text, i: nat): (r: Option<Match>)
    ensures r.Some? <==> CharAt(t, i, '"') && CharAt(t, i + 1, '"') && (i == 0 || !IsBs(t[i - 1]))
    ensures r.Some? ==> r.value.len == 2
  {
    if CharAt(t, i, '"') && CharAt(t, i + 1, '"') && (i == 0 || !IsBs(t[i - 1]))
    then Some(Match(2, [], []))
    else None
  }

  /** Every empty literal is hashed from the empty string, not from its
      matched text, and records the empty string. */
  function EmptyEntry(m: Text, x: Match): (Text, Component<Text>) {
    ([], StringC([]))
  }

  /** The literal loop: the leftmost literal is recorded under its matched
      text with its unescaped content and replaced everywhere, until none
      remains. */
  function Literals(st: State): (r: State)
    requires Closed(st.text, st.memo)
    ensures Closed(r.text, r.memo)
    ensures NoHit(r.text, LiteralAt)
    ensures |r.text| <= |st.text|
    ensures NoHit(st.text, LiteralAt) ==> r == st
    decreases |st.text|
  {
    match Leftmost(st.text, 0, LiteralAt)
    case None => st
    case Some(p) =>
      var x := LiteralAt(st.text, p).value;
      Literals(ReduceAt(st, p, LiteralAt, StringC(Unescape(x.refs[0]))))
  }

  /** `prepareStrings`: empty literals first, then the literal loop. */
  function PrepareStrings(st: State): (r: State)
    requires Closed(st.text, st.memo)
    ensures Closed(r.text, r.memo)
    ensures NoHit(r.text, LiteralAt)
    ensures |r.text| <= |st.text|
  {
    Literals(Scan(st, EmptyAt, EmptyEntry))
  }

  /** `""` alone becomes one placeholder for the empty string, keyed by the
      empty text rather than by the two quotes. */
  lemma EmptyString(memo: Memo)
    ensures PrepareStrings(State(Blanked, memo)) == State([Ph([])], memo[[] := StringC([])])
  {
    var t := Blanked;
    assert Closed(t, memo);
    assert EmptyAt(t, 0) == Some(Match(2, [], []));
    ScanWhole(State(t, memo), EmptyAt, EmptyEntry);
    NoQuoteNoLiteral([Ph([])]);
  }

  // ---------------------------------------------------------------------
  // guardToken

  /** The guard's loop: every literal is blanked to `""`, leftmost first. */
  function Blank(t: Text): (u: Text)
    ensures NoHit(u, LiteralAt)
    ensures |u| <= |t|
    ensures NoHit(t, LiteralAt) ==> u == t
    ensures forall i :: 0 <= i < |u| ==> u[i] in t || u[i] == Ch('"')
    decreases |t|
  {
    match Leftmost(t, 0, LiteralAt)
    case None => t
    case Some(p) =>
      var v := BlankAt(t, p);
      var u := Blank(v);
      assert forall i :: 0 <= i < |u| ==> u[i] in t || u[i] == Ch('"') by {
        forall i | 0 <= i < |u| && u[i] != Ch('"') ensures u[i] in t {
          var j :| 0 <= j < |v| && v[j] == u[i];
        }
      }
      u
  }

  /** The `""` a literal is blanked to. */
  const Blanked: Text := [Ch('"'), Ch('"')]

  /** `str_replace($matches[0], '""', $expression)` for the literal at p. */
  function BlankAt(t: Text, p: nat): (v: Text)
    requires HitAt(t, p, LiteralAt)
    ensures |v| < |t|
    ensures forall i :: 0 <= i < |v| ==> v[i] in t || v[i] == Ch('"')
  {
    var m := Matched(t, p, LiteralAt);
    assert |m| >= 3;
    OccursAt(t, m, p);
    ReplaceAll(t, m, Blanked)
  }

  /** `` `[a-f\d]{32}` `` at i. */
  predicate TokenAt(t: Text, i: nat) {
    i + 34 <= |t| && CharAt(t, i, '`') && CharAt(t, i + 33, '`') &&
    forall k :: i < k < i + 33 ==> t[k].Ch? && IsHex(t[k].c)
  }

  predicate HasToken(t: Text) {
    exists i :: 0 <= i < |t| && TokenAt(t, i)
  }

  /** `guardToken`: the input passes unless, with its literals blanked, it
      still holds placeholder-shaped text. */
  function Guard(t: Text): (ok: bool)
    ensures ok <==> !HasToken(Blank(t))
  {
    !HasToken(Blank(t))
  }

  /** Without quotes the guard rejects exactly the inputs holding a token. */
  lemma GuardWithoutQuotes(t: Text)
    requires forall i :: 0 <= i < |t| ==> t[i] != Ch('"')
    ensures Guard(t) <==> !HasToken(t)
  {
    NoQuoteNoLiteral(t);
  }

  /** A literal needs a quote. */
  lemma NoQuoteNoLiteral(t: Text)
    requires forall i :: 0 <= i < |t| ==> t[i] != Ch('"')
    ensures NoHit(t, LiteralAt)
    ensures NoHit(t, EmptyAt)
  {
    forall p | 0 <= p < |t| ensures !HitAt(t, p, LiteralAt) {
    }
  }

  /** Without backticks there is nothing for the guard to find. */
  lemma GuardWithoutBackticks(t: Text)
    requires forall i :: 0 <= i < |t| ==> t[i] != Ch('`')
    ensures Guard(t)
  {
  }

  /** A token inside a literal is blanked with it and does not trip the
      guard. */
  lemma GuardIgnoresQuotedToken(h: string)
    requires |h| == 32 && forall k :: 0 <= k < 32 ==> IsHex(h[k])
    ensures HasToken(Lift("`" + h + "`"))
    ensures Guard(Lift("\"`" + h + "`\""))
  {
    var tok := Lift("`" + h + "`");
    assert TokenAt(tok, 0);
    var w := "\"`" + h + "`\"";
    var t := Lift(w);
    assert |t| == 36;
    forall q | 1 <= q < 35 ensures !Closes(t, q) {
      if 2 <= q < 34 { assert w[q] == h[q - 2]; }
    }
    RunBeforeIs(t, 35, 35);
    assert Closes(t, 35);
    assert FirstClosing(t, 1) == Some(35);
    assert OpeningAt(t, 0) == Some(1);
    WholeLiteral(t);
    BlankWhole(t);
  }

  /** A text that is one literal is blanked to `""`. */
  lemma BlankWhole(t: Text)
    requires HitAt(t, 0, LiteralAt) && LiteralAt(t, 0).value.len == |t|
    ensures Blank(t) == Blanked
  {
    assert Leftmost(t, 0, LiteralAt) == Some(0);
    assert BlankAt(t, 0) == Blanked by {
      assert Matched(t, 0, LiteralAt) == t by { assert t[0..|t|] == t; }
      ReplaceWhole(t, Blanked);
    }
    EmptyHasNoLiteral();
  }

  /** `""` holds no literal: its content would be empty. */
  lemma EmptyHasNoLiteral()
    ensures NoHit(Blanked, LiteralAt)
  {
    TwoQuotesNoLiteral(Blanked);
  }

  /** Two quotes side by side: at the first, the literal's content would
      be empty; at the second, no closing quote follows. */
  lemma TwoQuotesNoLiteral(t: Text)
    requires |t| == 2 && t[0] == Ch('"') && t[1] == Ch('"')
    ensures NoHit(t, LiteralAt)
  {
    RunBeforeIs(t, 1, 1);
    assert FirstClosing(t, 1) == Some(1);
    assert LiteralAt(t, 0).None?;
    assert FirstClosing(t, 2).None?;
    assert LiteralAt(t, 1).None?;
  }

  // ---------------------------------------------------------------------
  // Escaping

  /** Writes a string as literal content: every quote gets a backslash. */
  function Escape(s: string): (t: Text)
    ensures forall q :: 0 <= q < |t| ==> t[q].Ch?
    ensures |s| > 0 ==> |t| > 0 && t[0] != Ch('"')
    ensures forall q :: 0 <= q < |t| && t[q] == Ch('"') ==> q > 0 && IsBs(t[q - 1])
    ensures '\\' !in s ==> forall q :: 0 <= q < |t| && IsBs(t[q]) ==> q + 1 < |t| && t[q + 1] == Ch('"')
    ensures '\\' !in s && |s| > 0 ==> !IsBs(t[|t| - 1])
  {
    if s == [] then []
    else
      var head := EscapeChar(s[0]);
      var rest := Escape(s[1..]);
      assert '\\' !in s ==> '\\' !in s[1..] by {
        if '\\' in s[1..] { var k :| 0 <= k < |s[1..]| && s[1..][k] == '\\'; assert s[k + 1] == '\\'; }
      }
      assert '\\' !in s ==> s[0] != '\\' by { if '\\' !in s { assert s[0] in s; } }
      head + rest
  }

  /** One character as literal content. */
  function EscapeChar(c: char): Text {
    if c == '"' then Lift("\\\"") else [Ch(c)]
  }

  /** Unescaping undoes escaping. */
  lemma {:induction false} UnescapeEscape(s: string)
    ensures Unescape(Escape(s)) == Lift(s)
  {
    if s != [] {
      var rest := Escape(s[1..]);
      assert Escape(s) == EscapeChar(s[0]) + rest;
      assert Unescape(EscapeChar(s[0]) + rest) == [Ch(s[0])] + Unescape(rest) by {
        UnescapeFront(s[0], rest);
      }
      assert Unescape(rest) == Lift(s[1..]) by {
        UnescapeEscape(s[1..]);
      }
      LiftCons(s);
    }
  }

  /** Unescaping an escaped character followed by a text that does not
      start with a quote takes the character back and goes on with the
      rest. */
  lemma UnescapeFront(c: char, rest: Text)
    requires |rest| > 0 ==> rest[0] != Ch('"')
    ensures Unescape(EscapeChar(c) + rest) == [Ch(c)] + Unescape(rest)
  {
    var p := Lift("\\\"");
    var q := Lift("\"");
    var t := EscapeChar(c) + rest;
    if c == '"' {
      assert t[..|p|] == p && t[|p|..] == rest;
      ReplaceAllFront(t, p, q);
    } else {
      assert t[1..] == rest;
      assert !StartsWith(t, p) by {
        if |t| >= 2 { assert t[1] == rest[0]; assert t[..2][1] == t[1]; }
      }
      ReplaceAllKeep(t, p, q);
    }
  }

  /** In the escaped form of a string without backslashes, a quote comes
      right after a backslash that follows no other backslash. */
  lemma EscapedQuote(s: string, i: nat)
    requires '\\' !in s && i < |Escape(s)| && Escape(s)[i] == Ch('"')
    ensures i > 0 && IsBs(Escape(s)[i - 1])
    ensures i > 1 ==> !IsBs(Escape(s)[i - 2])
  {
  }

  /** `"e"`: the content between two quotes. */
  function Quoted(e: Text): (t: Text)
    ensures |t| == |e| + 2 && t[0] == Ch('"') && t[|t| - 1] == Ch('"')
    ensures forall k :: 0 <= k < |e| ==> t[k + 1] == e[k]
    ensures t[1..|t| - 1] == e
  {
    [Ch('"')] + e + [Ch('"')]
  }

  /** In a literal written from a string without backslashes, every inner
      quote is escaped. */
  lemma EscapedInside(s: string, q: nat)
    requires '\\' !in s
    requires 1 <= q < |Escape(s)| + 1
    ensures !Closes(Quoted(Escape(s)), q)
  {
    var e := Escape(s);
    var t := Quoted(e);
    if CharAt(t, q, '"') {
      assert t[q] == e[q - 1];
      EscapedQuote(s, q - 1);
      assert t[q - 1] == e[q - 2];
      assert q - 2 > 0 ==> t[q - 2] == e[q - 3];
      RunBeforeIs(t, q, q - 1);
    }
  }

  /** The first unescaped quote at or after q is at r when r is unescaped
      and none before it is. */
  lemma {:induction false} FirstClosingIs(t: Text, q: nat, r: nat)
    requires q <= r < |t| && Closes(t, r)
    requires forall p :: q <= p < r ==> !Closes(t, p)
    ensures FirstClosing(t, q) == Some(r)
    decreases r - q
  {
    if q < r {
      FirstClosingIs(t, q + 1, r);
    }
  }

  /** The last quote of a literal written from a nonempty string without
      backslashes is unescaped. */
  lemma LastCloses(s: string)
    requires |s| > 0 && '\\' !in s
    ensures var t := Quoted(Escape(s)); Closes(t, |t| - 1) && RunBefore(t, |t| - 1) == |t| - 1
  {
    var e := Escape(s);
    var t := Quoted(e);
    assert t[|t| - 2] == e[|e| - 1];
    RunBeforeIs(t, |t| - 1, |t| - 1);
  }

  /** The closing quote of such a literal is its last item. */
  lemma ClosingOfEscaped(s: string)
    requires |s| > 0 && '\\' !in s
    ensures var t := Quoted(Escape(s)); FirstClosing(t, 1) == Some(|t| - 1)
  {
    var t := Quoted(Escape(s));
    assert forall q :: 1 <= q < |t| - 1 ==> !Closes(t, q) by {
      forall q | 1 <= q < |t| - 1 ensures !Closes(t, q) {
        EscapedInside(s, q);
      }
    }
    LastCloses(s);
    FirstClosingIs(t, 1, |t| - 1);
  }

  /** The literal written for a nonempty string without backslashes is
      matched whole, with the escaped string as its content. */
  lemma LiteralOfEscaped(s: string)
    requires |s| > 0 && '\\' !in s
    ensures var t := Quoted(Escape(s));
      LiteralAt(t, 0) == Some(Match(|t|, [Escape(s)], []))
  {
    var t := Quoted(Escape(s));
    assert OpeningAt(t, 0) == Some(1);
    ClosingOfEscaped(s);
    LastCloses(s);
    WholeLiteral(t);
  }

  /** A text that opens with a quote and first closes at its last item is
      one literal. */
  lemma WholeLiteral(t: Text)
    requires |t| > 2
    requires OpeningAt(t, 0) == Some(1) && FirstClosing(t, 1) == Some(|t| - 1)
    requires RunBefore(t, |t| - 1) > 1
    ensures LiteralAt(t, 0) == Some(Match(|t|, [t[1..|t| - 1]], []))
  {
  }

  /** A string without quotes is written as itself. */
  lemma {:induction false} EscapePlain(s: string)
    requires '"' !in s
    ensures Escape(s) == Lift(s)
  {
    if s != [] {
      assert s[0] in s;
      EscapePlain(s[1..]);
      LiftCons(s);
    }
  }

  /** A literal without inner quotes holds no empty literal. */
  lemma NoEmptyInside(s: string)
    requires |s| > 0 && '"' !in s
    ensures NoHit(Lift("\"" + s + "\""), EmptyAt)
  {
    var t := Lift("\"" + s + "\"");
    forall p | 0 <= p < |t| ensures !HitAt(t, p, EmptyAt) {
      if 1 <= p < |t| - 1 { assert t[p] == Ch(s[p - 1]) && s[p - 1] in s; }
      else if p == 0 { assert t[1] == Ch(s[0]) && s[0] in s; }
    }
  }

  /** The quoted string, lifted, is the lifted string between quotes. */
  lemma LiftQuoted(s: string)
    ensures Lift("\"" + s + "\"") == Quoted(Lift(s))
  {
    var w := "\"" + s + "\"";
    assert forall k :: 0 <= k < |s| ==> w[k + 1] == s[k];
  }

  /** `"s"` is one literal whose content is s itself. */
  lemma PlainLiteral(s: string)
    requires |s| > 0 && '"' !in s && '\\' !in s
    ensures var t := Lift("\"" + s + "\"");
      LiteralAt(t, 0) == Some(Match(|t|, [Lift(s)], [])) && Unescape(Lift(s)) == Lift(s)
  {
    EscapePlain(s);
    LiftQuoted(s);
    LiteralOfEscaped(s);
    UnescapeEscape(s);
  }

  /** A text that is one literal is reduced whole, once, to the entry of
      its unescaped content. */
  lemma LiteralsWhole(st: State)
    requires Closed(st.text, st.memo)
    requires LiteralAt(st.text, 0).Some? && LiteralAt(st.text, 0).value.len == |st.text|
    ensures var t := st.text;
      Literals(st) == State([Ph(t)], st.memo[t := StringC(Unescape(LiteralAt(t, 0).value.refs[0]))])
  {
    var t := st.text;
    var c := StringC(Unescape(LiteralAt(t, 0).value.refs[0]));
    assert Leftmost(t, 0, LiteralAt) == Some(0);
    ReduceWhole(st, LiteralAt, c);
    NoQuoteNoLiteral([Ph(t)]);
  }

  /** The literal loop on `"s"` reduces it whole, once. */
  lemma LiteralsOfPlain(s: string, memo: Memo)
    requires |s| > 0 && '"' !in s && '\\' !in s
    requires Closed(Lift("\"" + s + "\""), memo)
    ensures var t := Lift("\"" + s + "\"");
      Literals(State(t, memo)) == State([Ph(t)], memo[t := StringC(Lift(s))])
  {
    PlainLiteral(s);
    LiteralsWhole(State(Lift("\"" + s + "\""), memo));
  }

  /** `"s"` for a nonempty s without quotes or backslashes becomes one
      placeholder whose entry holds s. */
  lemma SingleLiteral(s: string, memo: Memo)
    requires |s| > 0 && '"' !in s && '\\' !in s
    requires Closed(Lift("\"" + s + "\""), memo)
    ensures var t := Lift("\"" + s + "\"");
      PrepareStrings(State(t, memo)) == State([Ph(t)], memo[t := StringC(Lift(s))])
  {
    var t := Lift("\"" + s + "\"");
    NoEmptyInside(s);
    assert Scan(State(t, memo), EmptyAt, EmptyEntry) == State(t, memo);
    LiteralsOfPlain(s, memo);
  }
}

=== FILE: text.dfy ===
/** The expression text the evaluator rewrites: a sequence of items, each a
    character or a placeholder. A placeholder carries the exact text it
    replaced, which makes the map from matched text to placeholder injective
    (it stands in for the md5 digest of that text), and no character equals a
    placeholder. */
module Text {

  datatype Item = Ch(c: char) | Ph(key: seq<Item>)

  type Text = seq<Item>

  /** The characters of a string as items. */
  function Lift(s: string): (t: Text)
    ensures |t| == |s|
    ensures forall i :: 0 <= i < |s| ==> t[i] == Ch(s[i])
  {
    seq(|s|, i requires 0 <= i < |s| => Ch(s[i]))
  }

  /** Lifting a nonempty string lifts its first character, then the rest. */
  lemma LiftCons(s: string)
    requires |s| > 0
    ensures Lift(s) == [Ch(s[0])] + Lift(s[1..])
  {
  }

  /** Lifting distributes over concatenation. */
  lemma LiftConcat(a: string, b: string)
    ensures Lift(a + b) == Lift(a) + Lift(b)
  {
  }

  // ---------------------------------------------------------------------
  // Character classes of the patterns (ASCII; the patterns use /i)

  predicate IsDigit(c: char) { '0' <= c <= '9' }

  predicate IsLetter(c: char) { 'a' <= c <= 'z' || 'A' <= c <= 'Z' }

  /** `[a-z\d_]` under the case-insensitive flag. */
  predicate IsWordChar(c: char) { IsDigit(c) || IsLetter(c) || c == '_' }

  /** `\s`: space, tab, line feed, vertical tab, form feed, carriage return. */
  predicate IsSpace(c: char) {
    c == ' ' || c == '\t' || c == '\n' || c == '\U{000B}' || c == '\U{000C}' || c == '\r'
  }

  /** `[a-f\d]`: a lower-case hexadecimal digit of an md5 digest. */
  predicate IsHex(c: char) { IsDigit(c) || 'a' <= c <= 'f' }

  /** ASCII lower-casing, the case folding of the /i flag on these names. */
  function Lower(c: char): char {
    if 'A' <= c <= 'Z' then (c as int + 32) as char else c
  }

  predicate IsWordItem(x: Item) { x.Ch? && IsWordChar(x.c) }

  predicate IsSpaceItem(x: Item) { x.Ch? && IsSpace(x.c) }

  predicate IsDigitItem(x: Item) { x.Ch? && IsDigit(x.c) }

  /** The item at position i is the character c. */
  predicate CharAt(t: Text, i: nat, c: char) { i < |t| && t[i] == Ch(c) }

  /** The item at position i is a placeholder. */
  predicate PhAt(t: Text, i: nat) { i < |t| && t[i].Ph? }

  /** The items from position i spell s, ignoring ASCII case. */
  predicate FoldAt(t: Text, i: nat, s: string) {
    i + |s| <= |t| &&
    forall k :: 0 <= k < |s| ==> t[i + k].Ch? && Lower(t[i + k].c) == Lower(s[k])
  }

  /** The first position at or after i that does not hold a `\s` character. */
  function SkipSpaces(t: Text, i: nat): (j: nat)
    requires i <= |t|
    ensures i <= j <= |t|
    ensures j < |t| ==> !IsSpaceItem(t[j])
    decreases |t| - i
  {
    if i < |t| && IsSpaceItem(t[i]) then SkipSpaces(t, i + 1) else i
  }

  /** The end of the run of word characters starting at i. */
  function SkipWord(t: Text, i: nat): (j: nat)
    requires i <= |t|
    ensures i <= j <= |t|
    ensures forall k :: i <= k < j ==> IsWordItem(t[k])
    ensures j < |t| ==> !IsWordItem(t[j])
    decreases |t| - i
  {
    if i < |t| && IsWordItem(t[i]) then SkipWord(t, i + 1) else i
  }

  /** The end of the run of decimal digits starting at i. */
  function SkipDigits(t: Text, i: nat): (j: nat)
    requires i <= |t|
    ensures i <= j <= |t|
    ensures forall k :: i <= k < j ==> IsDigitItem(t[k])
    ensures j < |t| ==> !IsDigitItem(t[j])
    decreases |t| - i
  {
    if i < |t| && IsDigitItem(t[i]) then SkipDigits(t, i + 1) else i
  }

  /** The first position at or after i holding x (|t| if none). */
  function FindItem(t: Text, i: nat, x: Item): (j: nat)
    requires i <= |t|
    ensures i <= j <= |t|
    ensures forall k :: i <= k < j ==> t[k] != x
    ensures j < |t| ==> t[j] == x
    decreases |t| - i
  {
    if i == |t| || t[i] == x then i else FindItem(t, i + 1, x)
  }

  /** The characters of a text; a placeholder reads as a backtick, the first
      character of its token (only ever applied to placeholder-free text). */
  function Chars(t: Text): (s: string)
    ensures |s| == |t|
    ensures forall i :: 0 <= i < |t| && t[i].Ch? ==> s[i] == t[i].c
  {
    seq(|t|, i requires 0 <= i < |t| => if t[i].Ch? then t[i].c else '`')
  }

  // ---------------------------------------------------------------------
  // Occurrences and str_replace

  predicate StartsWith(t: Text, p: Text) { |p| <= |t| && t[..|p|] == p }

  /** p occurs somewhere in t. */
  predicate Occurs(p: Text, t: Text)
    decreases |t|
  {
    StartsWith(t, p) || (|t| > 0 && Occurs(p, t[1..]))
  }

  /** An occurrence at a known position is an occurrence. */
  lemma {:induction false} OccursAt(t: Text, p: Text, i: nat)
    requires i + |p| <= |t| && t[i..i + |p|] == p
    ensures Occurs(p, t)
  {
    if i == 0 {
      assert t[..|p|] == p;
    } else {
      assert t[1..][i - 1..i - 1 + |p|] == t[i..i + |p|];
      OccursAt(t[1..], p, i - 1);
    }
  }

  /** `str_replace(p, r, t)`: every non-overlapping occurrence of p, scanned
      from the left, is replaced by r. */
  function ReplaceAll(t: Text, p: Text, r: Text): (u: Text)
    requires |p| > 0
    requires |r| <= |p|
    ensures |u| <= |t|
    ensures |r| < |p| && Occurs(p, t) ==> |u| < |t|
    ensures !Occurs(p, t) ==> u == t
    ensures forall i :: 0 <= i < |u| ==> u[i] in t || u[i] in r
    decreases |t|
  {
    if |t| < |p| then
      assert !Occurs(p, t) by { NoRoom(p, t); }
      t
    else if t[..|p|] == p then
      var rest := ReplaceAll(t[|p|..], p, r);
      assert forall i :: 0 <= i < |rest| ==> rest[i] in t || rest[i] in r by {
        forall i | 0 <= i < |rest| && rest[i] !in r ensures rest[i] in t {
          var j :| 0 <= j < |t[|p|..]| && t[|p|..][j] == rest[i];
          assert t[|p| + j] == rest[i];
        }
      }
      r + rest
    else
      var rest := ReplaceAll(t[1..], p, r);
      assert forall i :: 0 <= i < |rest| ==> rest[i] in t || rest[i] in r by {
        forall i | 0 <= i < |rest| && rest[i] !in r ensures rest[i] in t {
          var j :| 0 <= j < |t[1..]| && t[1..][j] == rest[i];
          assert t[1 + j] == rest[i];
        }
      }
      [t[0]] + rest
  }

  /** One step of str_replace: an occurrence at the front is replaced. */
  lemma ReplaceAllFront(t: Text, p: Text, r: Text)
    requires |p| > 0 && |r| <= |p| && StartsWith(t, p)
    ensures ReplaceAll(t, p, r) == r + ReplaceAll(t[|p|..], p, r)
  {
  }

  /** One step of str_replace: a front item that starts no occurrence is
      kept. */
  lemma ReplaceAllKeep(t: Text, p: Text, r: Text)
    requires |p| > 0 && |r| <= |p| && |t| > 0 && !StartsWith(t, p)
    ensures ReplaceAll(t, p, r) == [t[0]] + ReplaceAll(t[1..], p, r)
  {
    if |t| < |p| {
      assert |t[1..]| < |p|;
      assert t == [t[0]] + t[1..];
    } else {
      assert t[..|p|] != p;
    }
  }

  lemma {:induction false} NoRoom(p: Text, t: Text)
    requires |t| < |p|
    ensures !Occurs(p, t)
    decreases |t|
  {
    if |t| > 0 { NoRoom(p, t[1..]); }
  }

  /** A placeholder is never an item of its own key. */
  lemma NotOwnItem(k: Text)
    ensures Ph(k) !in k
  {
  }

  /** As long as str_replace has produced no replacement item, its output
      agrees with its input. */
  lemma {:induction false} ReplacePrefix(t: Text, p: Text, x: Item, k: nat)
    requires |p| > 0
    requires k <= |ReplaceAll(t, p, [x])|
    requires x !in ReplaceAll(t, p, [x])[..k]
    ensures k <= |t| && ReplaceAll(t, p, [x])[..k] == t[..k]
    decreases |t|
  {
    var u := ReplaceAll(t, p, [x]);
    if |t| < |p| {
    } else if t[..|p|] == p {
      if k > 0 {
        ReplacedHead(t, p, x, k);
        assert false;
      }
    } else if k > 0 {
      var rest := ReplaceAll(t[1..], p, [x]);
      assert u == [t[0]] + rest;
      assert rest[..k - 1] == u[..k][1..];
      ReplacePrefix(t[1..], p, x, k - 1);
    }
  }

  lemma ReplacedHead(t: Text, p: Text, x: Item, k: nat)
    requires |p| > 0 && StartsWith(t, p)
    requires 0 < k <= |ReplaceAll(t, p, [x])|
    ensures x in ReplaceAll(t, p, [x])[..k]
  {
    assert ReplaceAll(t, p, [x])[..k][0] == x;
  }

  /** After replacing every occurrence of p by one item x that is not part of
      p, no occurrence of p remains. */
  lemma {:induction false} ReplaceAllRemovesEvery(t: Text, p: Text, x: Item)
    requires |p| > 0
    requires x !in p
    ensures !Occurs(p, ReplaceAll(t, p, [x]))
    decreases |t|
  {
    var u := ReplaceAll(t, p, [x]);
    if |t| < |p| {
      NoRoom(p, t);
    } else if t[..|p|] == p {
      var rest := ReplaceAll(t[|p|..], p, [x]);
      ReplaceAllRemovesEvery(t[|p|..], p, x);
      assert u == [x] + rest;
      assert u[1..] == rest;
      assert !StartsWith(u, p) by { assert u[0] == x; }
    } else {
      var rest := ReplaceAll(t[1..], p, [x]);
      ReplaceAllRemovesEvery(t[1..], p, x);
      assert u == [t[0]] + rest;
      assert u[1..] == rest;
      assert !StartsWith(u, p) by {
        if |p| <= |u| && x !in u[..|p|] {
          ReplacePrefix(t, p, x, |p|);
        }
      }
    }
  }

  /** Replacing a whole text by one item leaves that item. */
  lemma ReplaceWhole(t: Text, x: Text)
    requires |t| > 0 && |x| <= |t|
    ensures ReplaceAll(t, t, x) == x
  {
    assert t[..|t|] == t;
    assert t[|t|..] == [];
  }

  /** m occurs in t at position i. */
  predicate StartsAt(t: Text, i: nat, m: Text) { i + |m| <= |t| && t[i..i + |m|] == m }

  /** str_replace of m where it occurs once, after pre and before post. */
  lemma {:induction false} ReplaceMiddle(pre: Text, m: Text, post: Text, x: Item)
    requires |m| > 0
    requires forall i :: 0 <= i < |pre| ==> !StartsAt(pre + m + post, i, m)
    requires !Occurs(m, post)
    ensures ReplaceAll(pre + m + post, m, [x]) == pre + [x] + post
    decreases |pre|
  {
    if pre == [] {
      assert pre + m + post == m + post && pre + [x] + post == [x] + post;
      ReplaceFirst(m, post, x);
    } else {
      MiddleStep(pre, m, post, x);
      ReplaceMiddle(pre[1..], m, post, x);
      DropFront(pre, [x], post);
    }
  }

  /** str_replace of m at the front of a text whose rest has no m. */
  lemma ReplaceFirst(m: Text, post: Text, x: Item)
    requires |m| > 0 && !Occurs(m, post)
    ensures ReplaceAll(m + post, m, [x]) == [x] + post
  {
    var t := m + post;
    assert t[..|m|] == m && t[|m|..] == post;
    ReplaceAllFront(t, m, [x]);
  }

  /** The front item of pre starts no occurrence: str_replace keeps it and goes on
      with the rest, where no occurrence starts inside pre[1..] either. */
  lemma MiddleStep(pre: Text, m: Text, post: Text, x: Item)
    requires |m| > 0 && |pre| > 0
    requires forall i :: 0 <= i < |pre| ==> !StartsAt(pre + m + post, i, m)
    ensures ReplaceAll(pre + m + post, m, [x]) == [pre[0]] + ReplaceAll(pre[1..] + m + post, m, [x])
    ensures forall i :: 0 <= i < |pre[1..]| ==> !StartsAt(pre[1..] + m + post, i, m)
  {
    var t := pre + m + post;
    var t' := pre[1..] + m + post;
    DropFront(pre, m, post);
    assert !StartsWith(t, m) by {
      assert !StartsAt(t, 0, m);
      assert t[..|m|] == t[0..|m|];
    }
    ReplaceAllKeep(t, m, [x]);
    forall i | 0 <= i < |pre[1..]| ensures !StartsAt(t', i, m) {
      StartsAfterFront(t, i, m);
    }
  }

  /** An occurrence at i after dropping the front item is one at i + 1 before. */
  lemma StartsAfterFront(t: Text, i: nat, m: Text)
    requires |t| > 0
    ensures StartsAt(t[1..], i, m) <==> StartsAt(t, i + 1, m)
  {
    if i + |m| <= |t| - 1 {
      assert t[1..][i..i + |m|] == t[i + 1..i + 1 + |m|];
    }
  }

  lemma DropFront(pre: Text, m: Text, post: Text)
    requires |pre| > 0
    ensures (pre + m + post)[1..] == pre[1..] + m + post
    ensures [pre[0]] + (pre[1..] + m + post) == pre + m + post
  {
  }

  // ---------------------------------------------------------------------
  // PHP trim

  /** `trim($s, $chars)`: strips every leading and trailing character that is
      in cs. */
  function Trim(s: string, cs: set<char>): (r: string)
    ensures IsTrimOf(s, r, cs)
  {
    var i := SkipIn(s, 0, cs);
    var j := BackIn(s, i, |s|, cs);
    assert s[i..j] == [] || (s[i..j][0] == s[i] && s[i..j][|s[i..j]| - 1] == s[j - 1]);
    s[i..j]
  }

  /** A string that neither starts nor ends with a character from cs is
      its own trim. */
  lemma TrimClean(s: string, cs: set<char>)
    requires |s| > 0 ==> s[0] !in cs && s[|s| - 1] !in cs
    ensures Trim(s, cs) == s
  {
    assert s[0..|s|] == s;
  }

  /** r is s with its leading and trailing characters from cs removed, and
      nothing else changed. */
  ghost predicate IsTrimOf(s: string, r: string, cs: set<char>) {
    exists i, j :: 0 <= i <= j <= |s| && r == s[i..j] &&
      (forall k :: 0 <= k < i ==> s[k] in cs) &&
      (forall k :: j <= k < |s| ==> s[k] in cs) &&
      (r != [] ==> r[0] !in cs && r[|r| - 1] !in cs)
  }

  function SkipIn(s: string, i: nat, cs: set<char>): (j: nat)
    requires i <= |s|
    ensures i <= j <= |s|
    ensures forall k :: i <= k < j ==> s[k] in cs
    ensures j < |s| ==> s[j] !in cs
    decreases |s| - i
  {
    if i < |s| && s[i] in cs then SkipIn(s, i + 1, cs) else i
  }

  function BackIn(s: string, lo: nat, j: nat, cs: set<char>): (e: nat)
    requires lo <= j <= |s|
    ensures lo <= e <= j
    ensures forall k :: e <= k < j ==> s[k] in cs
    ensures e > lo ==> s[e - 1] !in cs
    decreases j
  {
    if j > lo && s[j - 1] in cs then BackIn(s, lo, j - 1, cs) else j
  }

  // ---------------------------------------------------------------------
  // Whitespace collapse

  /** The items of t that are not `\s` characters, in order. */
  function NonSpace(t: Text): Text {
    if t == [] then [] else (if IsSpaceItem(t[0]) then [] else [t[0]]) + NonSpace(t[1..])
  }

  /** `preg_replace('/\s+/u', ' ', t)`: every maximal run of `\s`
      characters becomes one space. */
  function Collapse(t: Text): (u: Text)
    ensures |u| <= |t|
    ensures forall i :: 0 <= i < |u| ==> u[i] in t || u[i] == Ch(' ')
    decreases |t|
  {
    if t == [] then []
    else if IsSpaceItem(t[0]) then
      var j := SkipSpaces(t, 0);
      var rest := Collapse(t[j..]);
      assert forall i :: 0 <= i < |rest| ==> rest[i] in t || rest[i] == Ch(' ') by {
        forall i | 0 <= i < |rest| && rest[i] != Ch(' ') ensures rest[i] in t {
          var k :| 0 <= k < |t[j..]| && t[j..][k] == rest[i];
          assert t[j + k] == rest[i];
        }
      }
      [Ch(' ')] + rest
    else
      var rest := Collapse(t[1..]);
      assert forall i :: 0 <= i < |rest| ==> rest[i] in t || rest[i] == Ch(' ') by {
        forall i | 0 <= i < |rest| && rest[i] != Ch(' ') ensures rest[i] in t {
          var k :| 0 <= k < |t[1..]| && t[1..][k] == rest[i];
          assert t[1 + k] == rest[i];
        }
      }
      [t[0]] + rest
  }

  /** No `\s` character in u is other than a space, and no two stand side
      by side. */
  predicate SingleSpaced(u: Text) {
    (forall i :: 0 <= i < |u| && IsSpaceItem(u[i]) ==> u[i] == Ch(' ')) &&
    (forall i :: 0 <= i < |u| - 1 ==> !(IsSpaceItem(u[i]) && IsSpaceItem(u[i + 1])))
  }

  /** Collapsing keeps every other item, in order, and leaves single
      spaces between them. */
  lemma {:induction false} CollapseKeeps(t: Text)
    ensures NonSpace(Collapse(t)) == NonSpace(t)
    ensures SingleSpaced(Collapse(t))
    ensures t != [] && !IsSpaceItem(t[0]) ==> Collapse(t)[0] == t[0]
    ensures t != [] && IsSpaceItem(t[0]) ==> Collapse(t)[0] == Ch(' ')
    decreases |t|
  {
    if t != [] {
      var u := Collapse(t);
      if IsSpaceItem(t[0]) {
        var j := SkipSpaces(t, 0);
        var rest := Collapse(t[j..]);
        CollapseKeeps(t[j..]);
        SkipDropsSpaces(t, 0);
        assert t[0..] == t;
        assert u[1..] == rest;
        assert IsSpaceItem(Ch(' '));
        assert rest != [] ==> !IsSpaceItem(rest[0]);
      } else {
        var rest := Collapse(t[1..]);
        CollapseKeeps(t[1..]);
        assert u[1..] == rest;
        assert NonSpace(t) == [t[0]] + NonSpace(t[1..]);
        assert rest != [] && IsSpaceItem(rest[0]) ==> rest[0] == Ch(' ');
      }
    }
  }

  /** Skipping a run of `\s` characters drops nothing that `NonSpace`
      keeps. */
  lemma {:induction false} SkipDropsSpaces(t: Text, i: nat)
    requires i <= |t|
    ensures NonSpace(t[i..]) == NonSpace(t[SkipSpaces(t, i)..])
    decreases |t| - i
  {
    if i < |t| && IsSpaceItem(t[i]) {
      assert t[i..][1..] == t[i + 1..];
      SkipDropsSpaces(t, i + 1);
    }
  }

  /** Every item SkipSpaces passes over is a `\s` character. */
  lemma {:induction false} SkippedAreSpaces(t: Text, i: nat)
    requires i <= |t|
    ensures forall k :: i <= k < SkipSpaces(t, i) ==> IsSpaceItem(t[k])
    decreases |t| - i
  {
    if i < |t| && IsSpaceItem(t[i]) {
      SkippedAreSpaces(t, i + 1);
    }
  }

  /** A run of `\s` characters reaching the end is skipped to the end. */
  lemma {:induction false} SkipRun(t: Text, i: nat)
    requires i <= |t| && forall k :: i <= k < |t| ==> IsSpaceItem(t[k])
    ensures SkipSpaces(t, i) == |t|
    decreases |t| - i
  {
    if i < |t| {
      SkipRun(t, i + 1);
    }
  }

  /** Skipping spaces in a + b stops inside a where it stops inside a,
      and otherwise carries on into b. */
  lemma {:induction false} SkipConcat(a: Text, b: Text, i: nat)
    requires i <= |a|
    ensures SkipSpaces(a, i) < |a| ==> SkipSpaces(a + b, i) == SkipSpaces(a, i)
    ensures SkipSpaces(a, i) == |a| ==> SkipSpaces(a + b, i) == SkipSpaces(a + b, |a|)
    decreases |a| - i
  {
    if i < |a| && IsSpaceItem(a[i]) {
      assert (a + b)[i] == a[i];
      SkipConcat(a, b, i + 1);
    } else if i < |a| {
      assert (a + b)[i] == a[i];
    }
  }

  /** A nonempty run of `\s` characters alone collapses to one space. */
  lemma CollapseRun(t: Text)
    requires t != [] && forall k :: 0 <= k < |t| ==> IsSpaceItem(t[k])
    ensures Collapse(t) == [Ch(' ')]
  {
    SkipRun(t, 0);
    assert t[|t|..] == [];
  }

  /** Collapsing works piecewise when the cut does not fall inside a run
      of `\s` characters. */
  lemma {:induction false} CollapseSplit(a: Text, b: Text)
    requires a == [] || b == [] || !IsSpaceItem(a[|a| - 1]) || !IsSpaceItem(b[0])
    ensures Collapse(a + b) == Collapse(a) + Collapse(b)
    decreases |a|
  {
    if a == [] {
      assert a + b == b;
    } else if b == [] {
      assert a + b == a;
    } else if IsSpaceItem(a[0]) {
      var j := SkipSpaces(a, 0);
      if j < |a| {
        assert a[j..][|a[j..]| - 1] == a[|a| - 1];
        CollapseSplit(a[j..], b);
        RunInsideSplit(a, b);
      } else {
        RunWholeSplit(a, b);
      }
    } else {
      assert (a + b)[0] == a[0];
      assert (a + b)[1..] == a[1..] + b;
      if a[1..] != [] {
        assert a[1..][|a[1..]| - 1] == a[|a| - 1];
      }
      CollapseSplit(a[1..], b);
    }
  }

  /** Collapsing a text that starts with a run: one space, then the
      collapse of what follows the run. */
  lemma CollapseLeading(t: Text)
    requires t != [] && IsSpaceItem(t[0])
    ensures Collapse(t) == [Ch(' ')] + Collapse(t[SkipSpaces(t, 0)..])
  {
  }

  /** A leading run that ends inside a: the cut moves to the end of the
      run. */
  lemma RunInsideSplit(a: Text, b: Text)
    requires a != [] && IsSpaceItem(a[0]) && SkipSpaces(a, 0) < |a|
    requires Collapse(a[SkipSpaces(a, 0)..] + b) == Collapse(a[SkipSpaces(a, 0)..]) + Collapse(b)
    ensures Collapse(a + b) == Collapse(a) + Collapse(b)
  {
    var j := SkipSpaces(a, 0);
    LeadingInside(a, b);
    CollapseLeading(a);
    Regroup(Collapse(a + b), Collapse(a), Collapse(a[j..] + b), Collapse(a[j..]), Collapse(b));
  }

  /** Prepending one item to w == x + y prepends it to x. */
  lemma Regroup(u: Text, v: Text, w: Text, x: Text, y: Text)
    requires u == [Ch(' ')] + w && w == x + y && v == [Ch(' ')] + x
    ensures u == v + y
  {
  }

  /** A leading run that ends inside a ends at the same place in a + b. */
  lemma LeadingInside(a: Text, b: Text)
    requires a != [] && IsSpaceItem(a[0]) && SkipSpaces(a, 0) < |a|
    ensures Collapse(a + b) == [Ch(' ')] + Collapse(a[SkipSpaces(a, 0)..] + b)
  {
    var j := SkipSpaces(a, 0);
    SkipConcat(a, b, 0);
    assert (a + b)[0] == a[0];
    CollapseLeading(a + b);
    assert (a + b)[j..] == a[j..] + b;
  }

  /** A run filling a: a becomes one space, and b follows it. */
  lemma RunWholeSplit(a: Text, b: Text)
    requires a != [] && b != [] && IsSpaceItem(a[0]) && SkipSpaces(a, 0) == |a|
    requires !IsSpaceItem(a[|a| - 1]) || !IsSpaceItem(b[0])
    ensures Collapse(a + b) == Collapse(a) + Collapse(b)
  {
    var ab := a + b;
    assert ab[0] == a[0];
    RunThenItem(a, b);
    CollapseLeading(ab);
    CollapseLeading(a);
    assert ab[|a|..] == b;
    assert a[|a|..] == [];
  }

  /** A run filling a, then an item of b that is not `\s`: skipping stops
      at the start of b. */
  lemma RunThenItem(a: Text, b: Text)
    requires a != [] && b != [] && SkipSpaces(a, 0) == |a|
    requires !IsSpaceItem(a[|a| - 1]) || !IsSpaceItem(b[0])
    ensures SkipSpaces(a + b, 0) == |a|
  {
    SkipConcat(a, b, 0);
    SkippedAreSpaces(a, 0);
    assert IsSpaceItem(a[|a| - 1]);
    assert (a + b)[|a|] == b[0];
  }
}

=== FILE: variables.dfy ===
/** `prepareVariables` (src/Executor.php): each `{{name}}` is handed, with
    the call's context, to the host's variable resolver and replaced by a
    placeholder for the answer. */
module Variables {
  import opened Wrappers
  import opened Text
  import opened Components
  import opened Memo

  /** `\{\{([^}]+)}}` at i: two opening braces, then everything up to the
      first closing brace (at least one item), then two closing braces. The
      captured name is not trimmed. */
  function VariableAt(t: Text, i: nat): (r: Option<Match>)
    ensures r.Some? ==> 5 <= r.value.len && i + r.value.len <= |t|
    ensures r.Some? ==> CharAt(t, i, '{') && CharAt(t, i + 1, '{')
    ensures r.Some? ==> CharAt(t, i + r.value.len - 2, '}') && CharAt(t, i + r.value.len - 1, '}')
    ensures r.Some? ==> |r.value.refs| == 1 && r.value.refs[0] == t[i + 2..i + r.value.len - 2]
    ensures r.Some? ==> forall k :: i + 2 <= k < i + r.value.len - 2 ==> t[k] != Ch('}')
  {
    if CharAt(t, i, '{') && CharAt(t, i + 1, '{') then
      var j := FindItem(t, i + 2, Ch('}'));
      if j > i + 2 && CharAt(t, j + 1, '}') then Some(Match(j + 2 - i, [t[i + 2..j]], []))
      else None
    else None
  }

  /** The resolver loop: the leftmost reference is resolved, recorded under
      its matched text and replaced everywhere, until none remains. */
  function Variables(st: State, resolve: (Text, Value) -> Value, context: Value): (r: State)
    requires Closed(st.text, st.memo)
    ensures Closed(r.text, r.memo)
    ensures NoHit(r.text, VariableAt)
    ensures |r.text| <= |st.text|
    ensures NoHit(st.text, VariableAt) ==> r == st
    decreases |st.text|
  {
    match Leftmost(st.text, 0, VariableAt)
    case None => st
    case Some(p) =>
      var name := VariableAt(st.text, p).value.refs[0];
      var m := Matched(st.text, p, VariableAt);
      Variables(ReduceAt(st, p, VariableAt, VariableC(m, resolve(name, context))), resolve, context)
  }

  /** `prepareVariables`: nothing happens without a resolver. */
  function PrepareVariables(st: State, hasResolver: bool, resolve: (Text, Value) -> Value,
                            context: Value): (r: State)
    requires Closed(st.text, st.memo)
    ensures Closed(r.text, r.memo)
    ensures !hasResolver ==> r == st
    ensures hasResolver ==> NoHit(r.text, VariableAt)
    ensures |r.text| <= |st.text|
  {
    if hasResolver then Variables(st, resolve, context) else st
  }

  /** A reference needs an opening brace. */
  lemma NoBraceNoVariable(t: Text)
    requires forall i :: 0 <= i < |t| ==> t[i] != Ch('{')
    ensures NoHit(t, VariableAt)
  {
  }

  /** A lone reference `{{name}}` becomes one placeholder whose entry holds
      the resolver's answer for the untrimmed name. */
  lemma SingleVariable(name: string, memo: Memo, resolve: (Text, Value) -> Value, context: Value)
    requires |name| > 0 && '}' !in name
    requires Closed(Lift("{{" + name + "}}"), memo)
    ensures var t := Lift("{{" + name + "}}");
      Variables(State(t, memo), resolve, context) ==
      State([Ph(t)], memo[t := VariableC(t, resolve(Lift(name), context))])
  {
    var t := Lift("{{" + name + "}}");
    VariableWhole(name);
    assert Leftmost(t, 0, VariableAt) == Some(0);
    assert t[0..|t|] == t;
    ReduceWhole(State(t, memo), VariableAt, VariableC(t, resolve(Lift(name), context)));
    NoBraceNoVariable([Ph(t)]);
  }

  /** `{{name}}` is matched whole, capturing the name. */
  lemma VariableWhole(name: string)
    requires |name| > 0 && '}' !in name
    ensures var t := Lift("{{" + name + "}}");
      VariableAt(t, 0) == Some(Match(|t|, [Lift(name)], []))
  {
    var w := "{{" + name + "}}";
    var t := Lift(w);
    forall k | 2 <= k < |t| - 2 ensures t[k] != Ch('}') {
      assert w[k] == name[k - 2];
      assert name[k - 2] in name;
    }
    assert w[|w| - 2] == '}' && w[|w| - 1] == '}';
    assert FindItem(t, 2, Ch('}')) == |t| - 2;
    assert t[2..|t| - 2] == Lift(name);
  }
}

=== FILE: wrappers.dfy ===
/** Failure-carrying result types shared by the whole model. */
module Wrappers {

  /** An optional value. */
  datatype Option<+T> = None | Some(value: T)

  /** The outcome of an operation that either produces a value or fails
      with an error value (the source's exceptions). */
  datatype Result<+R, +E> = Success(value: R) | Failure(error: E)
}
